=== FILE: README.md ===
# knowledgebrowser core, modelled in Dafny

This project models the core of knowledgebrowser. The core covers:

- **Query templates** (`eu.fbk.querytemplate`). A `DefaultQuery` expands a
  SPARQL template by replacing each `$variable` with its argument. A
  `DefaultResult` is a cursor over the solutions of a query. A
  `DefaultNestedQuery` runs a chain of queries level by level, binding each
  query's input variables from the rows of the level above. Two collectors
  consume the resulting event stream: `JSONResultCollector`, which buffers
  key/value pairs and writes nested JSON objects, and
  `PrintResultCollector`, which writes one text line per event.
- **The ER map** (`eu.fbk.ermap`). A `Template` walks a JSON template and
  turns it into open-object, close-object and expand-element operations.
  The `TemplateProcessor` applies those operations until it meets the
  first expand element.
- **The materializer** (`eu.fbk.materializer`). An `Edge` is a property
  between two classes with an occurrence count. A `Level` is a list of
  edges that share a side. `PathAnalysis` offers a breadth-first
  connectivity test, a greedy maximum spanning tree and a depth-first
  grouping of edges into property paths.
- **The two triple joins of the benchmarks.** `eu.fbk.Benchmark` has a
  merge join over a step-back iterator. `eu.fbk.benchmark.Benchmark` has
  a nested-loop join that restarts the right iterator for every left
  triple.

The model uses the following conventions:

- Java objects become immutable datatypes, and operations become functions
  or methods over them.
- A method that can throw returns a `Result` whose error names the Java
  exception.
- Side effects become values:
  - A JSON generator is modelled as the list of tokens it is asked to
    write.
  - A result collector is modelled as the list of calls it receives.
  - An iterator is modelled as the list of items it has yet to yield.
- Java `int` arithmetic that can wrap is modelled through the `JavaInt`
  module's `Wrap`. Java `String` operations are in `JavaText`.

## Model

| member | source | states |
|---|---|---|
| DefaultQuery.Placeholder | src/main/java/eu/fbk/querytemplate/DefaultQuery.java:57 | the placeholder of a variable is a `$` followed by exactly the variable's name |
| DefaultQuery.Expand | src/main/java/eu/fbk/querytemplate/DefaultQuery.java:53-60 | an argument count different from the variable count is an IllegalArgumentException, and that is the only failure; with no variables the template comes back unchanged |
| DefaultQuery.ExpandLoop | src/main/java/eu/fbk/querytemplate/DefaultQuery.java:53-60 | the loop that checks the arity and then replaces each variable's placeholder in turn, front to back, on the text built so far, returns exactly what `Expand` defines through `Substitute`, IllegalArgumentException included |
| DefaultQuery.SubstituteAbsent | src/main/java/eu/fbk/querytemplate/DefaultQuery.java:56-58 | replacing placeholders that do not occur in the text leaves the text unchanged |
| DefaultQuery.ExpandAbsent | src/main/java/eu/fbk/querytemplate/DefaultQuery.java:53-60 | a template that mentions none of its variables expands to itself for any arguments of the right number |
| DefaultQuery.SubstituteIdentity | src/main/java/eu/fbk/querytemplate/DefaultQuery.java:56-58 | using each variable's own placeholder as its argument leaves any text unchanged |
| DefaultQuery.Perform | src/main/java/eu/fbk/querytemplate/DefaultQuery.java:63-66 | fails exactly when the expansion fails, with the same exception; otherwise a fresh cursor over the executor's answer to the expanded text |
| DefaultQuery.ExpandTypeQuery | src/test/java/eu/fbk/querytemplate/DefaultQueryTest.java:33-34 | the test's type query expands its IRI into `SELECT ?i {?i a <IRI>}` for every IRI |
| DefaultQuery.ExpandSinglePlaceholder | src/main/java/eu/fbk/querytemplate/DefaultQuery.java:53-60 | one placeholder with no `$` before it and a short tail after it is replaced by the argument, with the rest of the text kept |
| DefaultResult.GetBindings | src/main/java/eu/fbk/querytemplate/DefaultResult.java:38-43 | returns the result set's variables and caches them, without moving the cursor |
| DefaultResult.GetBindingsCached | src/main/java/eu/fbk/querytemplate/DefaultResult.java:38-43 | a second call answers the same as the first |
| DefaultResult.Next | src/main/java/eu/fbk/querytemplate/DefaultResult.java:46-52 | true exactly when a solution is left, which then becomes the current one; false leaves the cursor as it was |
| DefaultResult.Drain | src/main/java/eu/fbk/querytemplate/DefaultResult.java:46-52 | stepping to the end visits exactly the solutions after the cursor, in order |
| DefaultResult.DrainOpen | src/main/java/eu/fbk/querytemplate/DefaultResult.java:46-52 | a fresh cursor visits every solution of its result set |
| DefaultResult.GetValue | src/main/java/eu/fbk/querytemplate/DefaultResult.java:55-57 | the current solution's value for the binding; a NullPointerException when no row is current or the binding is unbound |
| DefaultResult.GetValues | src/main/java/eu/fbk/querytemplate/DefaultResult.java:60-67 | one value per variable, in variable order; it succeeds exactly when every single-binding lookup succeeds |
| DefaultResult.GetValueMatchesGetValues | src/main/java/eu/fbk/querytemplate/DefaultResult.java:55-67 | the i-th entry of `getValues` is `getValue` of the i-th variable |
| DefaultNestedQuery.IndexOf | src/main/java/eu/fbk/querytemplate/DefaultNestedQuery.java:88-93 | the first position holding the text; an IllegalArgumentException exactly when it is absent |
| DefaultNestedQuery.BindArguments | src/main/java/eu/fbk/querytemplate/DefaultNestedQuery.java:80-86 | each input variable takes the value of its first same-named binding; an IllegalArgumentException exactly when some input variable is not bound |
| DefaultNestedQuery.BindArticle | src/test/java/eu/fbk/querytemplate/DefaultNestedQueryTest.java:76-88 | a row of the test's article query, with bindings `Article`, `p`, `o`, binds the agent query's single input `Article` to the row's article value |
| DefaultNestedQuery.BindSingle | src/main/java/eu/fbk/querytemplate/DefaultNestedQuery.java:80-93 | a single input variable takes the value at its first binding position |
| DefaultNestedQuery.BindArgumentsIndexed | src/main/java/eu/fbk/querytemplate/DefaultNestedQuery.java:80-93 | the loop of `bindArguments` yields the positional arguments (input variable `j` takes the value at the first binding of its name), and fails with IllegalArgumentException exactly when some input variable is unbound |
| DefaultNestedQuery.GetQuery | src/main/java/eu/fbk/querytemplate/DefaultNestedQuery.java:41-44 | the query at the level, and an IndexOutOfBounds exactly outside `0 .. getLevels() - 1` |
| DefaultNestedQuery.HasLevelGetQuery | src/main/java/eu/fbk/querytemplate/DefaultNestedQuery.java:31-44 | for non-negative levels `hasLevel` holds exactly when `getQuery` has a query; every negative level passes `hasLevel` although `getQuery` throws there |
| DefaultNestedQuery.OnBindings | src/main/java/eu/fbk/querytemplate/DefaultNestedQuery.java:47-67 | never moves the cursor backwards, and a run without an exception consumes every row |
| DefaultNestedQuery.ParentRows | src/main/java/eu/fbk/querytemplate/DefaultNestedQuery.java:50-66 | the loop over parent rows consumes rows only, and all of them unless an exception stops it |
| DefaultNestedQuery.RowTurn | src/main/java/eu/fbk/querytemplate/DefaultNestedQuery.java:51-65 | a row with an unbound variable emits nothing and throws NullPointerException; a completed turn is `result(bindings, the row's values)`, then `startLevel(level)`, and ends with `endLevel(level)` |
| DefaultNestedQuery.ParentRowsEvents | src/main/java/eu/fbk/querytemplate/DefaultNestedQuery.java:50-66 | the loop completes exactly when every remaining row's turn completes, and then its events are the turns of the remaining rows, in cursor order, one after the other |
| DefaultNestedQuery.OnBindingsEvents | src/main/java/eu/fbk/querytemplate/DefaultNestedQuery.java:47-67 | a completed `executeQueryOnBindings` has found every remaining row bound, and emitted, row by row in order, `result` with that row's values followed by its level's turn |
| DefaultNestedQuery.LevelQuery | src/main/java/eu/fbk/querytemplate/DefaultNestedQuery.java:53-65 | a level with no query fails at once with IndexOutOfBounds; a completed turn is framed by its level's start and end |
| DefaultNestedQuery.LevelQueryBinds | src/main/java/eu/fbk/querytemplate/DefaultNestedQuery.java:53-65 | at an existing level, an input variable missing from the bindings fails with IllegalArgumentException before anything is emitted; otherwise the child query is performed with argument `j` equal to the row's value at the first binding named like input variable `j`, and its rows are walked between `startLevel(level)` and, when they complete, `endLevel(level)` |
| DefaultNestedQuery.ChildRows | src/main/java/eu/fbk/querytemplate/DefaultNestedQuery.java:56-64 | the loop over child rows consumes rows only, and all of them unless an exception stops it |
| DefaultNestedQuery.ChildRowsLastLevel | src/main/java/eu/fbk/querytemplate/DefaultNestedQuery.java:56-64 | at the last level the i-th event collects the result variables with the values of the i-th remaining row, one event per row and nothing else; the run fails exactly when a remaining row leaves a variable unbound |
| DefaultNestedQuery.ChildRowsDeeperLevel | src/main/java/eu/fbk/querytemplate/DefaultNestedQuery.java:56-64 | with a deeper level, the nested call drains the shared cursor, so only the first child row is collected |
| DefaultNestedQuery.ExecuteNestedQuery | src/main/java/eu/fbk/querytemplate/DefaultNestedQuery.java:70-78 | the events open with begin and level 0; a complete run closes with level 0's end and the end; no levels fails with IndexOutOfBounds; a wrong argument count fails with IllegalArgumentException |
| DefaultNestedQuery.ExecuteNestedQueryWellFormed | src/main/java/eu/fbk/querytemplate/DefaultNestedQuery.java:47-78 | the events nest properly: every level that starts ends, innermost first, every row falls inside a level, and a complete run closes everything |
| JsonResultCollector.New | src/main/java/eu/fbk/querytemplate/JSONResultCollector.java:39-46 | a pattern that does not split into two parts is an IllegalArgumentException; otherwise the two bindings are colon-free, the value binding is non-empty, and the buffer is empty |
| JsonResultCollector.NewAccepts | src/main/java/eu/fbk/querytemplate/JSONResultCollector.java:39-46 | every `field:value` pattern with a non-empty value, with any trailing colons, is accepted with those two halves |
| JsonResultCollector.NewAccepted | src/main/java/eu/fbk/querytemplate/JSONResultCollector.java:39-46 | every accepted pattern is `field:value` followed only by colons |
| JsonResultCollector.Pick | src/main/java/eu/fbk/querytemplate/JSONResultCollector.java:73-81 | the key is the value at the last position binding the field binding, and the value is the one at the last position the value binding contains; each is absent exactly when no position qualifies |
| JsonResultCollector.DoCollect | src/main/java/eu/fbk/querytemplate/JSONResultCollector.java:71-86 | an ArrayIndexOutOfBoundsException exactly when a binding the loop would read a value for lies past the end of the values; otherwise the picked pair is buffered when both halves were found |
| JsonResultCollector.CollectPair | src/main/java/eu/fbk/querytemplate/JSONResultCollector.java:71-86 | a row with one key binding and one value binding buffers exactly that pair |
| JsonResultCollector.ValuesFor | src/main/java/eu/fbk/querytemplate/JSONResultCollector.java:111 | a key has values exactly when some buffered pair has that key |
| JsonResultCollector.Flush | src/main/java/eu/fbk/querytemplate/JSONResultCollector.java:107-123 | an empty buffer writes nothing; every flush writes a balanced run of fields |
| JsonResultCollector.FlushReadBack | src/main/java/eu/fbk/querytemplate/JSONResultCollector.java:107-123 | reading the written fields back yields, for every key in iteration order, all its buffered values in insertion order, whether it had one value or an array of them |
| JsonResultCollector.Handle | src/main/java/eu/fbk/querytemplate/JSONResultCollector.java:49-105 | which tokens each kind of call writes: `{` for begin, the flushed buffer then the query name, `{`, `"args"` and the joined arguments for a level start, nothing for `collect`, the flushed buffer then `}` for a level end, `}` for end; only `collect` can fail, exactly as `DoCollect` does; the two bindings never change; level boundaries empty the buffer |
| JsonResultCollector.LevelTokensReadBack | src/main/java/eu/fbk/querytemplate/JSONResultCollector.java:57-123 | the tokens a level boundary writes read back as the buffered fields, in first-insertion order, followed by the level's own tokens |
| JsonResultCollector.RunNesting | src/main/java/eu/fbk/querytemplate/JSONResultCollector.java:49-105 | the objects open in the written JSON follow the calls' begin and level depth |
| JsonResultCollector.RunBalanced | src/main/java/eu/fbk/querytemplate/JSONResultCollector.java:49-105 | calls whose begins and levels are matched by ends produce balanced JSON |
| JsonResultCollector.HandleNesting | src/main/java/eu/fbk/querytemplate/JSONResultCollector.java:49-105 | each single call opens or closes exactly the objects its kind says |
| PrintResultCollector.Lines | src/main/java/eu/fbk/querytemplate/PrintResultCollector.java:35-57 | one printed line per collector call, in call order |
| PrintResultCollector.LinesConcat | src/main/java/eu/fbk/querytemplate/PrintResultCollector.java:35-57 | printing two call sequences one after the other prints the lines of each in turn |
| PrintResultCollector.DescribeLine | src/main/java/eu/fbk/querytemplate/PrintResultCollector.java:35-57 | every line `Line` prints can be parsed back to the kind of call and its level, and the query name of a level start |
| PrintResultCollector.DescribeLines | src/main/java/eu/fbk/querytemplate/PrintResultCollector.java:35-57 | the i-th printed line tells the kind of the i-th call |
| Template.NodeOps | src/main/java/eu/fbk/ermap/Template.java:52-73 | the context stack is restored after an object's operations |
| Template.FieldOps | src/main/java/eu/fbk/ermap/Template.java:52-73 | the context stack is restored after the operations of a run of fields |
| Template.GetOperations | src/main/java/eu/fbk/ermap/Template.java:44-73 | a template whose root is not an object yields no operations |
| Template.GetOperationsWellFormed | src/main/java/eu/fbk/ermap/Template.java:44-73 | every open object is closed again with the same context, innermost first, and the walk ends back at the root entity |
| Template.NodeOpsSucceeds | src/main/java/eu/fbk/ermap/Template.java:52-73 | the walk succeeds exactly when every field value is null or an object; an array or a scalar fails |
| Template.FieldOpsSucceeds | src/main/java/eu/fbk/ermap/Template.java:52-73 | a run of fields succeeds exactly when each of its values is null or a plain object |
| Template.ApplyNesting | src/main/java/eu/fbk/ermap/Template.java:90-165 | the JSON tokens `Apply` writes for a well-nested operation list open and close objects exactly as the context stack does |
| Template.ExampleOps | src/test/java/eu/fbk/ermap/TemplateTest.java:30-65 | the test's nested template yields the expected operation list, with any names in it |
| Template.ToStringDistinguishes | src/main/java/eu/fbk/ermap/Template.java:98-193 | `toString` tells the kind of every operation, and the context of every object and array operation: equal texts come from equal operations, except that two expand operations can print alike |
| Template.ExpandTextAmbiguous | src/main/java/eu/fbk/ermap/Template.java:191-193 | an expand text does not always determine its element and context: element `a [b` in context `c` prints like element `a` in context `b [c` |
| Template.RenderDistinguishes | src/main/java/eu/fbk/ermap/Template.java:98-193 | two operation lists that print alike have equal lengths, the same kinds position by position, and equal object and array operations |
| Template.ExampleText | src/test/java/eu/fbk/ermap/TemplateTest.java:49-64 | the test's operations print as the expected texts |
| TemplateProcessor.FirstExpand | src/main/java/eu/fbk/ermap/TemplateProcessor.java:42-43 | the position of the first expand element; none comes before it |
| TemplateProcessor.Iterate | src/main/java/eu/fbk/ermap/TemplateProcessor.java:41-60 | writes the operations before the first expand element and stops there; it fails with IllegalArgumentException exactly when that element names neither an entity nor a relationship |
| TemplateProcessor.Process | src/main/java/eu/fbk/ermap/TemplateProcessor.java:29-39 | the output starts with the root object and field; it completes, closed by the end of the root object, exactly when the template is walkable and its first expand element, if any, is known |
| TemplateProcessor.ProcessWithoutExpand | src/main/java/eu/fbk/ermap/TemplateProcessor.java:29-60 | a template without expand elements has all its operations applied, as a balanced list of generator tokens |
| TemplateProcessor.ProcessStopsAtExpand | src/main/java/eu/fbk/ermap/TemplateProcessor.java:41-60 | the output holds only what comes before the first expand element |
| Edges.NewEdge | src/main/java/eu/fbk/materializer/Edge.java:33-38 | the three names are trimmed and the count kept; already trimmed names are kept as given |
| Edges.NewEdgeOfFields | src/main/java/eu/fbk/materializer/Edge.java:33-38 | an edge can be rebuilt from its own fields exactly when its names are trimmed |
| Edges.CompareTo | src/main/java/eu/fbk/materializer/Edge.java:41-43 | without overflow, the sign orders by descending count; for non-negative counts it never overflows |
| Edges.CompareToAntisymmetric | src/main/java/eu/fbk/materializer/Edge.java:41-43 | every edge compares equal to itself, and swapping the operands negates the result while no overflow occurs |
| Edges.CompareToOverflow | src/main/java/eu/fbk/materializer/Edge.java:41-43 | at the extremes of `int` the subtraction wraps, so an edge with the smallest count sorts before one with a positive count |
| Edges.Equals | src/main/java/eu/fbk/materializer/Edge.java:51-65 | null or another class is unequal, the same object is equal, and another edge is equal exactly when all four fields are; equal edges have equal hash codes |
| Edges.EqualsSymmetricTransitive | src/main/java/eu/fbk/materializer/Edge.java:51-65 | equality between edges is symmetric and transitive |
| Edges.StringHashPolynomial | src/main/java/eu/fbk/materializer/Edge.java:68-70 | the 32-bit `String.hashCode` that `StringHash` computes step by step is the documented polynomial `s[0]*31^(n-1) + ... + s[n-1]` reduced to 32 bits |
| Edges.HashCodeProduct | src/main/java/eu/fbk/materializer/Edge.java:68-70 | the left-to-right wrapped multiplication of `HashCode` is the exact product of the three string hashes, 2, 3, 5 and the count, reduced to 32 bits once |
| Edges.HashCodeShape | src/main/java/eu/fbk/materializer/Edge.java:68-70 | `HashCode` is always even, because the factor 2 survives the 32-bit reduction, and zero when the count is zero |
| Edges.Texts | src/main/java/eu/fbk/materializer/Edge.java:46-48 | one text per edge, in order |
| Edges.ToStringCount | src/main/java/eu/fbk/materializer/Edge.java:46-48 | in the text `ToString` builds, the count appears in decimal right after the left class, the arrow and the property, and reads back as the count |
| Edges.ToStringExample | src/test/java/eu/fbk/materializer/PathAnalysisTest.java:36-41 | the test's first edge prints as `CL1 -- P1 (1) --> CR1` |
| Levels.NewLevel | src/main/java/eu/fbk/materializer/Level.java:32-46 | an IllegalArgumentException exactly when the edge list is null or empty, or its edges share neither one left class nor one right class, whatever the direction flag; otherwise the level keeps both arguments |
| Levels.NewForwardLevel | src/main/java/eu/fbk/materializer/Level.java:48-50 | fails and succeeds as the two-argument constructor does, and the level it builds is not reverted |
| Levels.GetHeaviestEdge | src/main/java/eu/fbk/materializer/Level.java:60-70 | the first edge with the largest count; none when every count is the smallest `int` |
| Levels.ToStringReadBack | src/main/java/eu/fbk/materializer/Level.java:73-75 | the text `ToString` builds names the direction flag, which can be read back from it, followed by the bracketed list of the edges' texts |
| BreadthFirst.VisitNeighbours | src/main/java/eu/fbk/materializer/PathAnalysis.java:48-56 | after the scan of one node's edges, every neighbour of the node is visited, only neighbours are newly visited, and exactly the new ones are queued |
| BreadthFirst.Search | src/main/java/eu/fbk/materializer/PathAnalysis.java:41-59 | the visited set is exactly the classes reachable from the start over the edges, in either direction |
| SpanningTree.SortByCount | src/main/java/eu/fbk/materializer/PathAnalysis.java:150 | the sorted list has the same edges with counts non-increasing |
| SpanningTree.SortStable | src/main/java/eu/fbk/materializer/PathAnalysis.java:150 | edges with equal counts keep their relative order |
| SpanningTree.GreedyCovers | src/main/java/eu/fbk/materializer/PathAnalysis.java:151-159 | `Greedy` keeps a subsequence of the edges, after which every class of every input edge is covered, and keeps no more edges than the new classes they cover |
| SpanningTree.GreedySnoc | src/main/java/eu/fbk/materializer/PathAnalysis.java:153-158 | one more edge at the end is kept exactly when one of its classes is outside the classes covered so far, and skipped otherwise |
| SpanningTree.GreedyBringsNew | src/main/java/eu/fbk/materializer/PathAnalysis.java:153-158 | every kept edge has a class that neither the start set nor the edges kept before it cover |
| SpanningTree.LoopStep | src/main/java/eu/fbk/materializer/PathAnalysis.java:153-158 | one turn of the loop appends the edge exactly when `coveredNodes` misses one of its classes, and then adds both classes |
| SpanningTree.MaxSpanningTreeLoop | src/main/java/eu/fbk/materializer/PathAnalysis.java:148-161 | the loop with its `coveredNodes` set returns the edges `GetMaxSpanningTree` defines, and `coveredNodes` ends as exactly their classes |
| SpanningTree.GetMaxSpanningTree | src/main/java/eu/fbk/materializer/PathAnalysis.java:148-161 | the edges taken come from the input, heaviest first, touch exactly the input's classes, and are no more than the classes |
| DepthFirst.Loop | src/main/java/eu/fbk/materializer/PathAnalysis.java:61-101 | the walk keeps its grouping invariant and stops only when its stack empties or there are as many groups as edges |
| DepthFirst.BuildPathDepthFirstGroups | src/main/java/eu/fbk/materializer/PathAnalysis.java:61-101 | every group `BuildPathDepthFirst` returns is non-empty, its edges share the group's class, and no edge appears in two groups or twice |
| DepthFirst.BuildPathDepthFirstExample | src/test/java/eu/fbk/materializer/PathAnalysisTest.java:34-43 | the test's four edges group as `[[P1], [P2, P3], [P3']]` |
| PathAnalysis.Add | src/main/java/eu/fbk/materializer/PathAnalysis.java:187-189 | appends the trimmed edge and keeps the earlier ones in place |
| PathAnalysis.AddThenGetEdges | src/main/java/eu/fbk/materializer/PathAnalysis.java:114-116 | after an `add`, `getEdges` returns the earlier edges and then the constructed edge, so an analysis built by `add` only holds edges with trimmed names |
| PathAnalysis.AddNodes | src/main/java/eu/fbk/materializer/PathAnalysis.java:105-112 | adding an edge adds its two trimmed classes to the end of the node list |
| PathAnalysis.GetNodes | src/main/java/eu/fbk/materializer/PathAnalysis.java:105-112 | the node list holds the left class and then the right class of each edge, in edge order |
| PathAnalysis.GetIn | src/main/java/eu/fbk/materializer/PathAnalysis.java:118-126 | exactly the edges reaching the node, with their multiplicities and in order |
| PathAnalysis.GetOut | src/main/java/eu/fbk/materializer/PathAnalysis.java:128-136 | exactly the edges leaving the node, with their multiplicities and in order |
| PathAnalysis.GetProperties | src/main/java/eu/fbk/materializer/PathAnalysis.java:138-146 | exactly the edges from the left class to the right class, with their multiplicities and in order |
| PathAnalysis.PropertiesAreOutThenIn | src/main/java/eu/fbk/materializer/PathAnalysis.java:128-146 | the edges between two classes are the edges leaving the first that reach the second |
| PathAnalysis.IsConnected | src/main/java/eu/fbk/materializer/PathAnalysis.java:163-168 | true exactly when every node of the analysis is reachable from the first edge's left class; an empty array is an index error |
| PathAnalysis.ToPropertyPath | src/main/java/eu/fbk/materializer/PathAnalysis.java:170-185 | succeeds exactly when the edges are non-empty and connected, with the depth-first grouping from the first edge's left class; otherwise an index error or an IllegalArgumentException |
| Triples.WithId | src/main/java/eu/fbk/Benchmark.java:218-228 | `GetId` reads back exactly the id that was set, and the other two roles are unaffected |
| Triples.Skip | src/main/java/eu/fbk/Benchmark.java:206-216 | the first position whose id reaches the target; every earlier id is below it |
| Triples.CountWithIdSuffix | src/main/java/eu/fbk/Benchmark.java:185-203 | fewer right triples never match more left triples |
| StepBack.HasNext | src/main/java/eu/fbk/Benchmark.java:299-301 | true exactly when a triple remains, the pushed-back one included |
| StepBack.Next | src/main/java/eu/fbk/Benchmark.java:304-311 | yields the first remaining triple (the pushed-back one when present) and clears the push-back |
| StepBack.SetBack | src/main/java/eu/fbk/Benchmark.java:254-256 | the triple becomes the next one yielded, after which the iterator is as before |
| StepBack.GoTo | src/main/java/eu/fbk/Benchmark.java:206-216 | drops exactly the remaining triples whose id is below the target; the first one at or above it stays next |
| MergeJoin.MergeCountBound | src/main/java/eu/fbk/Benchmark.java:185-203 | the as-written count never exceeds the number of left triples whose id occurs on the right |
| MergeJoin.ScanOne | src/main/java/eu/fbk/Benchmark.java:192-201 | one left triple: a hit has the left id, and the round seeks and consumes exactly as one step of `MergeCount` |
| MergeJoin.JoinIterators | src/main/java/eu/fbk/Benchmark.java:185-203 | counts as `MergeCount` says, hence never more than the true join count |
| MergeJoin.JoinIteratorsDropsMatch | src/main/java/eu/fbk/Benchmark.java:195-200 | on sorted input, the join loses a match that exists |
| MergeJoin.SeekDecides | src/main/java/eu/fbk/Benchmark.java:206-216 | on ascending right ids, the id occurs exactly when the triple the seek stops at carries it |
| MergeJoin.JoinIteratorsPushBack | src/main/java/eu/fbk/Benchmark.java:185-203 | on ids ascending on both sides, the corrected join counts exactly the left triples whose id occurs on the right |
| MergeJoin.HasNext | src/main/java/eu/fbk/Benchmark.java:379-396 | true leaves a pending match with the id of the left triple consumed last; false only once the left side is exhausted; each true is one step of `MergeCount` |
| MergeJoin.Next | src/main/java/eu/fbk/Benchmark.java:398-404 | an IllegalStateException exactly when no match is pending; otherwise the match, which is then cleared |
| MergeJoin.NextClearsMatch | src/main/java/eu/fbk/Benchmark.java:398-404 | a second `next` without `hasNext` fails |
| MergeJoin.Drain | src/main/java/eu/fbk/Benchmark.java:379-404 | iterating the join iterator yields as many matches as the join method counts |
| MergeJoin.DrainFresh | src/main/java/eu/fbk/Benchmark.java:320-404 | an iterator fresh from `NewJoinIter` and the join method agree on the same inputs |
| RestartJoin.Compare | src/main/java/eu/fbk/benchmark/Benchmark.java:242-248 | true exactly when the two texts are equal |
| RestartJoin.GoTo | src/main/java/eu/fbk/benchmark/Benchmark.java:250-261 | the first triple from the start whose id reaches the target; null exactly when there is none |
| RestartJoin.CountCounted | src/main/java/eu/fbk/benchmark/Benchmark.java:214-240 | counts no more than the left triples, nor the left triples whose id occurs on the right |
| RestartJoin.JoinIterators | src/main/java/eu/fbk/benchmark/Benchmark.java:214-240 | counts the left triples whose seek finds a different triple with an equal id and equal dictionary text, so never more than the true join count |
| RestartJoin.SelfJoinCountsNothing | src/main/java/eu/fbk/benchmark/Benchmark.java:214-240 | joining a list on strictly increasing ids with itself counts nothing, since each seek finds the triple itself |
| RestartJoin.FindEqual | src/main/java/eu/fbk/benchmark/Benchmark.java:361-368 | the first right triple with the id; none exactly when no triple has it |
| RestartJoin.HasNext | src/main/java/eu/fbk/benchmark/Benchmark.java:353-371 | true leaves pending the first right triple with the id of the left triple consumed last; false only once the left side is exhausted; each true is one left triple that has a partner |
| RestartJoin.Next | src/main/java/eu/fbk/benchmark/Benchmark.java:373-379 | an IllegalStateException exactly when no match is pending; otherwise the match, which is then cleared |
| RestartJoin.Drain | src/main/java/eu/fbk/benchmark/Benchmark.java:353-379 | iterating the join iterator yields one match per left triple whose id occurs on the right |
| JavaText.Trim | src/main/java/eu/fbk/materializer/Edge.java:34-37 | the result is a slice of the input with no blank at either end, and all the cut characters are blank |
| JavaText.TrimIdempotent | src/main/java/eu/fbk/materializer/Edge.java:34-37 | trimming twice is trimming once |
| JavaText.SplitAll | src/main/java/eu/fbk/querytemplate/JSONResultCollector.java:41 | the pieces contain no separator and join back to the input |
| JavaText.ReplaceIsSplitJoin | src/main/java/eu/fbk/querytemplate/DefaultQuery.java:57 | `Replace` with a non-empty target is cutting the text at the non-overlapping occurrences of the target, found left to right, and joining the pieces with the replacement |

## Left out

- Hash iteration order. `BreadthFirst.Search` returns the visited set as a set; the order of Java's `HashSet` plays no part in the result.
- Key order in `flushMap`. `ArrayListMultimap`'s key order is unspecified. `JsonResultCollector.Flush` is stated for every order that lists each key once. The collector itself uses first-insertion order.
- Console output. The `System.out.println` in `JSONResultCollector.collect` and in `PathAnalysis.toPropertyPath` is not modelled.
- PathAnalysis.ToPropertyPath: the source prints the grouping and returns null. The model returns the grouping instead.
- Jackson's `JsonGenerator` is modelled as the list of tokens written. Its I/O and the `IOException`s, which the source wraps in `RuntimeException`, are not modelled. Neither are Jackson's checks on token order: a `writeStartObject` where a field name is expected throws `JsonGenerationException`, which is such an `IOException`, while the model simply records the token.
- The open-array and close-array operations of `Template` are never produced by `getOperations`. Only their absence is modelled.
- SpanningTree.SortByCount: the model sorts by the true counts, stably. The source uses `Arrays.sort` with `compareTo`, which subtracts counts and can wrap, as `Edges.CompareToOverflow` shows. The model matches the source whenever no subtraction wraps.
- Java strings are modelled as Dafny strings, that is, sequences of Unicode scalar values, and not as sequences of UTF-16 code units. On text in the Basic Multilingual Plane the two coincide. `trim` treats every character up to U+0020 as blank, as Java does.
- Edges.StringHash: equals Java's `String.hashCode` only for text without supplementary characters. Java hashes the two surrogate units of such a character separately, while the model hashes the one scalar value. Lone surrogates, which a Java string may hold, cannot be represented at all. `Edges.HashCode` inherits the same gap.
- The HDT dictionary of `eu.fbk.benchmark.Benchmark` is a function parameter from id and role to text. A null `idToString` is not modelled.
- The join counters and triple ids are unbounded integers. The source's `int` would wrap after 2^31 matches or ids.
- The delegating methods of `StepBackIteratorTripleID` are not modelled: `hasPrevious`, `previous`, `goToStart`, `canGoTo`, `goTo(long)`, `estimatedNumResults`, `numResultEstimation`, `getOrder` and `remove`. Neither are the join iterators' methods that only throw `UnsupportedOperationException`. None of them is used by the joins.
- `getId`'s `UnsupportedOperationException` cannot be reached: `Role` has exactly the three roles.
- The getters of `Level` and `Edge` are datatype fields here.
- `DefaultNestedQuery.hasLevel` is `level < levels.length`, as in the source. Negative levels therefore count as present, and `getQuery` then fails with IndexOutOfBounds, as `DefaultNestedQuery.HasLevelGetQuery` states. The engine itself only asks for levels from 0 upwards.
- The query engine is a total function from query text to a result set. What SPARQL it runs is outside the model.
- `TemplateProcessor` has only stubs for entities and relationships. The model keeps just their names, as sets.

## Findings

| source | as written | input that shows it | evidently intended | confidence | as-written member | corrected member |
|---|---|---|---|---|---|---|
| src/main/java/eu/fbk/Benchmark.java:195-200 | after the seek, `joinIterators` takes the right triple with `next()` even when its id is larger than the left id, and never pushes it back; the next left triple with that larger id then seeks past it | left subject ids [1, 2], right subject ids [2], both sorted: the count is 0, while one left triple has a partner | push the compared triple back when its id is larger, so that the join counts every left triple whose id occurs on the right | not executed | MergeJoin.JoinIteratorsDropsMatch | MergeJoin.JoinIteratorsPushBack |

`JoinIteratorTripleID.hasNext` (src/main/java/eu/fbk/Benchmark.java:383-396) has the same step. `MergeJoin.HasNext` models it as written. `MergeJoin.JoinIterators` gives the as-written count and `MergeJoin.JoinIteratorsPushBack` the corrected one.

=== FILE: breadth_first.dfy ===
/** `PathAnalysis.breadthFirst`: the classes reachable from a start class
    when every edge may be followed in either direction. */
module BreadthFirst {
  import opened Edges

  /** `e` joins `a` and `b`, in either direction. */
  predicate Joins(e: Edge, a: string, b: string) {
    (e.cLeft == a && e.cRight == b) || (e.cRight == a && e.cLeft == b)
  }

  /** Some edge joins `a` and `b`. */
  predicate Adjacent(edges: seq<Edge>, a: string, b: string) {
    exists i | 0 <= i < |edges| :: Joins(edges[i], a, b)
  }

  /** `p` walks from `s` to `t` along edges. */
  predicate IsPath(edges: seq<Edge>, p: seq<string>, s: string, t: string) {
    |p| >= 1 && p[0] == s && p[|p| - 1] == t
    && forall k | 0 <= k < |p| - 1 :: Adjacent(edges, p[k], p[k + 1])
  }

  /** The reference definition: some walk leads from `s` to `t`. */
  ghost predicate Reachable(edges: seq<Edge>, s: string, t: string) {
    exists p :: IsPath(edges, p, s, t)
  }

  /** Some edge of `edges` has `x` at one of its ends. */
  predicate Touches(edges: seq<Edge>, x: string) {
    exists i | 0 <= i < |edges| :: edges[i].cLeft == x || edges[i].cRight == x
  }

  /** Every class an edge touches. */
  function Endpoints(edges: seq<Edge>): (r: set<string>)
    ensures forall i | 0 <= i < |edges| :: edges[i].cLeft in r && edges[i].cRight in r
    ensures forall x | x in r :: Touches(edges, x)
    decreases |edges|
  {
    if |edges| == 0 then {}
    else
      var rest := Endpoints(edges[1..]);
      forall x | x in rest
        ensures Touches(edges, x)
      {
        var i :| 0 <= i < |edges[1..]| && (edges[1..][i].cLeft == x || edges[1..][i].cRight == x);
        assert edges[i + 1] == edges[1..][i];
      }
      assert forall i | 1 <= i < |edges| :: edges[i] == edges[1..][i - 1];
      {edges[0].cLeft, edges[0].cRight} + rest
  }

  /** Every neighbour of `v` along `e` is in `visited`. */
  predicate Closed(e: Edge, v: string, visited: set<string>) {
    (e.cLeft == v ==> e.cRight in visited) && (e.cRight == v ==> e.cLeft in visited)
  }

  /** A set holding the start of a walk and closed under every edge holds
      the end of the walk. */
  lemma {:induction false} ClosedHoldsWalk(edges: seq<Edge>, visited: set<string>, p: seq<string>, s: string, t: string)
    requires IsPath(edges, p, s, t)
    requires s in visited
    requires forall v, i | v in visited && 0 <= i < |edges| :: Closed(edges[i], v, visited)
    ensures t in visited
    decreases |p|
  {
    if |p| > 1 {
      assert Adjacent(edges, p[0], p[1]);
      var i :| 0 <= i < |edges| && Joins(edges[i], p[0], p[1]);
      assert Closed(edges[i], p[0], visited);
      var rest := p[1..];
      forall k | 0 <= k < |rest| - 1
        ensures Adjacent(edges, rest[k], rest[k + 1])
      {
        assert rest[k] == p[k + 1] && rest[k + 1] == p[k + 2];
      }
      ClosedHoldsWalk(edges, visited, rest, p[1], t);
    }
  }

  /** Reachability extends along one more edge. */
  lemma ReachableStep(edges: seq<Edge>, s: string, v: string, w: string)
    requires Reachable(edges, s, v) && Adjacent(edges, v, w)
    ensures Reachable(edges, s, w)
  {
    var p :| IsPath(edges, p, s, v);
    var q := p + [w];
    forall k | 0 <= k < |q| - 1
      ensures Adjacent(edges, q[k], q[k + 1])
    {
      if k < |p| - 1 {
        assert q[k] == p[k] && q[k + 1] == p[k + 1];
      } else {
        assert q[k] == v && q[k + 1] == w;
      }
    }
    assert IsPath(edges, q, s, w);
  }

  /** A strict subset is smaller. */
  lemma StrictSubsetSmaller(a: set<string>, b: set<string>)
    requires a < b
    ensures |a| < |b|
  {
    var x :| x in b && x !in a;
    var c := b - a;
    assert b == a + c && a * c == {};
    assert x in c;
  }

  /** What the inner loop of `breadthFirst` keeps after the first `i`
      edges, from the visited set `visited` and queue `q` it started with:
      it has only added classes, all of them touched by some edge and
      joined to `current`; every one of the first `i` edges is closed at
      `current`; and the queue gained exactly the newly visited classes. */
  ghost predicate NeighbourInv(current: string, edges: seq<Edge>, i: nat, visited: set<string>, q: seq<string>,
                         visited': set<string>, q': seq<string>)
    requires i <= |edges|
  {
    && visited <= visited' <= visited + Endpoints(edges)
    && (forall k | 0 <= k < i :: Closed(edges[k], current, visited'))
    && (forall w | w in visited' && w !in visited :: Adjacent(edges, current, w))
    && (forall v :: v in q' <==> (v in q || (v in visited' && v !in visited)))
    && (visited' == visited ==> q' == q)
  }

  /** After visiting `x`, which edge `i` joins to `current`, the first
      `i + 1` edges are closed at `current`. */
  lemma VisitClosed(current: string, edges: seq<Edge>, i: nat, visited': set<string>, x: string)
    requires i < |edges| && Joins(edges[i], current, x)
    requires forall k | 0 <= k < i :: Closed(edges[k], current, visited')
    ensures forall k | 0 <= k < i + 1 :: Closed(edges[k], current, visited' + {x})
  {
    forall k | 0 <= k < i + 1
      ensures Closed(edges[k], current, visited' + {x})
    {
      if k < i {
        assert Closed(edges[k], current, visited');
      }
    }
  }

  /** Enqueueing a newly visited `x` keeps the queue equal to the old queue
      and the newly visited classes. */
  lemma VisitQueue(visited: set<string>, q: seq<string>, visited': set<string>, q': seq<string>, x: string)
    requires forall v :: v in q' <==> (v in q || (v in visited' && v !in visited))
    requires visited <= visited' && x !in visited'
    ensures forall v :: v in q' + [x] <==> (v in q || (v in visited' + {x} && v !in visited))
  {
  }

  /** Visiting `x`, which edge `i` joins to `current`, keeps `NeighbourInv`. */
  lemma VisitKeeps(current: string, edges: seq<Edge>, i: nat, visited: set<string>, q: seq<string>,
                   visited': set<string>, q': seq<string>, x: string)
    requires i < |edges| && NeighbourInv(current, edges, i, visited, q, visited', q')
    requires Joins(edges[i], current, x) && x !in visited'
    ensures NeighbourInv(current, edges, i + 1, visited, q, visited' + {x}, q' + [x])
  {
    assert Adjacent(edges, current, x);
    assert x in Endpoints(edges);
    VisitClosed(current, edges, i, visited', x);
    VisitQueue(visited, q, visited', q', x);
  }

  /** An edge at which `current` is already closed keeps `NeighbourInv`
      unchanged. */
  lemma PassKeeps(current: string, edges: seq<Edge>, i: nat, visited: set<string>, q: seq<string>,
                  visited': set<string>, q': seq<string>)
    requires i < |edges| && NeighbourInv(current, edges, i, visited, q, visited', q')
    requires Closed(edges[i], current, visited')
    ensures NeighbourInv(current, edges, i + 1, visited, q, visited', q')
  {
  }

  /** One edge of the inner loop keeps `NeighbourInv`, whichever of its
      three branches runs. */
  lemma VisitEdgeStep(current: string, edges: seq<Edge>, i: nat, visited: set<string>, q: seq<string>,
                      visited': set<string>, q': seq<string>)
    requires i < |edges| && NeighbourInv(current, edges, i, visited, q, visited', q')
    ensures var e := edges[i];
      if current == e.cLeft && e.cRight !in visited' then
        NeighbourInv(current, edges, i + 1, visited, q, visited' + {e.cRight}, q' + [e.cRight])
      else if current == e.cRight && e.cLeft !in visited' then
        NeighbourInv(current, edges, i + 1, visited, q, visited' + {e.cLeft}, q' + [e.cLeft])
      else
        NeighbourInv(current, edges, i + 1, visited, q, visited', q')
  {
    var e := edges[i];
    if current == e.cLeft && e.cRight !in visited' {
      VisitKeeps(current, edges, i, visited, q, visited', q', e.cRight);
    } else if current == e.cRight && e.cLeft !in visited' {
      VisitKeeps(current, edges, i, visited, q, visited', q', e.cLeft);
    } else {
      PassKeeps(current, edges, i, visited, q, visited', q');
    }
  }

  /** The inner loop of `breadthFirst` for one polled class: every edge
      in turn, visiting and enqueueing the class at the other end of an
      edge that touches `current`. Afterwards every neighbour of `current`
      is visited, and each class newly visited is a neighbour of `current`
      that was appended to the queue. */
  method VisitNeighbours(current: string, edges: seq<Edge>, visited: set<string>, q: seq<string>)
    returns (visited': set<string>, q': seq<string>)
    ensures visited <= visited'
    ensures forall k | 0 <= k < |edges| :: Closed(edges[k], current, visited')
    ensures forall w | w in visited' && w !in visited :: Adjacent(edges, current, w)
    ensures visited' <= visited + Endpoints(edges)
    ensures forall v :: v in q' <==> (v in q || (v in visited' && v !in visited))
    ensures visited' == visited ==> q' == q
  {
    visited', q' := visited, q;
    for i := 0 to |edges|
      invariant NeighbourInv(current, edges, i, visited, q, visited', q')
    {
      var e := edges[i];
      VisitEdgeStep(current, edges, i, visited, q, visited', q');
      if current == e.cLeft && e.cRight !in visited' {
        visited' := visited' + {e.cRight};
        q' := q' + [e.cRight];
      } else if current == e.cRight && e.cLeft !in visited' {
        visited' := visited' + {e.cLeft};
        q' := q' + [e.cLeft];
      }
    }
  }

  /** Classes newly visited next to a reachable class are reachable. */
  lemma StepReachable(edges: seq<Edge>, s: string, current: string, visited: set<string>, visited': set<string>)
    requires Reachable(edges, s, current)
    requires forall v | v in visited :: Reachable(edges, s, v)
    requires forall w | w in visited' && w !in visited :: Adjacent(edges, current, w)
    ensures forall v | v in visited' :: Reachable(edges, s, v)
  {
    forall w | w in visited' && w !in visited
      ensures Reachable(edges, s, w)
    {
      ReachableStep(edges, s, current, w);
    }
  }

  /** Growing `visited` keeps the polled classes closed, and the class just
      polled joins them once its neighbours are in. */
  lemma StepClosed(edges: seq<Edge>, done: set<string>, current: string, visited: set<string>, visited': set<string>)
    requires visited <= visited'
    requires forall v, i | v in done && 0 <= i < |edges| :: Closed(edges[i], v, visited)
    requires forall k | 0 <= k < |edges| :: Closed(edges[k], current, visited')
    ensures forall v, i | v in done + {current} && 0 <= i < |edges| :: Closed(edges[i], v, visited')
  {
    forall v, i | v in done + {current} && 0 <= i < |edges|
      ensures Closed(edges[i], v, visited')
    {
      if v != current {
        assert Closed(edges[i], v, visited);
      }
    }
  }

  /** Visiting a new class inside `universe` leaves fewer classes to visit. */
  lemma StepMeasure(universe: set<string>, visited: set<string>, visited': set<string>)
    requires visited <= visited' <= universe && visited' != visited
    ensures |universe - visited'| < |universe - visited|
  {
    var w :| w in visited' && w !in visited;
    assert w in universe - visited && w !in universe - visited';
    StrictSubsetSmaller(universe - visited', universe - visited);
  }

  /** `breadthFirst(s, edges)`: polls classes from a queue and, for every
      edge, visits the class at its other end when the polled class is on
      one end of it. The result is exactly the set of classes reachable
      from `s`, `s` included; the order of the returned array (a hash set's)
      is not modelled. */
  method Search(s: string, edges: seq<Edge>) returns (visited: set<string>)
    ensures s in visited
    ensures forall t :: t in visited <==> Reachable(edges, s, t)
  {
    var q := [s];
    visited := {s};
    ghost var done: set<string> := {};
    ghost var universe := Endpoints(edges) + {s};
    assert IsPath(edges, [s], s, s);
    while |q| > 0
      invariant s in visited && visited <= universe
      invariant forall v | v in q :: v in visited
      invariant forall v | v in visited :: v in done || v in q
      invariant done <= visited
      invariant forall v | v in visited :: Reachable(edges, s, v)
      invariant forall v, i | v in done && 0 <= i < |edges| :: Closed(edges[i], v, visited)
      decreases |universe - visited|, |q|
    {
      var current := q[0];
      var rest := q[1..];
      assert forall v | v in q :: v == current || v in rest;
      var visited', q' := VisitNeighbours(current, edges, visited, rest);
      StepReachable(edges, s, current, visited, visited');
      StepClosed(edges, done, current, visited, visited');
      if visited' != visited {
        StepMeasure(universe, visited, visited');
      }
      visited, q := visited', q';
      done := done + {current};
    }
    forall t | Reachable(edges, s, t)
      ensures t in visited
    {
      var p :| IsPath(edges, p, s, t);
      ClosedHoldsWalk(edges, visited, p, s, t);
    }
  }
}

=== FILE: collector.dfy ===
/** The calls a result collector receives. The JSON and the printing
    collectors implement the five-call interface below; the nested query
    engine's own calls (`result`, a one-argument `startLevel`) are modelled
    with the engine. */
module Collector {
  import opened Wrappers

  datatype Call =
    | Begin                                                     // begin()
    | StartLevel(level: int, queryName: string, args: seq<string>)  // startLevel(l, queryName, args)
    | Collect(bindings: seq<string>, values: seq<string>)       // collect(bindings, values)
    | EndLevel(level: int)                                      // endLevel(l)
    | End                                                       // end()

  /** The nesting depth after `calls`, started at depth `d`: `begin` and
      `startLevel` open, `endLevel` and `end` close; None when a call closes
      more than was opened. */
  function Depth(calls: seq<Call>, d: nat): Option<nat>
    decreases |calls|
  {
    if |calls| == 0 then Some(d)
    else
      match calls[0]
      case Begin => Depth(calls[1..], d + 1)
      case StartLevel(_, _, _) => Depth(calls[1..], d + 1)
      case Collect(_, _) => Depth(calls[1..], d)
      case EndLevel(_) => if d == 0 then None else Depth(calls[1..], d - 1)
      case End => if d == 0 then None else Depth(calls[1..], d - 1)
  }
}

=== FILE: default_nested_query.dfy ===
/** `DefaultNestedQuery`: a chain of queries run level by level. Every row of
    a level's cursor binds the next query's input variables by name; the
    collector sees a stream of events, modelled here as a list. */
module DefaultNestedQuery {
  import opened Wrappers
  import opened DefaultResult
  import opened DefaultQuery

  /** The collector calls the engine makes, in the order it makes them. */
  datatype Event =
    | Begin                                                  // collector.begin()
    | StartLevel(level: int)                                 // collector.startLevel(level)
    | ResultRow(bindings: seq<string>, values: seq<string>)  // collector.result(bindings, values)
    | Collect(bindings: seq<string>, values: seq<string>)    // collector.collect(bindings, values)
    | EndLevel(level: int)                                   // collector.endLevel(level)
    | End                                                    // collector.end()

  /** The chain of queries given to the constructor, level 0 first. */
  datatype NestedQuery = NestedQuery(levels: seq<Query>)

  /** A recursive step's outcome: the events it emitted, the cursor it was
      given as it left it, and the exception that cut it short, if any. */
  datatype Run = Run(events: seq<Event>, cursor: Cursor, failure: Option<Exception>)

  /** A whole execution's outcome: the events emitted and the exception
      that escaped, if any. */
  datatype Trace = Trace(events: seq<Event>, failure: Option<Exception>)

  /** `getLevels()`: the number of queries in the chain. */
  function GetLevels(nq: NestedQuery): nat {
    |nq.levels|
  }

  /** `hasLevel(level)`. */
  predicate HasLevel(nq: NestedQuery, level: int) {
    level < GetLevels(nq)
  }

  /** `getQuery(level)`: the level's query, or an
      ArrayIndexOutOfBoundsException outside the array. */
  function GetQuery(nq: NestedQuery, level: int): (r: Result<Query>)
    ensures r.Ok? <==> 0 <= level < GetLevels(nq)
    ensures r.Ok? ==> r.value == nq.levels[level]
    ensures r.Err? ==> r.error == IndexOutOfBounds
  {
    if 0 <= level < |nq.levels| then Ok(nq.levels[level]) else Err(IndexOutOfBounds)
  }

  /** `hasLevel` promises a query for every level it admits except the
      negative ones: it only compares with the length, so a negative level
      is "present" although `getQuery` then throws. */
  lemma HasLevelGetQuery(nq: NestedQuery, level: int)
    ensures 0 <= level ==> (HasLevel(nq, level) <==> GetQuery(nq, level).Ok?)
    ensures level < 0 ==> HasLevel(nq, level) && GetQuery(nq, level).Err?
  {
  }

  // ---------------------------------------------------------------------
  // Argument binding

  /** `indexOf(list, t)`: the first position of `t`, or an
      IllegalArgumentException when `t` is absent. */
  function IndexOf(list: seq<string>, t: string): (r: Result<nat>)
    ensures r.Ok? <==> t in list
    ensures r.Ok? ==> (r.value < |list| && list[r.value] == t
      && forall j | 0 <= j < r.value :: list[j] != t)
    ensures r.Err? ==> r.error == IllegalArgument
  {
    if |list| == 0 then Err(IllegalArgument)
    else if list[0] == t then Ok(0)
    else
      match IndexOf(list[1..], t)
      case Ok(i) => Ok(i + 1)
      case Err(e) => Err(e)
  }

  /** `bindArguments(bindings, values, inVariables)`: for every input
      variable, in order, the value at the first binding of that name; an
      IllegalArgumentException if some variable is not among the bindings. */
  function BindArguments(bindings: seq<string>, values: seq<string>, inVariables: seq<string>)
    : (r: Result<seq<string>>)
    requires |values| == |bindings|
    ensures r.Ok? <==> forall i | 0 <= i < |inVariables| :: inVariables[i] in bindings
    ensures r.Err? ==> r.error == IllegalArgument
    ensures r.Ok? ==> (|r.value| == |inVariables|
      && forall i | 0 <= i < |inVariables| ::
           IndexOf(bindings, inVariables[i]).Ok?
           && r.value[i] == values[IndexOf(bindings, inVariables[i]).value])
  {
    if |inVariables| == 0 then Ok([])
    else
      match IndexOf(bindings, inVariables[0])
      case Err(e) => Err(e)
      case Ok(j) =>
        match BindArguments(bindings, values, inVariables[1..])
        case Err(e) => Err(e)
        case Ok(rest) => Ok([values[j]] + rest)
  }

  /** Every input variable is among the bindings. */
  predicate Bound(bindings: seq<string>, inVariables: seq<string>) {
    forall i | 0 <= i < |inVariables| :: inVariables[i] in bindings
  }

  /** The arguments a row hands to a query, position by position: input
      variable `j` takes the row's value at the first binding of its name. */
  function RowArguments(bindings: seq<string>, values: seq<string>, inVariables: seq<string>): seq<string>
    requires |values| == |bindings| && Bound(bindings, inVariables)
  {
    seq(|inVariables|, j requires 0 <= j < |inVariables| => values[IndexOf(bindings, inVariables[j]).value])
  }

  /** The loop of `bindArguments` computes the positional arguments, and
      fails exactly when some input variable is unbound. */
  lemma BindArgumentsIndexed(bindings: seq<string>, values: seq<string>, inVariables: seq<string>)
    requires |values| == |bindings|
    ensures !Bound(bindings, inVariables) ==> BindArguments(bindings, values, inVariables) == Err(IllegalArgument)
    ensures Bound(bindings, inVariables) ==>
              BindArguments(bindings, values, inVariables) == Ok(RowArguments(bindings, values, inVariables))
  {
    if Bound(bindings, inVariables) {
      var r := BindArguments(bindings, values, inVariables).value;
      assert r == RowArguments(bindings, values, inVariables);
    }
  }

  /** The binding example: an article row binds the agents query's `Article`. */
  lemma BindArticle()
    ensures BindArguments(["Article", "p", "o"], ["A1", "dc:creator", "Ag1"], ["Article"]) == Ok(["A1"])
  {
    BindSingle(["Article", "p", "o"], ["A1", "dc:creator", "Ag1"], "Article", 0);
  }

  /** A single input variable takes the value at its first binding. */
  lemma BindSingle(bindings: seq<string>, values: seq<string>, v: string, j: nat)
    requires |values| == |bindings| && j < |bindings| && bindings[j] == v
    requires forall k | 0 <= k < j :: bindings[k] != v
    ensures BindArguments(bindings, values, [v]) == Ok([values[j]])
  {
    assert IndexOf(bindings, [v][0]) == Ok(j);
    assert [v][1..] == [];
    assert BindArguments(bindings, values, [v][1..]) == Ok([]);
    assert [values[j]] + [] == [values[j]];
  }

  // ---------------------------------------------------------------------
  // Execution

  /** `executeQueryOnBindings(level, result, executor, collector)`: reads the
      bindings once, then runs the parent-row loop. */
  function OnBindings(nq: NestedQuery, exec: Executor, level: int, result: Cursor): (run: Run)
    ensures Remaining(run.cursor) <= Remaining(result)
    ensures run.failure.None? ==> Remaining(run.cursor) == 0
    decreases |nq.levels| - level, 3, Remaining(result)
  {
    var (c, bindings) := GetBindings(result);
    ParentRows(nq, exec, level, bindings, c)
  }

  /** The parent-row loop of `executeQueryOnBindings`: every row is reported
      with `result` and then drives this level's query. */
  function ParentRows(nq: NestedQuery, exec: Executor, level: int, bindings: seq<string>, result: Cursor)
    : (run: Run)
    requires bindings == result.rs.vars
    ensures Remaining(run.cursor) <= Remaining(result)
    ensures run.failure.None? ==> Remaining(run.cursor) == 0
    decreases |nq.levels| - level, 2, Remaining(result)
  {
    var (c1, more) := Next(result);
    if !more then Run([], c1, None)
    else
      var (c2, vr) := GetValues(c1);
      if vr.Err? then Run([], c2, Some(vr.error))
      else
        var (body, failure) := LevelQuery(nq, exec, level, bindings, vr.value);
        var head := [ResultRow(bindings, vr.value)] + body;
        if failure.Some? then Run(head, c2, failure)
        else
          var rest := ParentRows(nq, exec, level, bindings, c2);
          Run(head + rest.events, rest.cursor, rest.failure)
  }

  /** One parent row's turn at `level`: fetch the level's query (an
      ArrayIndexOutOfBoundsException past the last level), bind its inputs
      from the row, perform it, open the level, walk the child rows and
      close the level. */
  function LevelQuery(nq: NestedQuery, exec: Executor, level: int, bindings: seq<string>, values: seq<string>)
    : (r: (seq<Event>, Option<Exception>))
    requires |values| == |bindings|
    ensures !(0 <= level < |nq.levels|) ==> r == ([], Some(IndexOutOfBounds))
    ensures r.1.None? ==> (|r.0| >= 2 && r.0[0] == StartLevel(level) && r.0[|r.0| - 1] == EndLevel(level))
    decreases |nq.levels| - level, 1, 0
  {
    match GetQuery(nq, level)
    case Err(e) => ([], Some(e))
    case Ok(q) =>
      match BindArguments(bindings, values, q.inVariables)
      case Err(e) => ([], Some(e))
      case Ok(args) =>
        match Perform(q, exec, args)
        case Err(e) => ([], Some(e))
        case Ok(partial) =>
          var child := ChildRows(nq, exec, level, partial);
          if child.failure.Some? then ([StartLevel(level)] + child.events, child.failure)
          else ([StartLevel(level)] + child.events + [EndLevel(level)], None)
  }

  /** What a row's turn at an existing level does: an input variable
      missing from the bindings throws IllegalArgumentException before
      anything is emitted; otherwise the level's query is performed with
      the row's positional arguments, and its rows are walked between
      `startLevel(level)` and, when they complete, `endLevel(level)`. */
  lemma LevelQueryBinds(nq: NestedQuery, exec: Executor, level: int, bindings: seq<string>, values: seq<string>)
    requires |values| == |bindings|
    ensures var r := LevelQuery(nq, exec, level, bindings, values);
      GetQuery(nq, level).Ok? ==>
        var q := GetQuery(nq, level).value;
        && (!Bound(bindings, q.inVariables) ==> r == ([], Some(IllegalArgument)))
        && (Bound(bindings, q.inVariables) ==>
              var p := Perform(q, exec, RowArguments(bindings, values, q.inVariables));
              && p.Ok?
              && var child := ChildRows(nq, exec, level, p.value);
              && r.1 == child.failure
              && r.0 == [StartLevel(level)] + child.events
                        + (if child.failure.None? then [EndLevel(level)] else []))
  {
    if GetQuery(nq, level).Ok? {
      BindArgumentsIndexed(bindings, values, GetQuery(nq, level).value.inVariables);
    }
  }

  /** The child-row loop of `executeQueryOnBindings`: every row is reported
      with `collect`; when a deeper level exists, the SAME child cursor is
      handed to the recursive call, which consumes the remaining rows as its
      parents. */
  function ChildRows(nq: NestedQuery, exec: Executor, level: int, partial: Cursor): (run: Run)
    requires 0 <= level < |nq.levels|
    ensures Remaining(run.cursor) <= Remaining(partial)
    ensures run.failure.None? ==> Remaining(run.cursor) == 0
    decreases |nq.levels| - level, 0, Remaining(partial)
  {
    var (c1, more) := Next(partial);
    if !more then Run([], c1, None)
    else
      var (c2, bindings) := GetBindings(c1);
      var (c3, vr) := GetValues(c2);
      if vr.Err? then Run([], c3, Some(vr.error))
      else
        var head := [Collect(bindings, vr.value)];
        if HasLevel(nq, level + 1) then
          var nested := OnBindings(nq, exec, level + 1, c3);
          var inner := [StartLevel(level + 1)] + nested.events;
          if nested.failure.Some? then Run(head + inner, nested.cursor, nested.failure)
          else
            var rest := ChildRows(nq, exec, level, nested.cursor);
            Run(head + (inner + [EndLevel(level + 1)]) + rest.events, rest.cursor, rest.failure)
        else
          var rest := ChildRows(nq, exec, level, c3);
          Run(head + rest.events, rest.cursor, rest.failure)
  }

  /** `executeNestedQuery(executor, collector, args)`: begin, open level 0,
      run the level-0 query, treat its rows as parents of level 1 when there
      is one, close level 0 and end. Exceptions propagate. */
  function ExecuteNestedQuery(nq: NestedQuery, exec: Executor, args: seq<string>): (t: Trace)
    ensures |t.events| >= 2 && t.events[..2] == [Begin, StartLevel(0)]
    ensures t.failure.None? ==> (|t.events| >= 4 && t.events[|t.events| - 2..] == [EndLevel(0), End])
    ensures GetLevels(nq) == 0 ==> t == Trace([Begin, StartLevel(0)], Some(IndexOutOfBounds))
    ensures GetLevels(nq) > 0 && |args| != |nq.levels[0].inVariables|
      ==> t == Trace([Begin, StartLevel(0)], Some(IllegalArgument))
    ensures GetLevels(nq) == 1 && |args| == |nq.levels[0].inVariables|
      ==> t == Trace([Begin, StartLevel(0), EndLevel(0), End], None)
  {
    if |nq.levels| == 0 then Trace([Begin, StartLevel(0)], Some(IndexOutOfBounds))
    else
      match Perform(nq.levels[0], exec, args)
      case Err(e) => Trace([Begin, StartLevel(0)], Some(e))
      case Ok(result) =>
        if HasLevel(nq, 1) then
          var run := OnBindings(nq, exec, 1, result);
          var level0 := [StartLevel(0)] + run.events;
          if run.failure.Some? then Trace([Begin] + level0, run.failure)
          else Trace([Begin] + (level0 + [EndLevel(0)]) + [End], None)
        else Trace([Begin, StartLevel(0), EndLevel(0), End], None)
  }

  // ---------------------------------------------------------------------
  // The shape of an event trace

  /** What a reader of the event stream tracks: the levels started and not
      yet ended, innermost last, and whether a `result` event still waits
      for the `startLevel` that must follow it. */
  datatype Shape = Shape(open: seq<int>, awaiting: bool)

  /** One event read in state `st`, for a chain of `n` levels: a level is
      started only within 0..n-1, ended only when it is the innermost open
      one, and a `result` must be followed directly by a `startLevel`. */
  function Step(e: Event, st: Shape, n: nat): Option<Shape> {
    if st.awaiting && !e.StartLevel? then None
    else
      match e
      case StartLevel(k) => if 0 <= k < n then Some(Shape(st.open + [k], false)) else None
      case EndLevel(k) =>
        if |st.open| > 0 && st.open[|st.open| - 1] == k then Some(Shape(st.open[..|st.open| - 1], false))
        else None
      case ResultRow(_, _) => Some(Shape(st.open, true))
      case _ => Some(st)
  }

  /** The state after reading all of `events`, or None at the first event
      that breaks the rules. */
  function Scan(events: seq<Event>, st: Shape, n: nat): Option<Shape>
    decreases |events|
  {
    if |events| == 0 then Some(st)
    else
      match Step(events[0], st, n)
      case None => None
      case Some(st1) => Scan(events[1..], st1, n)
  }

  /** Reading `[e] + rest` is one step, then `rest`. */
  lemma ScanCons(e: Event, rest: seq<Event>, st: Shape, n: nat)
    ensures Scan([e] + rest, st, n) == (match Step(e, st, n) case None => None case Some(s1) => Scan(rest, s1, n))
  {
    assert ([e] + rest)[0] == e;
    assert ([e] + rest)[1..] == rest;
  }

  /** Reading `a + b` is reading `a`, then `b` from where `a` left off. */
  lemma {:induction false} ScanConcat(a: seq<Event>, b: seq<Event>, st: Shape, n: nat)
    ensures Scan(a + b, st, n) == (match Scan(a, st, n) case None => None case Some(s1) => Scan(b, s1, n))
    decreases |a|
  {
    if |a| == 0 {
      assert a + b == b;
    } else {
      assert a + b == [a[0]] + (a[1..] + b);
      ScanCons(a[0], a[1..] + b, st, n);
      match Step(a[0], st, n)
      case None =>
      case Some(s1) => ScanConcat(a[1..], b, s1, n);
    }
  }

  /** `events`, read from state `from`, break no rule and end only levels
      they started themselves; when `complete`, they also end every level
      they started and leave no `result` pending. */
  predicate Fits(events: seq<Event>, from: Shape, n: nat, complete: bool) {
    var r := Scan(events, from, n);
    r.Some? && from.open <= r.value.open && (complete ==> r.value == Shape(from.open, false))
  }

  /** A complete piece followed by one that fits from where it ends. */
  lemma FitsConcat(a: seq<Event>, b: seq<Event>, from: Shape, n: nat, cb: bool)
    requires Fits(a, from, n, true) && Fits(b, Shape(from.open, false), n, cb)
    ensures Fits(a + b, from, n, cb)
  {
    ScanConcat(a, b, from, n);
  }

  /** A `result` or `collect` row followed by what fits after it. */
  lemma FitsRow(row: Event, body: seq<Event>, open: seq<int>, n: nat, complete: bool)
    requires row.ResultRow? || row.Collect?
    requires Fits(body, Shape(open, row.ResultRow?), n, complete)
    ensures Fits([row] + body, Shape(open, false), n, complete)
  {
    ScanCons(row, body, Shape(open, false), n);
  }

  /** `startLevel(k)`, a body that fits inside level `k`, and `endLevel(k)`
      once the body is complete. */
  lemma FitsLevel(k: int, body: seq<Event>, from: Shape, n: nat, complete: bool)
    requires 0 <= k < n
    requires Fits(body, Shape(from.open + [k], false), n, complete)
    ensures Fits([StartLevel(k)] + body, from, n, false)
    ensures complete ==> Fits([StartLevel(k)] + body + [EndLevel(k)], from, n, true)
  {
    var inner := Shape(from.open + [k], false);
    ScanCons(StartLevel(k), body, from, n);
    assert from.open <= inner.open;
    if complete {
      ScanConcat([StartLevel(k)] + body, [EndLevel(k)], from, n);
      ScanCons(EndLevel(k), [], inner, n);
      assert (from.open + [k])[..|from.open|] == from.open;
    }
  }

  /** The events of `executeQueryOnBindings` fit wherever they are emitted. */
  lemma {:induction false} OnBindingsFits(nq: NestedQuery, exec: Executor, level: int, result: Cursor, open: seq<int>)
    ensures var run := OnBindings(nq, exec, level, result);
      Fits(run.events, Shape(open, false), |nq.levels|, run.failure.None?)
    decreases |nq.levels| - level, 3, Remaining(result)
  {
    var (c, bindings) := GetBindings(result);
    ParentRowsFits(nq, exec, level, bindings, c, open);
  }

  lemma {:induction false} ParentRowsFits(
    nq: NestedQuery, exec: Executor, level: int, bindings: seq<string>, result: Cursor, open: seq<int>)
    requires bindings == result.rs.vars
    ensures var run := ParentRows(nq, exec, level, bindings, result);
      Fits(run.events, Shape(open, false), |nq.levels|, run.failure.None?)
    decreases |nq.levels| - level, 2, Remaining(result)
  {
    var n := |nq.levels|;
    var (c1, more) := Next(result);
    if more {
      var (c2, vr) := GetValues(c1);
      if vr.Ok? {
        var row := ResultRow(bindings, vr.value);
        var (body, failure) := LevelQuery(nq, exec, level, bindings, vr.value);
        LevelQueryFits(nq, exec, level, bindings, vr.value, open);
        FitsRow(row, body, open, n, failure.None?);
        if failure.None? {
          var rest := ParentRows(nq, exec, level, bindings, c2);
          ParentRowsFits(nq, exec, level, bindings, c2, open);
          FitsConcat([row] + body, rest.events, Shape(open, false), n, rest.failure.None?);
        }
      }
    }
  }

  lemma {:induction false} LevelQueryFits(
    nq: NestedQuery, exec: Executor, level: int, bindings: seq<string>, values: seq<string>, open: seq<int>)
    requires |values| == |bindings|
    ensures var r := LevelQuery(nq, exec, level, bindings, values);
      Fits(r.0, Shape(open, true), |nq.levels|, r.1.None?)
    decreases |nq.levels| - level, 1, 0
  {
    if 0 <= level < |nq.levels| {
      var q := nq.levels[level];
      match BindArguments(bindings, values, q.inVariables)
      case Err(e) =>
      case Ok(args) =>
        match Perform(q, exec, args)
        case Err(e) =>
        case Ok(partial) =>
          ChildRowsFits(nq, exec, level, partial, open + [level]);
          var child := ChildRows(nq, exec, level, partial);
          FitsLevel(level, child.events, Shape(open, true), |nq.levels|, child.failure.None?);
    }
  }

  lemma {:induction false} ChildRowsFits(nq: NestedQuery, exec: Executor, level: int, partial: Cursor, open: seq<int>)
    requires 0 <= level < |nq.levels|
    ensures var run := ChildRows(nq, exec, level, partial);
      Fits(run.events, Shape(open, false), |nq.levels|, run.failure.None?)
    decreases |nq.levels| - level, 0, Remaining(partial), 1
  {
    var n := |nq.levels|;
    var (c1, more) := Next(partial);
    if more {
      var (c2, bindings) := GetBindings(c1);
      var (c3, vr) := GetValues(c2);
      if vr.Ok? {
        var row := Collect(bindings, vr.value);
        if HasLevel(nq, level + 1) {
          NestedChildRowFits(nq, exec, level, partial, open);
        } else {
          var rest := ChildRows(nq, exec, level, c3);
          ChildRowsFits(nq, exec, level, c3, open);
          FitsRow(row, rest.events, open, n, rest.failure.None?);
        }
      }
    }
  }

  /** `ChildRowsFits` for a row that has a deeper level to descend into. */
  lemma {:induction false} NestedChildRowFits(nq: NestedQuery, exec: Executor, level: int, partial: Cursor, open: seq<int>)
    requires 0 <= level && HasLevel(nq, level + 1)
    requires Next(partial).1 && GetValues(GetBindings(Next(partial).0).0).1.Ok?
    ensures var run := ChildRows(nq, exec, level, partial);
      Fits(run.events, Shape(open, false), |nq.levels|, run.failure.None?)
    decreases |nq.levels| - level, 0, Remaining(partial), 0
  {
    var n := |nq.levels|;
    var (c1, more) := Next(partial);
    var (c2, bindings) := GetBindings(c1);
    var (c3, vr) := GetValues(c2);
    var row := Collect(bindings, vr.value);
    var nested := OnBindings(nq, exec, level + 1, c3);
    OnBindingsFits(nq, exec, level + 1, c3, open + [level + 1]);
    if nested.failure.Some? {
      NestedRowFits(row, level + 1, nested.events, false, [], false, open, n);
    } else {
      var rest := ChildRows(nq, exec, level, nested.cursor);
      ChildRowsFits(nq, exec, level, nested.cursor, open);
      NestedRowFits(row, level + 1, nested.events, true, rest.events, rest.failure.None?, open, n);
    }
  }

  /** A `collect` row, then a nested level whose body fits inside it and,
      when that body completes, the level's end and what fits after it. */
  lemma NestedRowFits(row: Event, k: int, nested: seq<Event>, nestedOk: bool,
                      rest: seq<Event>, restOk: bool, open: seq<int>, n: nat)
    requires row.Collect? && 0 <= k < n
    requires Fits(nested, Shape(open + [k], false), n, nestedOk)
    requires nestedOk ==> Fits(rest, Shape(open, false), n, restOk)
    ensures !nestedOk ==> Fits([row] + ([StartLevel(k)] + nested), Shape(open, false), n, false)
    ensures nestedOk ==> Fits([row] + ([StartLevel(k)] + nested + [EndLevel(k)]) + rest, Shape(open, false), n, restOk)
  {
    FitsLevel(k, nested, Shape(open, false), n, nestedOk);
    var inner := [StartLevel(k)] + nested;
    if nestedOk {
      FitsConcat(inner + [EndLevel(k)], rest, Shape(open, false), n, restOk);
      FitsRow(row, inner + [EndLevel(k)] + rest, open, n, restOk);
      assert [row] + (inner + [EndLevel(k)]) + rest == [row] + (inner + [EndLevel(k)] + rest);
    } else {
      FitsRow(row, inner, open, n, false);
    }
  }

  /** The whole trace is well formed: every `startLevel(k)` names a level of
      the chain and is ended by a matching `endLevel(k)` in properly nested
      order (all of them when the run completes; an exception leaves only
      unended levels behind, never a mismatched end), and every `result`
      is directly followed by a `startLevel`. */
  lemma ExecuteNestedQueryWellFormed(nq: NestedQuery, exec: Executor, args: seq<string>)
    requires GetLevels(nq) >= 1
    ensures var t := ExecuteNestedQuery(nq, exec, args);
      Fits(t.events, Shape([], false), GetLevels(nq), t.failure.None?)
  {
    var n := |nq.levels|;
    var st := Shape([], false);
    assert Fits([Begin], st, n, true) by {
      ScanCons(Begin, [], st, n);
    }
    match Perform(nq.levels[0], exec, args)
    case Err(e) =>
      FitsLevel(0, [], st, n, false);
      assert [StartLevel(0)] + [] == [StartLevel(0)];
      FitsConcat([Begin], [StartLevel(0)], st, n, false);
    case Ok(result) =>
      if HasLevel(nq, 1) {
        var run := OnBindings(nq, exec, 1, result);
        OnBindingsFits(nq, exec, 1, result, [0]);
        TopLevelFits(run.events, n, run.failure.None?);
      } else {
        assert Fits([], Shape([0], false), n, true);
        TopLevelFits([], n, true);
        assert [Begin] + ([StartLevel(0)] + [] + [EndLevel(0)]) + [End] == [Begin, StartLevel(0), EndLevel(0), End];
      }
  }

  /** `begin`, level 0 around a body that fits inside it, and `end` once
      the body is complete. */
  lemma TopLevelFits(body: seq<Event>, n: nat, complete: bool)
    requires n >= 1 && Fits(body, Shape([0], false), n, complete)
    ensures Fits([Begin] + ([StartLevel(0)] + body), Shape([], false), n, false)
    ensures complete ==> Fits([Begin] + ([StartLevel(0)] + body + [EndLevel(0)]) + [End], Shape([], false), n, true)
  {
    var st := Shape([], false);
    assert Fits([Begin], st, n, true) by {
      ScanCons(Begin, [], st, n);
    }
    assert [] + [0] == [0];
    FitsLevel(0, body, st, n, complete);
    var level0 := [StartLevel(0)] + body;
    FitsConcat([Begin], level0, st, n, false);
    if complete {
      assert Fits([End], st, n, true) by {
        ScanCons(End, [], st, n);
      }
      FitsConcat(level0 + [EndLevel(0)], [End], st, n, true);
      FitsConcat([Begin], level0 + [EndLevel(0)] + [End], st, n, true);
      assert [Begin] + (level0 + [EndLevel(0)]) + [End] == [Begin] + (level0 + [EndLevel(0)] + [End]);
    }
  }

  // ---------------------------------------------------------------------
  // What the parent-row loop emits

  /** One parent row's share of the loop: a `result` carrying the row's
      values, then the level's turn; an unbound variable stops the row
      before it emits anything. */
  function RowTurn(nq: NestedQuery, exec: Executor, level: int, bindings: seq<string>, row: Solution)
    : (r: (seq<Event>, Option<Exception>))
    ensures ValuesOf(row, bindings).Err? ==> r == ([], Some(NullPointer))
    ensures r.1.None? ==> (ValuesOf(row, bindings).Ok?
      && |r.0| >= 3
      && r.0[0] == ResultRow(bindings, ValuesOf(row, bindings).value)
      && r.0[1] == StartLevel(level)
      && r.0[|r.0| - 1] == EndLevel(level))
  {
    match ValuesOf(row, bindings)
    case Err(e) => ([], Some(e))
    case Ok(values) =>
      var (body, failure) := LevelQuery(nq, exec, level, bindings, values);
      ([ResultRow(bindings, values)] + body, failure)
  }

  /** The events of a row's turn, as a function of the row. */
  function TurnOf(nq: NestedQuery, exec: Executor, level: int, bindings: seq<string>): Solution -> seq<Event> {
    row => RowTurn(nq, exec, level, bindings, row).0
  }

  /** `f` of each row, row by row. */
  function MapRows(f: Solution -> seq<Event>, rows: seq<Solution>): seq<seq<Event>> {
    seq(|rows|, i requires 0 <= i < |rows| => f(rows[i]))
  }

  /** The events of each row's turn, row by row. */
  function TurnEvents(nq: NestedQuery, exec: Executor, level: int, bindings: seq<string>, rows: seq<Solution>)
    : seq<seq<Event>>
  {
    MapRows(TurnOf(nq, exec, level, bindings), rows)
  }

  /** Mapping a non-empty list: the first row's image, then the rest's. */
  lemma MapRowsFirst(f: Solution -> seq<Event>, rows: seq<Solution>)
    requires |rows| > 0
    ensures MapRows(f, rows) == [f(rows[0])] + MapRows(f, rows[1..])
  {
    var all := MapRows(f, rows);
    var tail := MapRows(f, rows[1..]);
    forall i | 0 <= i < |tail| ensures all[i + 1] == tail[i] {
      assert rows[1..][i] == rows[i + 1];
    }
    assert all == [all[0]] + tail;
  }

  /** Every row's turn completes. */
  predicate TurnsComplete(nq: NestedQuery, exec: Executor, level: int, bindings: seq<string>, rows: seq<Solution>) {
    forall i | 0 <= i < |rows| :: RowTurn(nq, exec, level, bindings, rows[i]).1.None?
  }

  /** The blocks of events one after the other. */
  function Concat(blocks: seq<seq<Event>>): seq<Event>
    decreases |blocks|
  {
    if |blocks| == 0 then [] else blocks[0] + Concat(blocks[1..])
  }

  /** The turns of a non-empty list of rows: the first row's, then the rest's. */
  lemma TurnEventsFirst(nq: NestedQuery, exec: Executor, level: int, bindings: seq<string>, rows: seq<Solution>)
    requires |rows| > 0
    ensures TurnEvents(nq, exec, level, bindings, rows)
         == [RowTurn(nq, exec, level, bindings, rows[0]).0] + TurnEvents(nq, exec, level, bindings, rows[1..])
  {
    MapRowsFirst(TurnOf(nq, exec, level, bindings), rows);
  }

  /** Every row's turn completes exactly when the first row's does and
      every later row's does. */
  lemma TurnsCompleteFirst(nq: NestedQuery, exec: Executor, level: int, bindings: seq<string>, rows: seq<Solution>)
    requires |rows| > 0
    ensures TurnsComplete(nq, exec, level, bindings, rows)
        <==> RowTurn(nq, exec, level, bindings, rows[0]).1.None? && TurnsComplete(nq, exec, level, bindings, rows[1..])
  {
    assert forall i | 1 <= i < |rows| :: rows[i] == rows[1..][i - 1];
  }

  /** The parent-row loop gives every remaining row its turn, in order: it
      completes exactly when every turn does, and then its events are the
      turns' events one after the other, so that row `i` is reported with
      `result(bindings, values of row i)` directly followed by its level's
      `startLevel` ... `endLevel`. */
  lemma {:induction false} ParentRowsEvents(
    nq: NestedQuery, exec: Executor, level: int, bindings: seq<string>, result: Cursor)
    requires bindings == result.rs.vars
    ensures var run := ParentRows(nq, exec, level, bindings, result);
      var rows := Drain(result);
      && (run.failure.None? <==> TurnsComplete(nq, exec, level, bindings, rows))
      && (run.failure.None? ==> run.events == Concat(TurnEvents(nq, exec, level, bindings, rows)))
    decreases Remaining(result)
  {
    var (c1, more) := Next(result);
    var rows := Drain(result);
    if more {
      var (c2, vr) := GetValues(c1);
      assert rows == [c1.current.value] + Drain(c2);
      assert vr == ValuesOf(rows[0], bindings);
      TurnEventsFirst(nq, exec, level, bindings, rows);
      TurnsCompleteFirst(nq, exec, level, bindings, rows);
      assert rows[1..] == Drain(c2);
      if vr.Ok? {
        var (body, failure) := LevelQuery(nq, exec, level, bindings, vr.value);
        if failure.None? {
          ParentRowsEvents(nq, exec, level, bindings, c2);
        }
      }
    }
  }

  /** `executeQueryOnBindings` reads the bindings once and then runs the
      parent-row loop over every remaining row of the cursor. */
  lemma OnBindingsEvents(nq: NestedQuery, exec: Executor, level: int, result: Cursor)
    ensures var run := OnBindings(nq, exec, level, result);
      var rows := Drain(result);
      var vars := result.rs.vars;
      && (run.failure.None? <==> TurnsComplete(nq, exec, level, vars, rows))
      && (run.failure.None? ==> AllBound(rows, vars))
      && (run.failure.None? ==> run.events == Concat(TurnEvents(nq, exec, level, vars, rows)))
  {
    var (c, bindings) := GetBindings(result);
    ParentRowsEvents(nq, exec, level, bindings, c);
    assert Drain(c) == Drain(result);
  }

  // ---------------------------------------------------------------------
  // How the child cursor is consumed

  /** Every row of `rows` binds every variable of `vars`. */
  predicate AllBound(rows: seq<Solution>, vars: seq<string>) {
    forall i | 0 <= i < |rows| :: ValuesOf(rows[i], vars).Ok?
  }

  /** `AllBound` of a non-empty list: its first row, then the rest. */
  lemma AllBoundFirst(rows: seq<Solution>, vars: seq<string>)
    requires |rows| > 0
    ensures AllBound(rows, vars) <==> ValuesOf(rows[0], vars).Ok? && AllBound(rows[1..], vars)
  {
    assert forall i | 1 <= i < |rows| :: rows[i] == rows[1..][i - 1];
  }

  /** Without a deeper level, every child row is collected, one `collect`
      per row and nothing else: event `i` carries the result variables and
      the values of the `i`-th remaining row. The run fails exactly when
      one of those rows leaves a variable unbound. */
  lemma {:induction false} ChildRowsLastLevel(nq: NestedQuery, exec: Executor, level: int, partial: Cursor)
    requires 0 <= level < |nq.levels| && !HasLevel(nq, level + 1)
    ensures var run := ChildRows(nq, exec, level, partial);
      var rows := Drain(partial);
      var vars := partial.rs.vars;
      && (run.failure.None? <==> AllBound(rows, vars))
      && (run.failure.None? ==> (|run.events| == |rows|
        && forall i | 0 <= i < |run.events| :: run.events[i] == Collect(vars, ValuesOf(rows[i], vars).value)))
    decreases Remaining(partial)
  {
    if Remaining(partial) > 0 {
      var rows := Drain(partial);
      var vars := partial.rs.vars;
      var c3 := GetBindings(Next(partial).0).0;
      LastLevelStep(nq, exec, level, partial);
      AllBoundFirst(rows, vars);
      if ValuesOf(rows[0], vars).Ok? {
        ChildRowsLastLevel(nq, exec, level, c3);
        var rest := ChildRows(nq, exec, level, c3);
        if rest.failure.None? {
          CollectsFirst(rest.events, rows, vars);
        }
      }
    }
  }

  /** One round of the child loop at the last level: the first remaining
      row is collected when it is fully bound, and the loop goes on with
      the other rows. */
  lemma LastLevelStep(nq: NestedQuery, exec: Executor, level: int, partial: Cursor)
    requires 0 <= level < |nq.levels| && !HasLevel(nq, level + 1) && Remaining(partial) > 0
    ensures var rows := Drain(partial);
      var vars := partial.rs.vars;
      var c3 := GetBindings(Next(partial).0).0;
      var vr := ValuesOf(rows[0], vars);
      && c3.rs == partial.rs
      && Drain(c3) == rows[1..]
      && ChildRows(nq, exec, level, partial)
         == if vr.Err? then Run([], c3, Some(vr.error))
            else var rest := ChildRows(nq, exec, level, c3);
                 Run([Collect(vars, vr.value)] + rest.events, rest.cursor, rest.failure)
  {
    var (c1, more) := Next(partial);
    var (c2, bindings) := GetBindings(c1);
    var (c3, vr) := GetValues(c2);
    assert Drain(partial) == [c1.current.value] + Drain(c1);
  }

  /** A `collect` of the first row's values in front of the collects of
      the other rows collects every row. */
  lemma CollectsFirst(events: seq<Event>, rows: seq<Solution>, vars: seq<string>)
    requires |rows| > 0 && AllBound(rows, vars)
    requires |events| == |rows| - 1
    requires forall i | 0 <= i < |events| :: events[i] == Collect(vars, ValuesOf(rows[1..][i], vars).value)
    ensures var all := [Collect(vars, ValuesOf(rows[0], vars).value)] + events;
      |all| == |rows| && forall i | 0 <= i < |all| :: all[i] == Collect(vars, ValuesOf(rows[i], vars).value)
  {
    var all := [Collect(vars, ValuesOf(rows[0], vars).value)] + events;
    forall i | 1 <= i < |all| ensures all[i] == Collect(vars, ValuesOf(rows[i], vars).value) {
      assert rows[1..][i - 1] == rows[i];
    }
  }

  /** With a deeper level, only the first child row is collected: the
      recursive call consumes the remaining rows of the same cursor as its
      parent rows, so the child loop stops after one round. */
  lemma ChildRowsDeeperLevel(nq: NestedQuery, exec: Executor, level: int, partial: Cursor)
    requires 0 <= level && HasLevel(nq, level + 1) && Remaining(partial) > 0
    ensures var run := ChildRows(nq, exec, level, partial);
      var rest := GetBindings(Next(partial).0).0;
      var nested := OnBindings(nq, exec, level + 1, rest);
      run.failure.None? ==>
        (nested.failure.None?
         && GetValues(rest).1.Ok?
         && run.events == [Collect(rest.rs.vars, GetValues(rest).1.value)]
                          + ([StartLevel(level + 1)] + nested.events + [EndLevel(level + 1)]))
  {
    var run := ChildRows(nq, exec, level, partial);
    var (c1, more) := Next(partial);
    var (c2, bindings) := GetBindings(c1);
    var (c3, vr) := GetValues(c2);
    assert c3 == c2;
    if vr.Ok? {
      var nested := OnBindings(nq, exec, level + 1, c3);
      if nested.failure.None? {
        var tail := ChildRows(nq, exec, level, nested.cursor);
        assert tail.events == [];
        assert run.events == [Collect(bindings, vr.value)]
                             + ([StartLevel(level + 1)] + nested.events + [EndLevel(level + 1)]) + [];
      }
    }
  }
}

=== FILE: default_query.dfy ===
/** `DefaultQuery`: a query template with named input variables, expanded by
    plain textual substitution of `$name` placeholders and handed to a query
    executor. */
module DefaultQuery {
  import opened Wrappers
  import opened JavaText
  import opened DefaultResult

  /** The constructor's three arguments, returned unchanged by the getters
      `getTemplate`, `getInVariables` and `getOutBindings`. */
  datatype Query = Query(template: string, inVariables: seq<string>, outBindings: seq<string>)

  /** The query executor: runs a fully expanded query text and returns its
      result set. It is outside the model, so it is a parameter. */
  type Executor = string -> ResultSet

  /** The text that stands for input variable `v` in a template. */
  function Placeholder(v: string): (p: string)
    ensures |p| > 0 && p[0] == '$' && p[1..] == v
  {
    "$" + v
  }

  /** The template after replacing, for each variable in turn, every
      placeholder of that variable by its argument; each replacement works
      on the text the earlier ones produced. */
  function Substitute(text: string, vars: seq<string>, args: seq<string>): string
    requires |vars| == |args|
    decreases |vars|
  {
    if |vars| == 0 then text
    else
      var n := |vars| - 1;
      Replace(Substitute(text, vars[..n], args[..n]), Placeholder(vars[n]), args[n])
  }

  /** `expand(args)`: an IllegalArgumentException when the number of
      arguments differs from the number of input variables, otherwise the
      substituted template. */
  function Expand(q: Query, args: seq<string>): (r: Result<string>)
    ensures r.Err? <==> |args| != |q.inVariables|
    ensures r.Err? ==> r.error == IllegalArgument
    ensures |q.inVariables| == 0 && |args| == 0 ==> r == Ok(q.template)
  {
    if |q.inVariables| != |args| then Err(IllegalArgument)
    else Ok(Substitute(q.template, q.inVariables, args))
  }

  /** The substitution of the first `i + 1` variables is that of the first
      `i`, followed by the replacement for variable `i`. */
  lemma SubstitutePrefix(text: string, vars: seq<string>, args: seq<string>, i: nat)
    requires |vars| == |args| && i < |vars|
    ensures Substitute(text, vars[..i + 1], args[..i + 1])
         == Replace(Substitute(text, vars[..i], args[..i]), Placeholder(vars[i]), args[i])
  {
    assert vars[..i + 1][..i] == vars[..i];
    assert args[..i + 1][..i] == args[..i];
  }

  /** `expand(args)` as the source writes it: check the arity, then walk
      the input variables front to back, each time replacing every
      placeholder of the variable in the text built so far. The loop
      computes exactly `Expand`. */
  method ExpandLoop(q: Query, args: seq<string>) returns (r: Result<string>)
    ensures r == Expand(q, args)
  {
    if |q.inVariables| != |args| {
      return Err(IllegalArgument);
    }
    var out := q.template;
    for i := 0 to |q.inVariables|
      invariant out == Substitute(q.template, q.inVariables[..i], args[..i])
    {
      SubstitutePrefix(q.template, q.inVariables, args, i);
      out := Replace(out, Placeholder(q.inVariables[i]), args[i]);
    }
    assert q.inVariables[..|q.inVariables|] == q.inVariables;
    assert args[..|args|] == args;
    return Ok(out);
  }

  /** A template in which no placeholder occurs expands to itself. */
  lemma {:induction false} SubstituteAbsent(text: string, vars: seq<string>, args: seq<string>)
    requires |vars| == |args|
    requires forall i | 0 <= i < |vars| :: !Contains(text, Placeholder(vars[i]))
    ensures Substitute(text, vars, args) == text
    decreases |vars|
  {
    if |vars| > 0 {
      var n := |vars| - 1;
      SubstituteAbsent(text, vars[..n], args[..n]);
      ReplaceAbsent(text, Placeholder(vars[n]), args[n]);
    }
  }

  /** Expanding a template that mentions none of its variables' placeholders
      returns the template unchanged. */
  lemma ExpandAbsent(q: Query, args: seq<string>)
    requires |args| == |q.inVariables|
    requires forall i | 0 <= i < |q.inVariables| :: !Contains(q.template, Placeholder(q.inVariables[i]))
    ensures Expand(q, args) == Ok(q.template)
  {
    SubstituteAbsent(q.template, q.inVariables, args);
  }

  /** Binding every variable to its own placeholder reproduces the template. */
  lemma {:induction false} SubstituteIdentity(text: string, vars: seq<string>)
    ensures Substitute(text, vars, seq(|vars|, i requires 0 <= i < |vars| => Placeholder(vars[i]))) == text
    decreases |vars|
  {
    if |vars| > 0 {
      var n := |vars| - 1;
      var args := seq(|vars|, i requires 0 <= i < |vars| => Placeholder(vars[i]));
      assert args[..n] == seq(|vars[..n]|, i requires 0 <= i < |vars[..n]| => Placeholder(vars[..n][i]));
      SubstituteIdentity(text, vars[..n]);
      ReplaceByItself(text, Placeholder(vars[n]));
    }
  }

  /** `perform(executor, args)`: the executor runs exactly the expanded
      template and the rows come back behind a fresh cursor; an arity
      mismatch throws before the executor is reached. */
  function Perform(q: Query, exec: Executor, args: seq<string>): (r: Result<Cursor>)
    ensures r.Err? <==> |args| != |q.inVariables|
    ensures r.Err? ==> r.error == IllegalArgument
    ensures r.Ok? ==> r.value == Open(exec(Expand(q, args).value))
  {
    match Expand(q, args)
    case Err(e) => Err(e)
    case Ok(text) => Ok(Open(exec(text)))
  }

  /** The template of the repository's query test, with its one variable `Type`. */
  const TypeQuery := Query("SELECT ?i {?i a <$Type>}", ["Type"], ["i"])

  /** Expanding the test template puts the argument, whatever it is, in
      place of `$Type` and leaves the rest of the text alone; the test's
      FOAF Agent class is one instance. */
  lemma ExpandTypeQuery(iri: string)
    ensures Expand(TypeQuery, [iri]) == Ok("SELECT ?i {?i a <" + iri + ">}")
  {
    ExpandSinglePlaceholder(TypeQuery, "SELECT ?i {?i a <", "Type", ">}", iri);
  }

  /** A one-variable template whose placeholder occurs once, with no `$`
      before it and too little text after it for a second occurrence,
      expands by putting the argument in its place. */
  lemma ExpandSinglePlaceholder(q: Query, pre: string, v: string, post: string, arg: string)
    requires q.inVariables == [v] && q.template == pre + Placeholder(v) + post
    requires '$' !in pre && |post| <= |v|
    ensures Expand(q, [arg]) == Ok(pre + arg + post)
  {
    assert Expand(q, [arg]) == Ok(Replace(q.template, Placeholder(v), arg)) by {
      assert [v][..0] == [] && [arg][..0] == [];
      assert Substitute(q.template, [v][..0], [arg][..0]) == q.template;
    }
    ReplaceSingle(pre, Placeholder(v), post, arg);
  }

  /** A target whose first character is absent before it and which is
      longer than what follows it occurs exactly once, so exactly that
      occurrence is replaced. */
  lemma ReplaceSingle(pre: string, t: string, post: string, a: string)
    requires |t| > 0 && t[0] !in pre && |post| < |t|
    ensures Replace(pre + t + post, t, a) == pre + a + post
  {
    FirstCharAbsent(pre, t, post);
    assert !Contains(post, t);
    ReplaceAfterPrefix(pre, t, post, a);
  }

  /** No occurrence of `t` can start inside a prefix lacking `t`'s first character. */
  lemma FirstCharAbsent(p: string, t: string, s: string)
    requires |t| > 0 && t[0] !in p
    ensures forall i | 0 <= i < |p| :: !OccursAt(p + t + s, t, i)
  {
  }

  /** Replacing in `p + t + s`, where the first occurrence of `t` starts
      right after `p` and none occurs in `s`, replaces just that one. */
  lemma {:induction false} ReplaceAfterPrefix(p: string, t: string, s: string, a: string)
    requires |t| > 0
    requires forall i | 0 <= i < |p| :: !OccursAt(p + t + s, t, i)
    requires !Contains(s, t)
    ensures Replace(p + t + s, t, a) == p + a + s
    decreases |p|
  {
    var whole := p + t + s;
    if |p| == 0 {
      assert whole[..|t|] == t;
      assert whole[|t|..] == s;
      ReplaceAbsent(s, t, a);
    } else {
      assert !OccursAt(whole, t, 0);
      assert whole[..|t|] != t;
      assert whole[1..] == p[1..] + t + s;
      forall i | 0 <= i < |p[1..]| ensures !OccursAt(p[1..] + t + s, t, i) {
        assert !OccursAt(whole, t, i + 1);
        if i + |t| <= |whole[1..]| {
          assert whole[1..][i..i + |t|] == whole[i + 1..i + 1 + |t|];
        }
      }
      ReplaceAfterPrefix(p[1..], t, s, a);
      assert p + a + s == [p[0]] + (p[1..] + a + s);
    }
  }
}

=== FILE: default_result.dfy ===
/** `DefaultResult`: a forward-only cursor over the rows a query returned.
    The Jena `ResultSet` it wraps is a finite list of result variables and
    solutions; a solution maps each bound variable to the text of its value. */
module DefaultResult {
  import opened Wrappers

  /** One solution: variable name to the `toString()` of its bound node.
      A variable missing from the map is unbound (`get` returns null). */
  type Solution = map<string, string>

  /** What the query executor hands back: the result variables and the rows. */
  datatype ResultSet = ResultSet(vars: seq<string>, solutions: seq<Solution>)

  /** The cursor's state: the wrapped result set, how many rows `next` has
      consumed, the current row (`sltn`, null before the first successful
      `next`) and the cached `bindings` array (null until first asked for). */
  datatype CursorState = CursorState(
    rs: ResultSet,
    pos: nat,
    current: Option<Solution>,
    cache: Option<seq<string>>)

  /** A cursor that has consumed no more rows than exist and whose cache,
      once filled, holds the result variables. */
  type Cursor = c: CursorState |
    c.pos <= |c.rs.solutions| && (c.cache.None? || c.cache.value == c.rs.vars)
    witness CursorState(ResultSet([], []), 0, None, None)

  /** The cursor over `rs` as the constructor leaves it. */
  function Open(rs: ResultSet): Cursor {
    CursorState(rs, 0, None, None)
  }

  /** The number of rows `next` can still make current. */
  function Remaining(c: Cursor): nat {
    |c.rs.solutions| - c.pos
  }

  /** `getBindings()`: the result variables, read from the result set on the
      first call and from the cache afterwards. */
  function GetBindings(c: Cursor): (r: (Cursor, seq<string>))
    ensures r.1 == c.rs.vars
    ensures r.0.cache == Some(r.1)
    ensures r.0.rs == c.rs && r.0.pos == c.pos && r.0.current == c.current
  {
    if c.cache.Some? then (c, c.cache.value)
    else (c.(cache := Some(c.rs.vars)), c.rs.vars)
  }

  /** Once computed, the bindings are served from the cache: asking again
      returns the same array and leaves the cursor as it was. */
  lemma GetBindingsCached(c: Cursor)
    ensures GetBindings(GetBindings(c).0) == GetBindings(c)
  {
  }

  /** `next()`: makes the next row current and answers true, or answers
      false and changes nothing once the rows are used up. */
  function Next(c: Cursor): (r: (Cursor, bool))
    ensures r.1 <==> Remaining(c) > 0
    ensures r.1 ==> (r.0.current == Some(c.rs.solutions[c.pos])
                     && Remaining(r.0) == Remaining(c) - 1
                     && r.0.pos == c.pos + 1)
    ensures !r.1 ==> r.0 == c
    ensures r.0.rs == c.rs && r.0.cache == c.cache
  {
    if c.pos < |c.rs.solutions| then
      (c.(pos := c.pos + 1, current := Some(c.rs.solutions[c.pos])), true)
    else (c, false)
  }

  /** The rows that successive `next` calls make current, until it answers false. */
  function Drain(c: Cursor): (rows: seq<Solution>)
    ensures rows == c.rs.solutions[c.pos..]
    decreases Remaining(c)
  {
    var (c1, more) := Next(c);
    if more then [c1.current.value] + Drain(c1) else []
  }

  /** A freshly opened cursor yields every row of its result set, in order. */
  lemma DrainOpen(rs: ResultSet)
    ensures Drain(Open(rs)) == rs.solutions
  {
  }

  /** `getValue(binding)`: the current row's value for `binding`; a null
      current row or an unbound variable raises a NullPointerException. */
  function GetValue(c: Cursor, binding: string): (r: Result<string>)
    ensures r.Ok? <==> c.current.Some? && binding in c.current.value
    ensures r.Ok? ==> r.value == c.current.value[binding]
    ensures r.Err? ==> r.error == NullPointer
  {
    if c.current.None? then Err(NullPointer)
    else if binding !in c.current.value then Err(NullPointer)
    else Ok(c.current.value[binding])
  }

  /** The values of `row` for each of `bindings`, in order. */
  function ValuesOf(row: Solution, bindings: seq<string>): (r: Result<seq<string>>)
    ensures r.Ok? <==> forall i | 0 <= i < |bindings| :: bindings[i] in row
    ensures r.Ok? ==> (|r.value| == |bindings|
                       && forall i | 0 <= i < |bindings| :: r.value[i] == row[bindings[i]])
    ensures r.Err? ==> r.error == NullPointer
  {
    if |bindings| == 0 then Ok([])
    else if bindings[0] !in row then Err(NullPointer)
    else
      match ValuesOf(row, bindings[1..])
      case Ok(rest) => Ok([row[bindings[0]]] + rest)
      case Err(e) => Err(e)
  }

  /** `getValues()`: the current row's value for each binding, in binding
      order (filling the bindings cache on the way). */
  function GetValues(c: Cursor): (r: (Cursor, Result<seq<string>>))
    ensures r.0 == GetBindings(c).0
    ensures r.1.Ok? ==> (|r.1.value| == |c.rs.vars|
                         && forall i | 0 <= i < |c.rs.vars| :: GetValue(c, c.rs.vars[i]) == Ok(r.1.value[i]))
    ensures r.1.Ok? <==> forall i | 0 <= i < |c.rs.vars| :: GetValue(c, c.rs.vars[i]).Ok?
  {
    var (c1, bindings) := GetBindings(c);
    if c.current.None? then
      if |bindings| == 0 then (c1, Ok([]))
      else
        assert !GetValue(c, c.rs.vars[0]).Ok?;
        (c1, Err(NullPointer))
    else (c1, ValuesOf(c.current.value, bindings))
  }

  /** `getValue(b)` agrees with the entry of `getValues()` at the position of `b`. */
  lemma GetValueMatchesGetValues(c: Cursor, i: nat)
    requires i < |c.rs.vars|
    requires GetValues(c).1.Ok?
    ensures GetValue(c, c.rs.vars[i]) == Ok(GetValues(c).1.value[i])
  {
  }
}

=== FILE: depth_first.dfy ===
/** `PathAnalysis.buildPathDepthFirst`: a stack-driven walk from a start
    class that groups the edges it crosses by the class it crossed them
    from. */
module DepthFirst {
  import opened Wrappers
  import opened Edges

  /** The loop state: the stack of classes, the groups in creation order,
      the class each group belongs to (the keys of the `concurrents` map,
      one per group, in the same order), and the visited edges. Visited
      edges form a set of `Edge` values because the source's `HashSet`
      compares edges with `equals`, which is field equality. */
  datatype Walk = Walk(stack: seq<string>, groups: seq<seq<Edge>>, keys: seq<string>, visited: set<Edge>)

  /** `e` has `v` at one of its ends. */
  predicate Incident(e: Edge, v: string) {
    e.cLeft == v || e.cRight == v
  }

  /** The position of the first unvisited edge at `v`, which the inner
      `for` loop picks before it breaks. */
  function FirstUnvisited(edges: seq<Edge>, v: string, visited: set<Edge>): (r: Option<nat>)
    ensures r.None? <==> forall i | 0 <= i < |edges| :: !(Incident(edges[i], v) && edges[i] !in visited)
    ensures r.Some? ==> r.value < |edges| && Incident(edges[r.value], v) && edges[r.value] !in visited
    ensures r.Some? ==> forall i | 0 <= i < r.value :: !(Incident(edges[i], v) && edges[i] !in visited)
    decreases |edges|
  {
    if |edges| == 0 then None
    else if Incident(edges[0], v) && edges[0] !in visited then Some(0)
    else
      match FirstUnvisited(edges[1..], v, visited)
      case None => None
      case Some(i) => Some(i + 1)
  }

  /** The position of `k` among the keys. */
  function KeyIndex(keys: seq<string>, k: string): (r: Option<nat>)
    ensures r.None? <==> k !in keys
    ensures r.Some? ==> r.value < |keys| && keys[r.value] == k
    decreases |keys|
  {
    if |keys| == 0 then None
    else if keys[0] == k then Some(0)
    else
      match KeyIndex(keys[1..], k)
      case None => None
      case Some(i) => Some(i + 1)
  }

  /** The other end of `e` when it is entered from `v`: the right class when
      `v` is the left one, the left class otherwise. */
  function Across(e: Edge, v: string): string {
    if e.cLeft == v then e.cRight else e.cLeft
  }

  /** One iteration of the `while` loop: look at the class on top of the
      stack; if an unvisited edge touches it, append the edge to that
      class's group (creating the group on first use), mark it visited and
      push the class across it; otherwise pop. */
  function Step(edges: seq<Edge>, w: Walk): Walk
    requires |w.stack| > 0 && |w.keys| == |w.groups|
  {
    var peek := w.stack[|w.stack| - 1];
    match FirstUnvisited(edges, peek, w.visited)
    case None => w.(stack := w.stack[..|w.stack| - 1])
    case Some(i) =>
      var e := edges[i];
      var w' := w.(visited := w.visited + {e}, stack := w.stack + [Across(e, peek)]);
      match KeyIndex(w.keys, peek)
      case None => w'.(groups := w.groups + [[e]], keys := w.keys + [peek])
      case Some(g) => w'.(groups := w.groups[g := w.groups[g] + [e]])
  }

  /** The groups one after the other. */
  function Flatten(groups: seq<seq<Edge>>): seq<Edge>
    decreases |groups|
  {
    if |groups| == 0 then [] else groups[0] + Flatten(groups[1..])
  }

  lemma {:induction false} FlattenSnoc(groups: seq<seq<Edge>>, g: seq<Edge>)
    ensures Flatten(groups + [g]) == Flatten(groups) + g
    decreases |groups|
  {
    if |groups| == 0 {
      assert Flatten([g]) == g + Flatten([]);
    } else {
      assert (groups + [g])[1..] == groups[1..] + [g];
      FlattenSnoc(groups[1..], g);
    }
  }

  lemma {:induction false} FlattenExtend(groups: seq<seq<Edge>>, g: nat, e: Edge)
    requires g < |groups|
    ensures multiset(Flatten(groups[g := groups[g] + [e]])) == multiset(Flatten(groups)) + multiset{e}
    decreases |groups|
  {
    var updated := groups[g := groups[g] + [e]];
    if g == 0 {
      assert updated[1..] == groups[1..];
    } else {
      assert updated[1..] == groups[1..][g - 1 := groups[g] + [e]];
      FlattenExtend(groups[1..], g - 1, e);
    }
  }

  /** Every edge of every group is an edge of `Flatten`. */
  lemma {:induction false} FlattenHolds(groups: seq<seq<Edge>>, g: nat, j: nat)
    requires g < |groups| && j < |groups[g]|
    ensures groups[g][j] in multiset(Flatten(groups))
    decreases |groups|
  {
    if g > 0 {
      FlattenHolds(groups[1..], g - 1, j);
    }
  }

  /** What every state of the loop satisfies: visited edges are input
      edges; each group is non-empty, belongs to a distinct class and
      holds only edges at that class; and the groups hold every visited
      edge exactly once and nothing else. */
  ghost predicate Valid(edges: seq<Edge>, w: Walk) {
    (forall e | e in w.visited :: e in edges)
    && |w.keys| == |w.groups|
    && (forall a, b | 0 <= a < b < |w.keys| :: w.keys[a] != w.keys[b])
    && (forall g | 0 <= g < |w.groups| :: |w.groups[g]| > 0)
    && (forall g, j | 0 <= g < |w.groups| && 0 <= j < |w.groups[g]| :: Incident(w.groups[g][j], w.keys[g]))
    && (forall e :: multiset(Flatten(w.groups))[e] == if e in w.visited then 1 else 0)
  }

  /** The starting state is valid. */
  lemma StartValid(edges: seq<Edge>, s: string)
    ensures Valid(edges, Walk([s], [], [], {}))
  {
  }

  /** Opening a new group for `peek` with the unvisited edge `e`. */
  lemma NewGroupValid(edges: seq<Edge>, w: Walk, peek: string, e: Edge)
    requires Valid(edges, w)
    requires e in edges && e !in w.visited && Incident(e, peek) && peek !in w.keys
    ensures Valid(edges, w.(visited := w.visited + {e}, groups := w.groups + [[e]], keys := w.keys + [peek]))
  {
    var w2 := w.(visited := w.visited + {e}, groups := w.groups + [[e]], keys := w.keys + [peek]);
    FlattenSnoc(w.groups, [e]);
    assert multiset(Flatten(w2.groups)) == multiset(Flatten(w.groups)) + multiset{e};
    forall a, b | 0 <= a < b < |w2.keys|
      ensures w2.keys[a] != w2.keys[b]
    {
      if b == |w.keys| {
        assert w2.keys[a] == w.keys[a];
      }
    }
    forall g, j | 0 <= g < |w2.groups| && 0 <= j < |w2.groups[g]|
      ensures Incident(w2.groups[g][j], w2.keys[g])
    {
      if g < |w.groups| {
        assert w2.groups[g] == w.groups[g] && w2.keys[g] == w.keys[g];
      }
    }
  }

  /** Appending an edge incident to the key of group `g0` to that group
      keeps every group's edges at its key. */
  lemma ExtendGroupIncident(groups: seq<seq<Edge>>, keys: seq<string>, g0: nat, e: Edge)
    requires |keys| == |groups| && g0 < |groups| && Incident(e, keys[g0])
    requires forall g, j | 0 <= g < |groups| && 0 <= j < |groups[g]| :: Incident(groups[g][j], keys[g])
    ensures var groups' := groups[g0 := groups[g0] + [e]];
      forall g, j | 0 <= g < |groups'| && 0 <= j < |groups'[g]| :: Incident(groups'[g][j], keys[g])
  {
    var groups' := groups[g0 := groups[g0] + [e]];
    forall g, j | 0 <= g < |groups'| && 0 <= j < |groups'[g]|
      ensures Incident(groups'[g][j], keys[g])
    {
      if g != g0 {
        assert groups'[g] == groups[g];
      } else if j < |groups[g]| {
        assert groups'[g][j] == groups[g][j];
      }
    }
  }

  /** Appending the unvisited edge `e` to the existing group `g0`. */
  lemma ExtendGroupValid(edges: seq<Edge>, w: Walk, g0: nat, e: Edge)
    requires Valid(edges, w) && g0 < |w.groups|
    requires e in edges && e !in w.visited && Incident(e, w.keys[g0])
    ensures Valid(edges, w.(visited := w.visited + {e}, groups := w.groups[g0 := w.groups[g0] + [e]]))
  {
    var groups' := w.groups[g0 := w.groups[g0] + [e]];
    FlattenExtend(w.groups, g0, e);
    ExtendGroupIncident(w.groups, w.keys, g0, e);
    assert forall g | 0 <= g < |groups'| :: |groups'[g]| > 0 by {
      forall g | 0 <= g < |groups'|
        ensures |groups'[g]| > 0
      {
        if g != g0 {
          assert groups'[g] == w.groups[g];
        }
      }
    }
  }

  /** A step keeps the state valid, and either marks a new input edge
      visited or pops the stack. */
  lemma StepValid(edges: seq<Edge>, w: Walk)
    requires |w.stack| > 0 && Valid(edges, w)
    ensures Valid(edges, Step(edges, w))
    ensures w.visited <= Step(edges, w).visited
    ensures Step(edges, w).visited == w.visited ==> |Step(edges, w).stack| < |w.stack|
    ensures Step(edges, w).visited != w.visited ==>
              exists e | e in edges :: e !in w.visited && Step(edges, w).visited == w.visited + {e}
  {
    var peek := w.stack[|w.stack| - 1];
    match FirstUnvisited(edges, peek, w.visited) {
    case None =>
    case Some(i) =>
      var e := edges[i];
      match KeyIndex(w.keys, peek) {
      case None => NewGroupValid(edges, w, peek, e);
      case Some(g0) => ExtendGroupValid(edges, w, g0, e);
      }
    }
  }

  /** The input edges, as a set. */
  function EdgeSet(edges: seq<Edge>): set<Edge> {
    set i | 0 <= i < |edges| :: edges[i]
  }

  /** A step that marks an edge visited leaves fewer unvisited input edges. */
  lemma StepShrinks(edges: seq<Edge>, w: Walk)
    requires |w.stack| > 0 && Valid(edges, w)
    ensures Step(edges, w).visited != w.visited ==>
              |EdgeSet(edges) - Step(edges, w).visited| < |EdgeSet(edges) - w.visited|
  {
    StepValid(edges, w);
    var w2 := Step(edges, w);
    if w2.visited != w.visited {
      var e :| e in edges && e !in w.visited && w2.visited == w.visited + {e};
      assert e in EdgeSet(edges) - w.visited;
      assert EdgeSet(edges) - w2.visited == (EdgeSet(edges) - w.visited) - {e};
    }
  }

  /** The `while` loop: it runs while the stack is not empty and there are
      fewer groups than input edges. */
  function Loop(edges: seq<Edge>, w: Walk): (r: Walk)
    requires Valid(edges, w)
    ensures Valid(edges, r)
    ensures w.visited <= r.visited
    ensures |r.stack| == 0 || |r.groups| == |edges|
    decreases |EdgeSet(edges) - w.visited|, |w.stack|
  {
    if |w.stack| == 0 || |w.groups| == |edges| then w
    else
      var w2 := Step(edges, w);
      StepValid(edges, w);
      StepShrinks(edges, w);
      Loop(edges, w2)
  }

  /** The whole walk from `s`; an empty edge list gives no groups. */
  function Walked(s: string, edges: seq<Edge>): (r: Walk)
    ensures Valid(edges, r)
    ensures |edges| == 0 ==> r.groups == []
  {
    if |edges| == 0 then Walk([s], [], [], {})
    else
      StartValid(edges, s);
      Loop(edges, Walk([s], [], [], {}))
  }

  /** `buildPathDepthFirst(s, edges)`: the groups of the walk. */
  function BuildPathDepthFirst(s: string, edges: seq<Edge>): seq<seq<Edge>> {
    Walked(s, edges).groups
  }

  /** The groups are non-empty, belong to pairwise different classes, hold
      only edges at their class, and hold each input edge at most once:
      every grouped edge is an input edge and appears in one group, in
      one place. */
  lemma BuildPathDepthFirstGroups(s: string, edges: seq<Edge>)
    ensures var groups := BuildPathDepthFirst(s, edges);
            var keys := Walked(s, edges).keys;
            (|edges| == 0 ==> groups == [])
            && |keys| == |groups|
            && (forall a, b | 0 <= a < b < |keys| :: keys[a] != keys[b])
            && (forall g | 0 <= g < |groups| :: |groups[g]| > 0)
            && (forall g, j | 0 <= g < |groups| && 0 <= j < |groups[g]| :: Incident(groups[g][j], keys[g]))
            && (forall g, j | 0 <= g < |groups| && 0 <= j < |groups[g]| :: groups[g][j] in edges)
            && (forall e :: multiset(Flatten(groups))[e] <= 1)
  {
    var w := Walked(s, edges);
    forall g, j | 0 <= g < |w.groups| && 0 <= j < |w.groups[g]|
      ensures w.groups[g][j] in edges
    {
      FlattenHolds(w.groups, g, j);
    }
  }

  /** The first unvisited edge at `v` is the one at `k` when no earlier
      edge qualifies. */
  lemma FirstUnvisitedAt(edges: seq<Edge>, v: string, visited: set<Edge>, k: nat)
    requires k < |edges| && Incident(edges[k], v) && edges[k] !in visited
    requires forall i | 0 <= i < k :: !(Incident(edges[i], v) && edges[i] !in visited)
    ensures FirstUnvisited(edges, v, visited) == Some(k)
  {
  }

  /** One step of the walk, spelt out: it keeps the state valid and does
      not change where the loop ends. */
  lemma LoopStep(edges: seq<Edge>, w: Walk, w': Walk)
    requires |w.stack| > 0 && |w.groups| != |edges| && Valid(edges, w) && Step(edges, w) == w'
    ensures Valid(edges, w') && Loop(edges, w) == Loop(edges, w')
  {
    StepValid(edges, w);
  }

  /** The test's four edges over the classes `a` to `e` (CL1, CR1, CR2,
      CR3, CR4 in the source's test). */
  function TestEdges(a: string, b: string, c: string, d: string, e: string, p1: string, p2: string, p3: string): seq<Edge> {
    [Edge(p1, 1, a, b), Edge(p2, 1, b, c), Edge(p3, 1, b, d), Edge(p3, 1, e, d)]
  }

  /** Five pairwise different classes. */
  predicate Distinct5(a: string, b: string, c: string, d: string, e: string) {
    a != b && a != c && a != d && a != e && b != c && b != d && b != e && c != d && c != e && d != e
  }

  /** The first five steps of the test's walk, one lemma each: every edge
      gets visited. */
  lemma TestStep1(a: string, b: string, c: string, d: string, e: string, p1: string, p2: string, p3: string)
    requires Distinct5(a, b, c, d, e)
    ensures var edges := TestEdges(a, b, c, d, e, p1, p2, p3);
            Step(edges, Walk([a], [], [], {})) == Walk([a, b], [[edges[0]]], [a], {edges[0]})
  {
    FirstUnvisitedAt(TestEdges(a, b, c, d, e, p1, p2, p3), a, {}, 0);
  }

  lemma TestStep2(a: string, b: string, c: string, d: string, e: string, p1: string, p2: string, p3: string)
    requires Distinct5(a, b, c, d, e)
    ensures var edges := TestEdges(a, b, c, d, e, p1, p2, p3);
            var e1, e2 := edges[0], edges[1];
            Step(edges, Walk([a, b], [[e1]], [a], {e1})) == Walk([a, b, c], [[e1], [e2]], [a, b], {e1, e2})
  {
    var edges := TestEdges(a, b, c, d, e, p1, p2, p3);
    FirstUnvisitedAt(edges, b, {edges[0]}, 1);
    assert KeyIndex([a], b) == None;
  }

  lemma TestStep3(a: string, b: string, c: string, d: string, e: string, p1: string, p2: string, p3: string)
    requires Distinct5(a, b, c, d, e)
    ensures var edges := TestEdges(a, b, c, d, e, p1, p2, p3);
            var e1, e2 := edges[0], edges[1];
            Step(edges, Walk([a, b, c], [[e1], [e2]], [a, b], {e1, e2})) == Walk([a, b], [[e1], [e2]], [a, b], {e1, e2})
  {
    var edges := TestEdges(a, b, c, d, e, p1, p2, p3);
    assert FirstUnvisited(edges, c, {edges[0], edges[1]}) == None;
  }

  lemma TestStep4(a: string, b: string, c: string, d: string, e: string, p1: string, p2: string, p3: string)
    requires Distinct5(a, b, c, d, e)
    ensures var edges := TestEdges(a, b, c, d, e, p1, p2, p3);
            var e1, e2, e3 := edges[0], edges[1], edges[2];
            Step(edges, Walk([a, b], [[e1], [e2]], [a, b], {e1, e2}))
            == Walk([a, b, d], [[e1], [e2, e3]], [a, b], {e1, e2, e3})
  {
    var edges := TestEdges(a, b, c, d, e, p1, p2, p3);
    FirstUnvisitedAt(edges, b, {edges[0], edges[1]}, 2);
    assert KeyIndex([a, b], b) == Some(1);
    var g := [[edges[0]], [edges[1]]];
    var g' := g[1 := g[1] + [edges[2]]];
    assert g[1] + [edges[2]] == [edges[1], edges[2]];
    assert |g'| == 2 && g'[0] == [edges[0]] && g'[1] == [edges[1], edges[2]];
    assert g' == [[edges[0]], [edges[1], edges[2]]];
  }

  lemma TestStep5(a: string, b: string, c: string, d: string, e: string, p1: string, p2: string, p3: string)
    requires Distinct5(a, b, c, d, e)
    ensures var edges := TestEdges(a, b, c, d, e, p1, p2, p3);
            var e1, e2, e3, e4 := edges[0], edges[1], edges[2], edges[3];
            Step(edges, Walk([a, b, d], [[e1], [e2, e3]], [a, b], {e1, e2, e3}))
            == Walk([a, b, d, e], [[e1], [e2, e3], [e4]], [a, b, d], {e1, e2, e3, e4})
  {
    var edges := TestEdges(a, b, c, d, e, p1, p2, p3);
    FirstUnvisitedAt(edges, d, {edges[0], edges[1], edges[2]}, 3);
    assert KeyIndex([a, b], d) == None;
  }

  /** Once every edge is visited each step pops the stack. */
  lemma TestWalkBack(edges: seq<Edge>, stack: seq<string>, groups: seq<seq<Edge>>, keys: seq<string>, visited: set<Edge>)
    requires |stack| > 0 && |keys| == |groups|
    requires forall i | 0 <= i < |edges| :: edges[i] in visited
    ensures Step(edges, Walk(stack, groups, keys, visited)) == Walk(stack[..|stack| - 1], groups, keys, visited)
  {
  }

  /** The first half of the test's walk: five steps visit every edge. */
  lemma TestWalkForward(a: string, b: string, c: string, d: string, e: string, p1: string, p2: string, p3: string)
    requires Distinct5(a, b, c, d, e)
    ensures var edges := TestEdges(a, b, c, d, e, p1, p2, p3);
            var w5 := Walk([a, b, d, e], [[edges[0]], [edges[1], edges[2]], [edges[3]]], [a, b, d],
                           {edges[0], edges[1], edges[2], edges[3]});
            Valid(edges, w5) && Loop(edges, Walk([a], [], [], {})) == Loop(edges, w5)
  {
    var edges := TestEdges(a, b, c, d, e, p1, p2, p3);
    var e1, e2, e3, e4 := edges[0], edges[1], edges[2], edges[3];
    TestStep1(a, b, c, d, e, p1, p2, p3);
    TestStep2(a, b, c, d, e, p1, p2, p3);
    TestStep3(a, b, c, d, e, p1, p2, p3);
    TestStep4(a, b, c, d, e, p1, p2, p3);
    TestStep5(a, b, c, d, e, p1, p2, p3);
    StartValid(edges, a);
    LoopStep(edges, Walk([a], [], [], {}), Walk([a, b], [[e1]], [a], {e1}));
    LoopStep(edges, Walk([a, b], [[e1]], [a], {e1}), Walk([a, b, c], [[e1], [e2]], [a, b], {e1, e2}));
    LoopStep(edges, Walk([a, b, c], [[e1], [e2]], [a, b], {e1, e2}), Walk([a, b], [[e1], [e2]], [a, b], {e1, e2}));
    LoopStep(edges, Walk([a, b], [[e1], [e2]], [a, b], {e1, e2}), Walk([a, b, d], [[e1], [e2, e3]], [a, b], {e1, e2, e3}));
    LoopStep(edges, Walk([a, b, d], [[e1], [e2, e3]], [a, b], {e1, e2, e3}),
             Walk([a, b, d, e], [[e1], [e2, e3], [e4]], [a, b, d], {e1, e2, e3, e4}));
  }

  /** The second half: four pops empty the stack. */
  lemma TestWalkBackward(edges: seq<Edge>, a: string, b: string, d: string, e: string, groups: seq<seq<Edge>>, keys: seq<string>, visited: set<Edge>)
    requires |edges| == 4 && |groups| == 3
    requires forall i | 0 <= i < |edges| :: edges[i] in visited
    requires Valid(edges, Walk([a, b, d, e], groups, keys, visited))
    ensures Loop(edges, Walk([a, b, d, e], groups, keys, visited)) == Walk([], groups, keys, visited)
  {
    TestWalkBack(edges, [a, b, d, e], groups, keys, visited);
    LoopStep(edges, Walk([a, b, d, e], groups, keys, visited), Walk([a, b, d], groups, keys, visited));
    TestWalkBack(edges, [a, b, d], groups, keys, visited);
    LoopStep(edges, Walk([a, b, d], groups, keys, visited), Walk([a, b], groups, keys, visited));
    TestWalkBack(edges, [a, b], groups, keys, visited);
    LoopStep(edges, Walk([a, b], groups, keys, visited), Walk([a], groups, keys, visited));
    TestWalkBack(edges, [a], groups, keys, visited);
    LoopStep(edges, Walk([a], groups, keys, visited), Walk([], groups, keys, visited));
  }

  /** The walk of the source's test over any five different classes. */
  lemma BuildPathDepthFirstWalk(a: string, b: string, c: string, d: string, e: string, p1: string, p2: string, p3: string)
    requires Distinct5(a, b, c, d, e)
    ensures var edges := TestEdges(a, b, c, d, e, p1, p2, p3);
            BuildPathDepthFirst(a, edges) == [[edges[0]], [edges[1], edges[2]], [edges[3]]]
  {
    var edges := TestEdges(a, b, c, d, e, p1, p2, p3);
    var groups := [[edges[0]], [edges[1], edges[2]], [edges[3]]];
    var visited := {edges[0], edges[1], edges[2], edges[3]};
    TestWalkForward(a, b, c, d, e, p1, p2, p3);
    TestWalkBackward(edges, a, b, d, e, groups, [a, b, d], visited);
  }

  /** The source's test itself, with its class and property names. */
  lemma BuildPathDepthFirstExample()
    ensures var e1 := Edge("P1", 1, "CL1", "CR1");
            var e2 := Edge("P2", 1, "CR1", "CR2");
            var e3 := Edge("P3", 1, "CR1", "CR3");
            var e4 := Edge("P3", 1, "CR4", "CR3");
            BuildPathDepthFirst("CL1", [e1, e2, e3, e4]) == [[e1], [e2, e3], [e4]]
  {
    BuildPathDepthFirstWalk("CL1", "CR1", "CR2", "CR3", "CR4", "P1", "P2", "P3");
  }
}

=== FILE: edges.dfy ===
/** `Edge`: a property edge between two classes, with the number of times
    it occurs. */
module Edges {
  import opened Wrappers
  import opened JavaInt
  import opened JavaText

  /** The four final fields of an edge. */
  datatype Edge = Edge(property: string, occurrences: Int32, cLeft: string, cRight: string)

  /** A string `trim` leaves as it is. */
  predicate Trimmed(s: string) {
    Trim(s) == s
  }

  /** The shape of every edge the constructor builds. */
  predicate WellFormed(e: Edge) {
    Trimmed(e.property) && Trimmed(e.cLeft) && Trimmed(e.cRight)
  }

  /** The constructor: trims the property and both class names and keeps
      the count. Its result is a fixed point, and names that are already
      trimmed are kept exactly. */
  function NewEdge(property: string, occurrences: Int32, cLeft: string, cRight: string): (e: Edge)
    ensures e.occurrences == occurrences
    ensures e.property == Trim(property) && e.cLeft == Trim(cLeft) && e.cRight == Trim(cRight)
    ensures WellFormed(e)
    ensures Trimmed(property) && Trimmed(cLeft) && Trimmed(cRight) ==>
              e == Edge(property, occurrences, cLeft, cRight)
  {
    TrimIdempotent(property);
    TrimIdempotent(cLeft);
    TrimIdempotent(cRight);
    Edge(Trim(property), occurrences, Trim(cLeft), Trim(cRight))
  }

  /** Rebuilding an edge from its own fields gives the same edge. */
  lemma NewEdgeOfFields(e: Edge)
    ensures WellFormed(e) <==> NewEdge(e.property, e.occurrences, e.cLeft, e.cRight) == e
  {
    if NewEdge(e.property, e.occurrences, e.cLeft, e.cRight) == e {
      assert Trim(e.property) == e.property;
    }
  }

  // ---------------------------------------------------------------------
  // compareTo

  /** `compareTo`: `other.occurrences - occurrences` in 32-bit arithmetic.
      Heavier edges sort first whenever the difference does not overflow,
      which holds for every pair of non-negative counts. */
  function CompareTo(self: Edge, other: Edge): (r: Int32)
    ensures MIN_VALUE <= other.occurrences - self.occurrences <= MAX_VALUE ==>
              (r < 0 <==> self.occurrences > other.occurrences)
              && (r == 0 <==> self.occurrences == other.occurrences)
              && (r > 0 <==> self.occurrences < other.occurrences)
    ensures self.occurrences >= 0 && other.occurrences >= 0 ==>
              (r < 0 <==> self.occurrences > other.occurrences)
  {
    Wrap(other.occurrences - self.occurrences)
  }

  /** Comparing an edge with itself gives 0, and swapping the arguments
      negates the result when neither difference overflows. */
  lemma CompareToAntisymmetric(a: Edge, b: Edge)
    requires MIN_VALUE < b.occurrences - a.occurrences <= MAX_VALUE
    ensures CompareTo(a, a) == 0
    ensures CompareTo(a, b) == -CompareTo(b, a)
  {
    assert MIN_VALUE <= a.occurrences - b.occurrences <= MAX_VALUE;
  }

  /** With an extreme count the subtraction wraps and the order is wrong:
      an edge with `Integer.MIN_VALUE` occurrences sorts before one with a
      single occurrence. */
  lemma CompareToOverflow()
    ensures var light := Edge("p", MIN_VALUE, "a", "b");
            var heavy := Edge("p", 1, "a", "b");
            light.occurrences < heavy.occurrences && CompareTo(light, heavy) < 0
  {
    var d := 1 - MIN_VALUE;
    assert d % 0x1_0000_0000 == d;
    assert Wrap(d) == d - 0x1_0000_0000;
  }

  // ---------------------------------------------------------------------
  // equals and hashCode

  /** An `Edge` object: its identity and its fields. */
  datatype Ref = Ref(id: nat, edge: Edge)

  /** The argument of `equals`: null, an edge, or an object of another class. */
  datatype Obj = NullObj | EdgeObj(ref: Ref) | OtherObj

  /** `String.hashCode`: `s[0]*31^(n-1) + ... + s[n-1]` in 32-bit arithmetic. */
  function StringHash(s: string): Int32
    decreases |s|
  {
    if |s| == 0 then 0 else Wrap(31 * StringHash(s[..|s| - 1]) + s[|s| - 1] as int)
  }

  /** `31^k`. */
  function Pow31(k: nat): nat {
    if k == 0 then 1 else 31 * Pow31(k - 1)
  }

  /** The value `String.hashCode` is documented to compute, in unbounded
      arithmetic: `s[0]*31^(n-1) + s[1]*31^(n-2) + ... + s[n-1]`. */
  function HashPolynomial(s: string): int
    decreases |s|
  {
    if |s| == 0 then 0 else s[0] as int * Pow31(|s| - 1) + HashPolynomial(s[1..])
  }

  /** One more character at the end multiplies the polynomial by 31 and
      adds the character. */
  lemma {:induction false} PolynomialSnoc(s: string, c: char)
    ensures HashPolynomial(s + [c]) == 31 * HashPolynomial(s) + c as int
    decreases |s|
  {
    if |s| == 0 {
      assert s + [c] == [c];
      assert [c][1..] == [];
    } else {
      var t := s + [c];
      assert t[0] == s[0];
      assert t[1..] == s[1..] + [c];
      PolynomialSnoc(s[1..], c);
      var x := s[0] as int;
      assert Pow31(|t| - 1) == 31 * Pow31(|s| - 1);
      assert x * Pow31(|t| - 1) == 31 * (x * Pow31(|s| - 1));
    }
  }

  /** The step-by-step 32-bit computation gives the documented polynomial
      reduced to 32 bits, for every string. */
  lemma {:induction false} StringHashPolynomial(s: string)
    ensures StringHash(s) == Wrap(HashPolynomial(s))
    decreases |s|
  {
    if |s| > 0 {
      var n := |s| - 1;
      var init := s[..n];
      var c := s[n] as int;
      StringHashPolynomial(init);
      assert s == init + [s[n]];
      PolynomialSnoc(init, s[n]);
      var p := HashPolynomial(init);
      MultipleScales(Wrap(p) - p, 31);
      assert (31 * Wrap(p) + c) - (31 * p + c) == (Wrap(p) - p) * 31;
      WrapCongruent(31 * Wrap(p) + c, 31 * p + c);
    }
  }

  /** `hashCode`: the product of the three string hashes, the constants
      2, 3 and 5 and the count, multiplied left to right with wrap-around. */
  function HashCode(e: Edge): Int32 {
    var h := Times(StringHash(e.cLeft), 2);
    var h := Times(h, StringHash(e.cRight));
    var h := Times(h, 3);
    var h := Times(h, StringHash(e.property));
    var h := Times(h, 5);
    Times(h, e.occurrences)
  }

  /** Java's `int` multiplication. */
  function Times(a: Int32, b: Int32): Int32 {
    Wrap(a * b)
  }

  /** `equals`: false for null and for other classes, true for the same
      object, and otherwise true exactly when all four fields are equal;
      objects it calls equal have equal hash codes. */
  function Equals(self: Ref, obj: Obj): (r: bool)
    ensures obj.NullObj? || obj.OtherObj? ==> !r
    ensures obj.EdgeObj? && obj.ref.id == self.id ==> r
    ensures obj.EdgeObj? && obj.ref.id != self.id ==>
              (r <==> (self.edge.cLeft == obj.ref.edge.cLeft
                       && self.edge.cRight == obj.ref.edge.cRight
                       && self.edge.property == obj.ref.edge.property
                       && self.edge.occurrences == obj.ref.edge.occurrences))
    ensures r && obj.ref.id != self.id ==> HashCode(self.edge) == HashCode(obj.ref.edge)
  {
    match obj
    case NullObj => false
    case OtherObj => false
    case EdgeObj(other) => other.id == self.id || other.edge == self.edge
  }

  /** `equals` is symmetric, and transitive over objects whose identities
      determine their fields. */
  lemma EqualsSymmetricTransitive(a: Ref, b: Ref, c: Ref)
    requires a.id == b.id ==> a.edge == b.edge
    requires b.id == c.id ==> b.edge == c.edge
    requires a.id == c.id ==> a.edge == c.edge
    ensures Equals(a, EdgeObj(b)) == Equals(b, EdgeObj(a))
    ensures Equals(a, EdgeObj(b)) && Equals(b, EdgeObj(c)) ==> Equals(a, EdgeObj(c))
  {
  }

  /** An even number stays even when wrapped to 32 bits. */
  lemma WrapEven(x: int)
    requires x % 2 == 0
    ensures Wrap(x) % 2 == 0
  {
    var h := x / 2;
    var t := (Wrap(x) - x) / 0x1_0000_0000;
    assert Wrap(x) - x == 0x1_0000_0000 * t;
    assert Wrap(x) == 2 * (h + 0x8000_0000 * t);
  }

  /** A multiple of an even number is even. */
  lemma MulEven(a: int, b: int)
    requires a % 2 == 0
    ensures (a * b) % 2 == 0
  {
    var k := a / 2;
    assert a == 2 * k;
    assert a * b == 2 * (k * b);
  }

  /** A wrapped product with an even factor is even. */
  lemma TimesEven(a: Int32, b: Int32)
    requires a % 2 == 0 || b % 2 == 0
    ensures Times(a, b) % 2 == 0
  {
    if a % 2 == 0 {
      MulEven(a, b);
    } else {
      MulEven(b, a);
      assert b * a == a * b;
    }
    WrapEven(a * b);
  }

  /** Multiplying left to right with wrap-around gives the exact product
      of the field hashes, the constants and the count, reduced to 32 bits
      once. */
  lemma HashCodeProduct(e: Edge)
    ensures HashCode(e) == Wrap(StringHash(e.cLeft) as int * 2 * StringHash(e.cRight) as int * 3
                                * StringHash(e.property) as int * 5 * e.occurrences as int)
  {
    var l, r, p, o := StringHash(e.cLeft), StringHash(e.cRight), StringHash(e.property), e.occurrences;
    var x1: int := l as int * 2;
    var x2: int := x1 * r as int;
    var x3: int := x2 * 3;
    var x4: int := x3 * p as int;
    var x5: int := x4 * 5;
    var h1 := Times(l, 2);
    var h2 := Times(h1, r);
    var h3 := Times(h2, 3);
    var h4 := Times(h3, p);
    var h5 := Times(h4, 5);
    assert HashCode(e) == Times(h5, o);
    TimesStep(h1, x1, r);
    TimesStep(h2, x2, 3);
    TimesStep(h3, x3, p);
    TimesStep(h4, x4, 5);
    TimesStep(h5, x5, o);
  }

  /** One more factor on a product wrapped so far. */
  lemma TimesStep(h: Int32, x: int, b: Int32)
    requires h == Wrap(x)
    ensures Times(h, b) == Wrap(x * b as int)
  {
    WrapTimes(x, b);
  }

  /** Because of the factor 2 every hash code is even, and an edge with no
      occurrences hashes to 0. */
  lemma HashCodeShape(e: Edge)
    ensures HashCode(e) % 2 == 0
    ensures e.occurrences == 0 ==> HashCode(e) == 0
  {
    var h1 := Times(StringHash(e.cLeft), 2);
    TimesEven(StringHash(e.cLeft), 2);
    var h2 := Times(h1, StringHash(e.cRight));
    TimesEven(h1, StringHash(e.cRight));
    var h3 := Times(h2, 3);
    TimesEven(h2, 3);
    var h4 := Times(h3, StringHash(e.property));
    TimesEven(h3, StringHash(e.property));
    var h5 := Times(h4, 5);
    TimesEven(h4, 5);
    TimesEven(h5, e.occurrences);
    assert HashCode(e) == Times(h5, e.occurrences);
  }

  // ---------------------------------------------------------------------
  // toString

  /** `toString`: `cLeft -- property (occurrences) --> cRight`. */
  function ToString(e: Edge): string {
    e.cLeft + " -- " + e.property + " (" + IntToString(e.occurrences) + ") --> " + e.cRight
  }

  /** The renderings of a list of edges, in order. */
  function Texts(edges: seq<Edge>): (r: seq<string>)
    ensures |r| == |edges|
    ensures forall i | 0 <= i < |edges| :: r[i] == ToString(edges[i])
    decreases |edges|
  {
    if |edges| == 0 then [] else [ToString(edges[0])] + Texts(edges[1..])
  }

  /** The count can be read back from the text between the last " (" and
      the following ") --> " when the class on the right has no ") --> ". */
  lemma ToStringCount(e: Edge)
    ensures var t := ToString(e);
            var k := |e.cLeft + " -- " + e.property + " ("|;
            var n := IntToString(e.occurrences);
            t[k..k + |n|] == n && ParseInt(t[k..k + |n|]) == Some(e.occurrences as int)
  {
    var head := e.cLeft + " -- " + e.property + " (";
    var n := IntToString(e.occurrences);
    var t := ToString(e);
    assert t == head + n + (") --> " + e.cRight);
    assert t[|head|..|head| + |n|] == n;
    ParseIntToString(e.occurrences);
  }

  /** A string that neither starts nor ends with a blank is trimmed. */
  lemma TrimmedEnds(s: string)
    requires |s| > 0 && !IsBlank(s[0]) && !IsBlank(s[|s| - 1])
    ensures Trimmed(s)
  {
    assert LeadingBlanks(s) == 0;
    assert TrailingBlanks(s) == 0;
    assert s[0..|s|] == s;
  }

  /** The first edge of the depth-first test renders as the test expects. */
  lemma ToStringExample()
    ensures ToString(NewEdge("P1", 1, "CL1", "CR1")) == "CL1 -- P1 (1) --> CR1"
  {
    TrimmedEnds("P1");
    TrimmedEnds("CL1");
    TrimmedEnds("CR1");
    assert NewEdge("P1", 1, "CL1", "CR1") == Edge("P1", 1, "CL1", "CR1");
    assert NatDigits(1) == [DigitChar(1)] == "1";
  }
}

=== FILE: java_int.dfy ===
/** Java's 32-bit two's-complement `int`. */
module JavaInt {

  const MIN_VALUE: int := -0x8000_0000
  const MAX_VALUE: int := 0x7FFF_FFFF

  type Int32 = x: int | MIN_VALUE <= x <= MAX_VALUE

  /** The `int` that Java arithmetic produces for the mathematical value `x`:
      `x` reduced modulo 2^32 into the signed range. */
  function Wrap(x: int): (r: Int32)
    ensures (r - x) % 0x1_0000_0000 == 0
    ensures MIN_VALUE <= x <= MAX_VALUE ==> r == x
  {
    var m := x % 0x1_0000_0000;
    if m <= MAX_VALUE then m else m - 0x1_0000_0000
  }

  /** Values that differ by a multiple of 2^32 are the same `int`. */
  lemma WrapCongruent(x: int, y: int)
    requires (x - y) % 0x1_0000_0000 == 0
    ensures Wrap(x) == Wrap(y)
  {
    var k := (x - y) / 0x1_0000_0000;
    assert x == y + 0x1_0000_0000 * k;
    ModShift(y, k);
  }

  /** Adding whole multiples of 2^32 keeps the remainder. */
  lemma ModShift(y: int, k: int)
    ensures (y + 0x1_0000_0000 * k) % 0x1_0000_0000 == y % 0x1_0000_0000
  {
    var q, r := y / 0x1_0000_0000, y % 0x1_0000_0000;
    assert y == 0x1_0000_0000 * q + r && 0 <= r < 0x1_0000_0000;
    assert y + 0x1_0000_0000 * k == 0x1_0000_0000 * (q + k) + r;
  }

  /** A multiple of 2^32 stays one when multiplied by anything. */
  lemma MultipleScales(d: int, b: int)
    requires d % 0x1_0000_0000 == 0
    ensures (d * b) % 0x1_0000_0000 == 0
  {
    var k := d / 0x1_0000_0000;
    assert d == 0x1_0000_0000 * k;
    assert d * b == 0x1_0000_0000 * (k * b);
  }

  /** Wrapping an intermediate product changes nothing: Java's `int`
      multiplication of a wrapped value is the wrap of the exact product. */
  lemma WrapTimes(x: int, b: int)
    ensures Wrap(Wrap(x) * b) == Wrap(x * b)
  {
    MultipleScales(Wrap(x) - x, b);
    assert Wrap(x) * b - x * b == (Wrap(x) - x) * b;
    WrapCongruent(Wrap(x) * b, x * b);
  }
}

=== FILE: java_text.dfy ===
/** The few `java.lang.String` operations the modelled code relies on, with
    Java's semantics written out: `replace`, `contains`, `trim`, `split`,
    joining, `Integer.toString` and `Arrays.toString`. */
module JavaText {
  import opened Wrappers

  // ---------------------------------------------------------------------
  // Occurrences and String.contains

  /** `t` occurs in `s` starting at index `i`. */
  predicate OccursAt(s: string, t: string, i: int) {
    0 <= i && i + |t| <= |s| && s[i..i + |t|] == t
  }

  /** `s.contains(t)`. */
  predicate Contains(s: string, t: string) {
    exists i | 0 <= i <= |s| :: OccursAt(s, t, i)
  }

  // ---------------------------------------------------------------------
  // Joining and splitting

  /** The pieces separated by `sep` (Guava `Joiner.on(sep).join`, Java `String.join`). */
  function Join(pieces: seq<string>, sep: string): string
    decreases |pieces|
  {
    if |pieces| == 0 then ""
    else if |pieces| == 1 then pieces[0]
    else pieces[0] + sep + Join(pieces[1..], sep)
  }

  /** The pieces of `s` between the non-overlapping occurrences of `t`, found
      left to right, the way `String.replace` scans for its target. */
  function SplitOn(s: string, t: string): (pieces: seq<string>)
    requires |t| > 0
    ensures |pieces| >= 1
    decreases |s|
  {
    if |s| < |t| then [s]
    else if s[..|t|] == t then [""] + SplitOn(s[|t|..], t)
    else
      var rest := SplitOn(s[1..], t);
      [[s[0]] + rest[0]] + rest[1..]
  }

  /** Joining the pieces back with the separator restores the string. */
  lemma {:induction false} SplitOnJoin(s: string, t: string)
    requires |t| > 0
    ensures Join(SplitOn(s, t), t) == s
    decreases |s|
  {
    if |s| < |t| {
    } else if s[..|t|] == t {
      SplitOnJoin(s[|t|..], t);
      JoinConsEmpty(SplitOn(s[|t|..], t), t);
      assert s == s[..|t|] + s[|t|..];
    } else {
      SplitOnJoin(s[1..], t);
      var rest := SplitOn(s[1..], t);
      JoinConsHead(s[0], rest, t);
      assert s == [s[0]] + s[1..];
    }
  }

  /** A new empty first piece prepends the separator to the join. */
  lemma JoinConsEmpty(pieces: seq<string>, sep: string)
    requires |pieces| >= 1
    ensures Join([""] + pieces, sep) == sep + Join(pieces, sep)
  {
    assert ([""] + pieces)[1..] == pieces;
  }

  /** Prepending a character to the first piece prepends it to the join. */
  lemma JoinConsHead(c: char, pieces: seq<string>, sep: string)
    requires |pieces| >= 1
    ensures Join([[c] + pieces[0]] + pieces[1..], sep) == [c] + Join(pieces, sep)
  {
    var p := [[c] + pieces[0]] + pieces[1..];
    if |pieces| > 1 {
      assert p[1..] == pieces[1..];
    }
  }

  // ---------------------------------------------------------------------
  // String.replace(CharSequence, CharSequence)

  /** `s.replace(t, r)`: every non-overlapping occurrence of `t`, found left
      to right, replaced by `r`; an empty `t` matches before every character
      and at the end. */
  function Replace(s: string, t: string, r: string): string
    decreases |s|
  {
    if |t| == 0 then
      if |s| == 0 then r else r + [s[0]] + Replace(s[1..], t, r)
    else if |s| < |t| then s
    else if s[..|t|] == t then r + Replace(s[|t|..], t, r)
    else [s[0]] + Replace(s[1..], t, r)
  }

  /** For a non-empty target, replacing is splitting at the target and
      joining with the replacement. */
  lemma {:induction false} ReplaceIsSplitJoin(s: string, t: string, r: string)
    requires |t| > 0
    ensures Replace(s, t, r) == Join(SplitOn(s, t), r)
    decreases |s|
  {
    if |s| < |t| {
    } else if s[..|t|] == t {
      ReplaceIsSplitJoin(s[|t|..], t, r);
      JoinConsEmpty(SplitOn(s[|t|..], t), r);
    } else {
      ReplaceIsSplitJoin(s[1..], t, r);
      JoinConsHead(s[0], SplitOn(s[1..], t), r);
    }
  }

  /** Replacing a target by itself changes nothing. */
  lemma ReplaceByItself(s: string, t: string)
    requires |t| > 0
    ensures Replace(s, t, t) == s
  {
    ReplaceIsSplitJoin(s, t, t);
    SplitOnJoin(s, t);
  }

  /** A non-empty target that does not occur leaves the string unchanged. */
  lemma {:induction false} ReplaceAbsent(s: string, t: string, r: string)
    requires |t| > 0 && !Contains(s, t)
    ensures Replace(s, t, r) == s
    decreases |s|
  {
    if |s| < |t| {
    } else {
      assert !OccursAt(s, t, 0);
      assert !Contains(s[1..], t) by {
        forall i | 0 <= i <= |s[1..]| ensures !OccursAt(s[1..], t, i) {
          if OccursAt(s[1..], t, i) {
            assert s[1..][i..i + |t|] == s[i + 1..i + 1 + |t|];
            assert OccursAt(s, t, i + 1);
          }
        }
      }
      ReplaceAbsent(s[1..], t, r);
    }
  }

  // ---------------------------------------------------------------------
  // String.split(":") — a single-character, non-regex separator

  /** Every piece of `s` between occurrences of `sep`, empty pieces kept. */
  function SplitAll(s: string, sep: char): (pieces: seq<string>)
    ensures |pieces| >= 1
    ensures forall k | 0 <= k < |pieces| :: sep !in pieces[k]
    ensures Join(pieces, [sep]) == s
    ensures sep !in s ==> pieces == [s]
    decreases |s|
  {
    if |s| == 0 then [""]
    else
      var rest := SplitAll(s[1..], sep);
      assert s == [s[0]] + s[1..];
      if s[0] == sep then
        assert ([""] + rest)[1..] == rest;
        [""] + rest
      else
        JoinConsHead(s[0], rest, [sep]);
        [[s[0]] + rest[0]] + rest[1..]
  }

  /** Splitting at the first separator: a separator-free head becomes the
      first piece and the rest is split on its own. */
  lemma {:induction false} SplitAllHead(a: string, sep: char, b: string)
    requires sep !in a
    ensures SplitAll(a + [sep] + b, sep) == [a] + SplitAll(b, sep)
    decreases |a|
  {
    var s := a + [sep] + b;
    if |a| == 0 {
      assert s[0] == sep && s[1..] == b;
    } else {
      assert s[0] == a[0] && s[1..] == a[1..] + [sep] + b;
      SplitAllHead(a[1..], sep, b);
      assert [a[0]] + a[1..] == a;
    }
  }

  /** Appending one more piece appends the separator and the piece. */
  lemma {:induction false} JoinSnoc(pieces: seq<string>, sep: string, last: string)
    requires |pieces| >= 1
    ensures Join(pieces + [last], sep) == Join(pieces, sep) + sep + last
    decreases |pieces|
  {
    var p := pieces + [last];
    if |pieces| == 1 {
      assert p[1..] == [last];
    } else {
      assert p[1..] == pieces[1..] + [last];
      JoinSnoc(pieces[1..], sep, last);
    }
  }

  /** The pieces with every trailing empty piece removed. */
  function DropTrailingEmpty(pieces: seq<string>): (r: seq<string>)
    ensures r <= pieces
    ensures |r| == 0 || r[|r| - 1] != ""
    ensures forall k | |r| <= k < |pieces| :: pieces[k] == ""
  {
    if |pieces| > 0 && pieces[|pieces| - 1] == "" then DropTrailingEmpty(pieces[..|pieces| - 1])
    else pieces
  }

  /** `s.split(String.valueOf(sep))` for a separator that is not a regex
      metacharacter: the input itself when the separator does not occur,
      otherwise all pieces with trailing empty ones removed. */
  function Split(s: string, sep: char): seq<string> {
    if sep !in s then [s] else DropTrailingEmpty(SplitAll(s, sep))
  }

  // ---------------------------------------------------------------------
  // String.trim()

  /** A character `trim` removes: code point at most U+0020. */
  predicate IsBlank(c: char) {
    c <= ' '
  }

  /** The number of blanks `trim` removes from the front. */
  function LeadingBlanks(s: string): (n: nat)
    ensures n <= |s|
    ensures forall k | 0 <= k < n :: IsBlank(s[k])
    ensures n == |s| || !IsBlank(s[n])
  {
    if |s| > 0 && IsBlank(s[0]) then 1 + LeadingBlanks(s[1..]) else 0
  }

  /** The number of blanks `trim` removes from the back. */
  function TrailingBlanks(s: string): (n: nat)
    ensures n <= |s|
    ensures forall k | |s| - n <= k < |s| :: IsBlank(s[k])
    ensures n == |s| || !IsBlank(s[|s| - n - 1])
  {
    if |s| > 0 && IsBlank(s[|s| - 1]) then 1 + TrailingBlanks(s[..|s| - 1]) else 0
  }

  /** `s.trim()`: `s` without its leading and trailing blanks. */
  function Trim(s: string): (r: string)
    ensures exists i, j | 0 <= i <= j <= |s| ::
      (r == s[i..j]
       && (forall k | 0 <= k < i :: IsBlank(s[k]))
       && (forall k | j <= k < |s| :: IsBlank(s[k])))
    ensures |r| == 0 || (!IsBlank(r[0]) && !IsBlank(r[|r| - 1]))
  {
    var i := LeadingBlanks(s);
    if i == |s| then
      assert s[i..i] == "";
      ""
    else
      var j := |s| - TrailingBlanks(s);
      assert i < j;
      s[i..j]
  }

  /** Trimming is idempotent. */
  lemma TrimIdempotent(s: string)
    ensures Trim(Trim(s)) == Trim(s)
  {
    var r := Trim(s);
    assert LeadingBlanks(r) == 0;
    if |r| > 0 {
      assert TrailingBlanks(r) == 0;
      assert r[0..|r|] == r;
    }
  }

  // ---------------------------------------------------------------------
  // Integer.toString and Arrays.toString

  /** The decimal digit for `d`. */
  function DigitChar(d: nat): (c: char)
    requires d < 10
    ensures '0' <= c <= '9' && DigitValue(c) == d
  {
    ('0' as int + d) as char
  }

  /** The value of a decimal digit character. */
  function DigitValue(c: char): nat {
    if '0' <= c <= '9' then (c - '0') as nat else 0
  }

  /** Every character of `s` is a decimal digit. */
  predicate AllDigits(s: string) {
    forall k | 0 <= k < |s| :: '0' <= s[k] <= '9'
  }

  /** The decimal digits of `n`, most significant first, no leading zero. */
  function NatDigits(n: nat): (r: string)
    ensures |r| >= 1
    ensures AllDigits(r)
    ensures |r| > 1 ==> r[0] != '0'
    decreases n
  {
    if n < 10 then [DigitChar(n)] else NatDigits(n / 10) + [DigitChar(n % 10)]
  }

  /** `Integer.toString(i)` (also `"" + i` and `%d`). */
  function IntToString(i: int): string {
    if i < 0 then "-" + NatDigits(-i) else NatDigits(i)
  }

  /** The number a string of decimal digits denotes. */
  function ParseDigits(s: string): nat
    decreases |s|
  {
    if |s| == 0 then 0 else 10 * ParseDigits(s[..|s| - 1]) + DigitValue(s[|s| - 1])
  }

  /** `Integer.parseInt` restricted to what `IntToString` produces. */
  function ParseInt(s: string): Option<int> {
    if |s| > 1 && s[0] == '-' && AllDigits(s[1..]) then
      Some(-(ParseDigits(s[1..]) as int))
    else if |s| > 0 && AllDigits(s) then
      Some(ParseDigits(s))
    else None
  }

  lemma {:induction false} ParseNatDigits(n: nat)
    ensures ParseDigits(NatDigits(n)) == n
    decreases n
  {
    if n >= 10 {
      ParseNatDigits(n / 10);
      var q := NatDigits(n / 10);
      var r := q + [DigitChar(n % 10)];
      assert NatDigits(n) == r;
      assert r[..|r| - 1] == q;
    }
  }

  /** `Integer.toString` can be read back: the decimal rendering is injective. */
  lemma ParseIntToString(i: int)
    ensures ParseInt(IntToString(i)) == Some(i)
  {
    if i < 0 {
      NegativeReadBack(i);
    } else {
      ParseNatDigits(i);
      var s := NatDigits(i);
      assert s[0] != '-';
    }
  }

  /** The rendering of a negative number reads back. */
  lemma NegativeReadBack(i: int)
    requires i < 0
    ensures ParseInt(IntToString(i)) == Some(i)
  {
    var n: nat := -i;
    var d := NatDigits(n);
    var s := "-" + d;
    assert IntToString(i) == s;
    assert s[1..] == d;
    ParseNatDigits(n);
    assert ParseInt(s) == Some(-(ParseDigits(d) as int));
  }

  /** `Arrays.toString` of a `String[]` (and `List.toString`): the elements
      separated by ", " between brackets. */
  function ListToString(items: seq<string>): string {
    "[" + Join(items, ", ") + "]"
  }
}

=== FILE: json_result_collector.dfy ===
/** `JSONResultCollector`: buffers key/value pairs picked out of collected
    rows and writes them as JSON fields at level boundaries; each level
    becomes a nested object named after its query. */
module JsonResultCollector {
  import opened Wrappers
  import opened JavaText
  import opened JsonTokens
  import opened Collector

  /** The collector's fields: the two halves of its `<field-binding>:<value-binding>`
      pattern, and the multimap buffer as the list of `put(key, value)` calls
      made since the last flush, oldest first. */
  datatype State = State(fieldBinding: string, valueBinding: string, buffer: seq<(string, string)>)

  // ---------------------------------------------------------------------
  // The constructor's pattern

  /** `m` colons. */
  function Colons(m: nat): (r: string)
    ensures |r| == m && forall i | 0 <= i < m :: r[i] == ':'
  {
    seq(m, _ => ':')
  }

  /** `m` empty strings. */
  function Empties(m: nat): (r: seq<string>)
    ensures |r| == m && forall i | 0 <= i < m :: r[i] == ""
  {
    seq(m, _ => "")
  }

  /** The constructor: `pattern.split(":")` must yield exactly two parts, the
      field binding and the value binding; otherwise an
      IllegalArgumentException. */
  function New(pattern: string): (r: Result<State>)
    ensures r.Err? ==> r.error == IllegalArgument
    ensures r.Ok? ==> (r.value.buffer == []
      && ':' !in r.value.fieldBinding && ':' !in r.value.valueBinding && r.value.valueBinding != "")
  {
    var parts := Split(pattern, ':');
    if |parts| != 2 then Err(IllegalArgument)
    else
      assert parts <= SplitAll(pattern, ':');
      assert parts[0] == SplitAll(pattern, ':')[0] && parts[1] == SplitAll(pattern, ':')[1];
      Ok(State(parts[0], parts[1], []))
  }

  /** Such a pattern splits into the field binding, the value binding and
      one empty piece per trailing colon. */
  lemma SplitAllPattern(f: string, v: string, m: nat)
    requires ':' !in f && ':' !in v
    ensures SplitAll(f + ":" + v + Colons(m), ':') == [f, v] + Empties(m)
  {
    var p := f + ":" + v + Colons(m);
    assert p == f + [':'] + (v + Colons(m));
    SplitAllHead(f, ':', v + Colons(m));
    if m == 0 {
      assert v + Colons(m) == v;
    } else {
      assert v + Colons(m) == v + [':'] + Colons(m - 1);
      SplitAllHead(v, ':', Colons(m - 1));
      SplitAllColons(m - 1);
    }
  }

  /** A colon-free field binding, a colon and a non-empty colon-free value
      binding is accepted, whatever trailing colons follow (`split` drops
      the empty pieces they make). */
  lemma NewAccepts(f: string, v: string, m: nat)
    requires ':' !in f && ':' !in v && v != ""
    ensures New(f + ":" + v + Colons(m)) == Ok(State(f, v, []))
  {
    var p := f + ":" + v + Colons(m);
    SplitAllPattern(f, v, m);
    DropEmpties([f, v], m);
    assert p[|f|] == ':';
  }

  /** Only such patterns are accepted. */
  lemma NewAccepted(p: string)
    requires New(p).Ok?
    ensures var st := New(p).value;
      exists m: nat :: p == st.fieldBinding + ":" + st.valueBinding + Colons(m)
  {
    var all := SplitAll(p, ':');
    var parts := Split(p, ':');
    assert ':' in p;
    var m := |all| - 2;
    assert all == parts + Empties(m);
    assert Join(all, ":") == p;
    JoinEmpties(parts, m);
    assert parts[1..] == [parts[1]];
    assert p == parts[0] + ":" + parts[1] + Colons(m);
  }

  /** A string of colons splits into one more empty piece than it has colons. */
  lemma {:induction false} SplitAllColons(m: nat)
    ensures SplitAll(Colons(m), ':') == Empties(m + 1)
    decreases m
  {
    if m > 0 {
      assert Colons(m)[1..] == Colons(m - 1);
      SplitAllColons(m - 1);
      assert Empties(m + 1) == [""] + Empties(m);
    } else {
      assert Colons(0) == "";
    }
  }

  /** Trailing empty pieces after a non-empty last piece are all dropped. */
  lemma {:induction false} DropEmpties(p: seq<string>, m: nat)
    requires |p| > 0 && p[|p| - 1] != ""
    ensures DropTrailingEmpty(p + Empties(m)) == p
    decreases m
  {
    if m == 0 {
      assert p + Empties(0) == p;
    } else {
      var q := p + Empties(m);
      assert q[..|q| - 1] == p + Empties(m - 1);
      DropEmpties(p, m - 1);
    }
  }

  /** Joining with colons after `m` empty pieces appends `m` colons. */
  lemma {:induction false} JoinEmpties(p: seq<string>, m: nat)
    requires |p| >= 1
    ensures Join(p + Empties(m), ":") == Join(p, ":") + Colons(m)
    decreases m
  {
    if m == 0 {
      assert p + Empties(0) == p;
    } else {
      assert p + Empties(m) == (p + Empties(m - 1)) + [""];
      JoinSnoc(p + Empties(m - 1), ":", "");
      JoinEmpties(p, m - 1);
      assert Colons(m) == Colons(m - 1) + ":";
    }
  }

  // ---------------------------------------------------------------------
  // collect

  /** Position `i` of a row binds the field binding. */
  predicate KeyAt(st: State, bindings: seq<string>, i: int)
    requires 0 <= i < |bindings|
  {
    bindings[i] == st.fieldBinding
  }

  /** Position `i` of a row binds a variable that is not the field binding
      and occurs as a substring of the value binding. */
  predicate ValueAt(st: State, bindings: seq<string>, i: int)
    requires 0 <= i < |bindings|
  {
    bindings[i] != st.fieldBinding && Contains(st.valueBinding, bindings[i])
  }

  /** Some position past the end of `values` binds the field binding or
      matches the value binding: the loop of `collect` reads `values` there. */
  predicate Overruns(st: State, bindings: seq<string>, values: seq<string>) {
    exists i | |values| <= i < |bindings| :: KeyAt(st, bindings, i) || ValueAt(st, bindings, i)
  }

  /** The loop of `collect`: the key is the value at the LAST position that
      binds the field binding, the value the one at the LAST position
      matching the value binding; None when there is no such position. The
      two never compete for a position, so each is its own scan. */
  function Pick(st: State, bindings: seq<string>, values: seq<string>): (r: (Option<string>, Option<string>))
    requires !Overruns(st, bindings, values)
    ensures r.0.None? <==> forall i | 0 <= i < |bindings| :: !KeyAt(st, bindings, i)
    ensures r.0.Some? ==> exists i | 0 <= i < |bindings| ::
      KeyAt(st, bindings, i) && r.0.value == values[i]
      && forall j | i < j < |bindings| :: !KeyAt(st, bindings, j)
    ensures r.1.None? <==> forall i | 0 <= i < |bindings| :: !ValueAt(st, bindings, i)
    ensures r.1.Some? ==> exists i | 0 <= i < |bindings| ::
      ValueAt(st, bindings, i) && r.1.value == values[i]
      && forall j | i < j < |bindings| :: !ValueAt(st, bindings, j)
  {
    (PickKey(st, bindings, values), PickValue(st, bindings, values))
  }

  /** The key half of `Pick`: the value at the last position binding the
      field binding. */
  function PickKey(st: State, bindings: seq<string>, values: seq<string>): (k: Option<string>)
    requires !Overruns(st, bindings, values)
    ensures k.None? <==> forall i | 0 <= i < |bindings| :: !KeyAt(st, bindings, i)
    ensures k.Some? ==> exists i | 0 <= i < |bindings| ::
      KeyAt(st, bindings, i) && k.value == values[i]
      && forall j | i < j < |bindings| :: !KeyAt(st, bindings, j)
    decreases |bindings|
  {
    if |bindings| == 0 then None
    else
      var n := |bindings| - 1;
      PickPrefix(st, bindings, values);
      if st.fieldBinding == bindings[n] then
        assert KeyAt(st, bindings, n);
        Some(values[n])
      else PickKey(st, bindings[..n], values)
  }

  /** The value half of `Pick`: the value at the last position matching
      the value binding. */
  function PickValue(st: State, bindings: seq<string>, values: seq<string>): (v: Option<string>)
    requires !Overruns(st, bindings, values)
    ensures v.None? <==> forall i | 0 <= i < |bindings| :: !ValueAt(st, bindings, i)
    ensures v.Some? ==> exists i | 0 <= i < |bindings| ::
      ValueAt(st, bindings, i) && v.value == values[i]
      && forall j | i < j < |bindings| :: !ValueAt(st, bindings, j)
    decreases |bindings|
  {
    if |bindings| == 0 then None
    else
      var n := |bindings| - 1;
      PickPrefix(st, bindings, values);
      if st.fieldBinding != bindings[n] && Contains(st.valueBinding, bindings[n]) then
        assert ValueAt(st, bindings, n);
        Some(values[n])
      else PickValue(st, bindings[..n], values)
  }

  /** Dropping the last binding keeps the row free of overruns and the
      positions before it as they were; the last binding has a value when
      the loop reads one for it. */
  lemma PickPrefix(st: State, bindings: seq<string>, values: seq<string>)
    requires |bindings| > 0 && !Overruns(st, bindings, values)
    ensures var n := |bindings| - 1;
            !Overruns(st, bindings[..n], values)
            && (forall i | 0 <= i < n :: KeyAt(st, bindings[..n], i) == KeyAt(st, bindings, i))
            && (forall i | 0 <= i < n :: ValueAt(st, bindings[..n], i) == ValueAt(st, bindings, i))
            && (KeyAt(st, bindings, n) || ValueAt(st, bindings, n) ==> n < |values|)
  {
    var n := |bindings| - 1;
    assert forall i | 0 <= i < n :: bindings[..n][i] == bindings[i];
    forall i | |values| <= i < n
      ensures !(KeyAt(st, bindings[..n], i) || ValueAt(st, bindings[..n], i))
    {
      assert !(KeyAt(st, bindings, i) || ValueAt(st, bindings, i));
    }
  }

  /** `collect(bindings, values)`: buffers the picked pair when both halves
      were found. The loop throws ArrayIndexOutOfBoundsException when it
      reaches a binding it would take a value for and `values` has ended
      before it; bindings past that end that match neither are ignored. */
  function DoCollect(st: State, bindings: seq<string>, values: seq<string>): (r: Result<State>)
    ensures r.Err? <==> Overruns(st, bindings, values)
    ensures |values| >= |bindings| ==> r.Ok?
    ensures r.Err? ==> r.error == IndexOutOfBounds
    ensures r.Ok? ==> (r.value.fieldBinding == st.fieldBinding && r.value.valueBinding == st.valueBinding)
    ensures r.Ok? ==>
      var (k, v) := Pick(st, bindings, values);
      if k.Some? && v.Some? then r.value.buffer == st.buffer + [(k.value, v.value)]
      else r.value.buffer == st.buffer
  {
    if Overruns(st, bindings, values) then Err(IndexOutOfBounds)
    else
      match Pick(st, bindings, values)
      case (Some(k), Some(v)) => Ok(st.(buffer := st.buffer + [(k, v)]))
      case _ => Ok(st)
  }

  /** A row binding the field once and one value variable once is buffered
      as that pair. */
  lemma CollectPair(st: State, key: string, value: string, kb: string, vb: string)
    requires kb == st.fieldBinding && vb != kb && Contains(st.valueBinding, vb)
    ensures DoCollect(st, [kb, vb], [key, value]) == Ok(st.(buffer := st.buffer + [(key, value)]))
  {
    var r := Pick(st, [kb, vb], [key, value]);
    assert KeyAt(st, [kb, vb], 0) && !KeyAt(st, [kb, vb], 1);
    assert ValueAt(st, [kb, vb], 1) && !ValueAt(st, [kb, vb], 0);
  }

  // ---------------------------------------------------------------------
  // flushMap

  /** Some buffered pair has key `k`. */
  predicate HasKey(buffer: seq<(string, string)>, k: string) {
    exists j | 0 <= j < |buffer| :: buffer[j].0 == k
  }

  /** `multimap.get(k)`: the values put under `k`, in insertion order. */
  function ValuesFor(buffer: seq<(string, string)>, k: string): (vs: seq<string>)
    ensures |vs| > 0 <==> HasKey(buffer, k)
    decreases |buffer|
  {
    if |buffer| == 0 then []
    else
      var n := |buffer| - 1;
      var rest := ValuesFor(buffer[..n], k);
      assert forall j | 0 <= j < n :: buffer[..n][j] == buffer[j];
      if buffer[n].0 == k then rest + [buffer[n].1] else rest
  }

  /** `order` lists every buffered key exactly once: an order `keySet()`
      may iterate in. */
  predicate IsKeyOrder(order: seq<string>, buffer: seq<(string, string)>) {
    (forall i, j | 0 <= i < j < |order| :: order[i] != order[j])
    && (forall i | 0 <= i < |order| :: HasKey(buffer, order[i]))
    && (forall j | 0 <= j < |buffer| :: buffer[j].0 in order)
  }

  /** The buffered keys in the order they were first put. */
  function FirstOrder(buffer: seq<(string, string)>): (order: seq<string>)
    ensures IsKeyOrder(order, buffer)
    decreases |buffer|
  {
    if |buffer| == 0 then []
    else
      var n := |buffer| - 1;
      var rest := FirstOrder(buffer[..n]);
      assert forall j | 0 <= j < n :: buffer[..n][j] == buffer[j];
      if buffer[n].0 in rest then rest else rest + [buffer[n].0]
  }

  /** The tokens of one buffered key: its name, then its single value as a
      string, or all its values in an array. */
  function FieldTokens(k: string, vs: seq<string>): seq<Token> {
    [FieldName(k)] + (if |vs| == 1 then [StringValue(vs[0])] else [StartArray] + Strings(vs) + [EndArray])
  }

  /** One string token per value. */
  function Strings(vs: seq<string>): (ts: seq<Token>)
    ensures |ts| == |vs| && forall i | 0 <= i < |vs| :: ts[i] == StringValue(vs[i])
  {
    seq(|vs|, i requires 0 <= i < |vs| => StringValue(vs[i]))
  }

  /** The tokens of the listed keys, in the listed order. */
  function FlushKeys(buffer: seq<(string, string)>, keys: seq<string>): seq<Token>
    decreases |keys|
  {
    if |keys| == 0 then [] else FieldTokens(keys[0], ValuesFor(buffer, keys[0])) + FlushKeys(buffer, keys[1..])
  }

  /** `flushMap()`, for the order in which the multimap iterates its keys:
      nothing for an empty buffer, otherwise every key's tokens. */
  function Flush(buffer: seq<(string, string)>, order: seq<string>): (ts: seq<Token>)
    requires IsKeyOrder(order, buffer)
    ensures |buffer| == 0 ==> ts == []
    ensures Nest(ts, []) == Some([])
  {
    if |buffer| == 0 then [] else
    FlushKeysBalanced(buffer, order, []);
    FlushKeys(buffer, order)
  }

  /** A JSON reader's view of a run of fields: each field name with the
      string after it, or with the strings of the array after it. */
  function ReadFields(ts: seq<Token>): Option<seq<(string, seq<string>)>>
    decreases |ts|
  {
    if |ts| == 0 then Some([])
    else if |ts| >= 2 && ts[0].FieldName? && ts[1].StringValue? then
      match ReadFields(ts[2..])
      case None => None
      case Some(rest) => Some([(ts[0].name, [ts[1].text])] + rest)
    else if |ts| >= 2 && ts[0].FieldName? && ts[1] == StartArray then
      var n := StringRun(ts[2..]);
      if 2 + n < |ts| && ts[2 + n] == EndArray then
        match ReadFields(ts[3 + n..])
        case None => None
        case Some(rest) => Some([(ts[0].name, Texts(ts[2..2 + n]))] + rest)
      else None
    else None
  }

  /** The number of string tokens at the front of `ts`. */
  function StringRun(ts: seq<Token>): (n: nat)
    ensures n <= |ts| && forall i | 0 <= i < n :: ts[i].StringValue?
    ensures n < |ts| ==> !ts[n].StringValue?
    decreases |ts|
  {
    if |ts| > 0 && ts[0].StringValue? then 1 + StringRun(ts[1..]) else 0
  }

  /** The texts of a run of string tokens. */
  function Texts(ts: seq<Token>): seq<string>
    requires forall i | 0 <= i < |ts| :: ts[i].StringValue?
  {
    seq(|ts|, i requires 0 <= i < |ts| => ts[i].text)
  }

  /** Every listed key with the values buffered under it. */
  function Fields(buffer: seq<(string, string)>, keys: seq<string>): (fs: seq<(string, seq<string>)>)
    ensures |fs| == |keys|
    ensures forall i | 0 <= i < |keys| :: fs[i] == (keys[i], ValuesFor(buffer, keys[i]))
    decreases |keys|
  {
    if |keys| == 0 then [] else [(keys[0], ValuesFor(buffer, keys[0]))] + Fields(buffer, keys[1..])
  }

  /** The fields a reader sees in a flush: every listed key with exactly the
      values buffered under it, in insertion order. */
  lemma {:induction false} ReadFlushKeys(buffer: seq<(string, string)>, keys: seq<string>)
    ensures ReadFields(FlushKeys(buffer, keys)) == Some(Fields(buffer, keys))
    decreases |keys|
  {
    if |keys| > 0 {
      ReadFlushKeys(buffer, keys[1..]);
      ReadFieldTokens(keys[0], ValuesFor(buffer, keys[0]), FlushKeys(buffer, keys[1..]));
    }
  }

  /** Whatever order the multimap iterates its keys in, a reader of a flush
      finds each buffered key once, with all its values in the order they
      were put: a lone value as a string, several as an array. */
  lemma FlushReadBack(buffer: seq<(string, string)>, order: seq<string>)
    requires IsKeyOrder(order, buffer)
    ensures ReadFields(Flush(buffer, order)) == Some(Fields(buffer, order))
    ensures forall i | 0 <= i < |order| :: |ValuesFor(buffer, order[i])| > 0
  {
    if |buffer| > 0 {
      ReadFlushKeys(buffer, order);
    }
  }

  /** Reading one key's tokens yields that key and its values. */
  lemma ReadFieldTokens(k: string, vs: seq<string>, rest: seq<Token>)
    ensures ReadFields(FieldTokens(k, vs) + rest)
         == (match ReadFields(rest) case None => None case Some(fs) => Some([(k, vs)] + fs))
  {
    var ts := FieldTokens(k, vs) + rest;
    assert ts[0] == FieldName(k);
    if |vs| == 1 {
      assert ts[1] == StringValue(vs[0]);
      assert ts[2..] == rest;
      assert [vs[0]] == vs;
    } else {
      assert ts[1] == StartArray;
      assert ts[2..] == Strings(vs) + ([EndArray] + rest);
      StringRunStrings(vs, [EndArray] + rest);
      var n := |vs|;
      assert ts[2..2 + n] == Strings(vs);
      assert ts[2 + n] == EndArray;
      assert ts[3 + n..] == rest;
      assert Texts(Strings(vs)) == vs;
    }
  }

  /** The string run of `Strings(vs)` followed by a non-string is `|vs|` long. */
  lemma {:induction false} StringRunStrings(vs: seq<string>, tail: seq<Token>)
    requires |tail| > 0 && !tail[0].StringValue?
    ensures StringRun(Strings(vs) + tail) == |vs|
    decreases |vs|
  {
    if |vs| == 0 {
      assert Strings(vs) + tail == tail;
    } else {
      assert (Strings(vs) + tail)[1..] == Strings(vs[1..]) + tail;
      StringRunStrings(vs[1..], tail);
    }
  }

  /** A flush opens and closes its arrays and never touches the brackets
      around it. */
  lemma {:induction false} FlushKeysBalanced(buffer: seq<(string, string)>, keys: seq<string>, open: seq<Bracket>)
    ensures Nest(FlushKeys(buffer, keys), open) == Some(open)
    decreases |keys|
  {
    if |keys| > 0 {
      var vs := ValuesFor(buffer, keys[0]);
      FieldTokensBalanced(keys[0], vs, open);
      FlushKeysBalanced(buffer, keys[1..], open);
      NestConcat(FieldTokens(keys[0], vs), FlushKeys(buffer, keys[1..]), open);
    }
  }

  lemma FieldTokensBalanced(k: string, vs: seq<string>, open: seq<Bracket>)
    ensures Nest(FieldTokens(k, vs), open) == Some(open)
  {
    var ts := FieldTokens(k, vs);
    assert ts[0] == FieldName(k);
    assert Nest(ts, open) == Nest(ts[1..], open);
    if |vs| == 1 {
      assert ts[1..] == [StringValue(vs[0])];
      assert ts[1..][1..] == [];
      assert Nest(ts[1..], open) == Nest(ts[1..][1..], open);
    } else {
      var inner := open + [ArrayBracket];
      assert ts[1..][0] == StartArray;
      assert ts[1..][1..] == Strings(vs) + [EndArray];
      assert Nest(ts[1..], open) == Nest(Strings(vs) + [EndArray], inner);
      NestStrings(vs, [EndArray], inner);
      assert [EndArray][1..] == [];
      assert inner[..|inner| - 1] == open;
    }
  }

  lemma {:induction false} NestStrings(vs: seq<string>, tail: seq<Token>, open: seq<Bracket>)
    ensures Nest(Strings(vs) + tail, open) == Nest(tail, open)
    decreases |vs|
  {
    if |vs| == 0 {
      assert Strings(vs) + tail == tail;
    } else {
      assert (Strings(vs) + tail)[1..] == Strings(vs[1..]) + tail;
      NestStrings(vs[1..], tail, open);
    }
  }

  // ---------------------------------------------------------------------
  // The five calls

  /** The state a call leaves and the tokens it writes. */
  datatype Written = Written(state: State, tokens: seq<Token>)

  /** The multimap's keys iterate in first-insertion order here. */
  function FlushBuffer(st: State): (ts: seq<Token>)
    ensures Nest(ts, []) == Some([])
  {
    Flush(st.buffer, FirstOrder(st.buffer))
  }

  /** One collector call: `begin` starts the document object; `startLevel`
      flushes, then names the level's object after its query and records
      the arguments joined by commas; `collect` buffers; `endLevel` flushes
      and closes the level's object; `end` closes the document object
      without flushing. */
  function Handle(st: State, c: Call): (r: Result<Written>)
    ensures r.Err? <==> c.Collect? && Overruns(st, c.bindings, c.values)
    ensures r.Ok? ==> (r.value.state.fieldBinding == st.fieldBinding
      && r.value.state.valueBinding == st.valueBinding)
    ensures r.Ok? && (c.StartLevel? || c.EndLevel?) ==> r.value.state.buffer == []
    ensures r.Ok? ==> match c
      case Begin => r.value == Written(st, [StartObject])
      case StartLevel(_, queryName, args) =>
        r.value.tokens == FlushBuffer(st) + [FieldName(queryName), StartObject, FieldName("args"), StringValue(Join(args, ","))]
      case Collect(bindings, values) => r.value.tokens == [] && DoCollect(st, bindings, values) == Ok(r.value.state)
      case EndLevel(_) => r.value.tokens == FlushBuffer(st) + [EndObject]
      case End => r.value == Written(st, [EndObject])
  {
    match c
    case Begin => Ok(Written(st, [StartObject]))
    case StartLevel(_, queryName, args) =>
      Ok(Written(st.(buffer := []), FlushBuffer(st)
        + [FieldName(queryName), StartObject, FieldName("args"), StringValue(Join(args, ","))]))
    case Collect(bindings, values) =>
      (match DoCollect(st, bindings, values)
       case Err(e) => Err(e)
       case Ok(s1) => Ok(Written(s1, [])))
    case EndLevel(_) => Ok(Written(st.(buffer := []), FlushBuffer(st) + [EndObject]))
    case End => Ok(Written(st, [EndObject]))
  }

  /** What a reader finds in the tokens of a level boundary: first every
      buffered key with all its values, in first-insertion order, then the
      new level's object named after its query with its joined arguments
      (`startLevel`), or the close of the level's object (`endLevel`). */
  lemma LevelTokensReadBack(st: State, c: Call)
    requires c.StartLevel? || c.EndLevel?
    ensures Handle(st, c).Ok?
    ensures var ts := Handle(st, c).value.tokens;
      var n := if c.StartLevel? then 4 else 1;
      |ts| >= n
      && ReadFields(ts[..|ts| - n]) == Some(Fields(st.buffer, FirstOrder(st.buffer)))
      && ts[|ts| - n..] == (if c.StartLevel? then [FieldName(c.queryName), StartObject, FieldName("args"), StringValue(Join(c.args, ","))]
                           else [EndObject])
  {
    var tail := if c.StartLevel? then [FieldName(c.queryName), StartObject, FieldName("args"), StringValue(Join(c.args, ","))]
                else [EndObject];
    assert Handle(st, c).value.tokens == FlushBuffer(st) + tail;
    FlushReadBack(st.buffer, FirstOrder(st.buffer));
    AppendedParts(FlushBuffer(st), tail);
  }

  /** The two parts of a concatenation, cut at the length of the second. */
  lemma AppendedParts(front: seq<Token>, tail: seq<Token>)
    ensures var ts := front + tail;
      ts[..|ts| - |tail|] == front && ts[|ts| - |tail|..] == tail
  {
  }

  /** A sequence of calls: the tokens written, the final state, and the
      exception that stopped it, if any. */
  datatype Outcome = Outcome(tokens: seq<Token>, state: State, failure: Option<Exception>)

  function Run(st: State, calls: seq<Call>): (o: Outcome)
    ensures o.state.fieldBinding == st.fieldBinding && o.state.valueBinding == st.valueBinding
    decreases |calls|
  {
    if |calls| == 0 then Outcome([], st, None)
    else
      match Handle(st, calls[0])
      case Err(e) => Outcome([], st, Some(e))
      case Ok(w) =>
        var rest := Run(w.state, calls[1..]);
        Outcome(w.tokens + rest.tokens, rest.state, rest.failure)
  }

  /** The object brackets follow the calls: after calls that take the depth
      from `d` to `d'`, the objects open go from `d` to `d'`. So a run from
      `begin` to its matching `end` writes balanced JSON. */
  lemma {:induction false} RunNesting(st: State, calls: seq<Call>, d: nat)
    requires Depth(calls, d).Some? && Run(st, calls).failure.None?
    ensures Nest(Run(st, calls).tokens, Objects(d)) == Some(Objects(Depth(calls, d).value))
    decreases |calls|
  {
    if |calls| > 0 {
      var w := Handle(st, calls[0]).value;
      var rest := Run(w.state, calls[1..]);
      var d1 := match calls[0]
        case Begin => d + 1 case StartLevel(_, _, _) => d + 1 case Collect(_, _) => d
        case EndLevel(_) => d - 1 case End => d - 1;
      HandleNesting(st, calls[0], d);
      RunNesting(w.state, calls[1..], d1);
      NestConcat(w.tokens, rest.tokens, Objects(d));
    }
  }

  /** One call moves the object depth as `Depth` says. */
  lemma HandleNesting(st: State, c: Call, d: nat)
    requires Handle(st, c).Ok?
    requires !(c.EndLevel? || c.End?) || d > 0
    ensures var d1 := match c
        case Begin => d + 1 case StartLevel(_, _, _) => d + 1 case Collect(_, _) => d
        case EndLevel(_) => d - 1 case End => d - 1;
      Nest(Handle(st, c).value.tokens, Objects(d)) == Some(Objects(d1))
  {
    var o := Objects(d);
    var flush := FlushBuffer(st);
    NestShift(flush, o, []);
    assert o + [] == o;
    match c
    case Begin =>
      assert o + [ObjectBracket] == Objects(d + 1);
    case StartLevel(_, queryName, args) =>
      var tail := [FieldName(queryName), StartObject, FieldName("args"), StringValue(Join(args, ","))];
      NestConcat(flush, tail, o);
      assert o + [ObjectBracket] == Objects(d + 1);
      LevelHeaderNesting(queryName, Join(args, ","), o);
    case Collect(_, _) =>
    case EndLevel(_) =>
      NestConcat(flush, [EndObject], o);
      assert o[..|o| - 1] == Objects(d - 1);
    case End =>
      assert o[..|o| - 1] == Objects(d - 1);
  }

  /** The header `startLevel` writes opens exactly one object. */
  lemma LevelHeaderNesting(queryName: string, args: string, o: seq<Bracket>)
    ensures Nest([FieldName(queryName), StartObject, FieldName("args"), StringValue(args)], o) == Some(o + [ObjectBracket])
  {
    var tail := [FieldName(queryName), StartObject, FieldName("args"), StringValue(args)];
    var o1 := o + [ObjectBracket];
    assert tail[1..] == [StartObject, FieldName("args"), StringValue(args)];
    assert tail[1..][1..] == [FieldName("args"), StringValue(args)];
    assert tail[1..][1..][1..] == [StringValue(args)];
    assert tail[1..][1..][1..][1..] == [];
    assert Nest(tail[1..][1..][1..], o1) == Some(o1);
    assert Nest(tail[1..][1..], o1) == Some(o1);
  }

  /** A complete document: calls that close everything they open write
      balanced JSON. */
  lemma RunBalanced(st: State, calls: seq<Call>)
    requires Depth(calls, 0) == Some(0) && Run(st, calls).failure.None?
    ensures Balanced(Run(st, calls).tokens)
  {
    RunNesting(st, calls, 0);
    assert Objects(0) == [];
  }
}

=== FILE: json_tokens.dfy ===
/** The Jackson `JsonGenerator` calls the collectors and the template
    operations make, one token each, and the bracket structure they build. */
module JsonTokens {
  import opened Wrappers

  datatype Token =
    | StartObject               // writeStartObject()
    | EndObject                 // writeEndObject()
    | StartArray                // writeStartArray()
    | EndArray                  // writeEndArray()
    | FieldName(name: string)   // writeFieldName(name)
    | StringValue(text: string) // writeString(text)

  datatype Bracket = ObjectBracket | ArrayBracket

  /** The brackets open after `tokens`, innermost last, read from the open
      brackets `open`; None when a token ends a bracket that is not the
      innermost open one of its kind. */
  function Nest(tokens: seq<Token>, open: seq<Bracket>): Option<seq<Bracket>>
    decreases |tokens|
  {
    if |tokens| == 0 then Some(open)
    else
      match tokens[0]
      case StartObject => Nest(tokens[1..], open + [ObjectBracket])
      case StartArray => Nest(tokens[1..], open + [ArrayBracket])
      case EndObject =>
        if |open| > 0 && open[|open| - 1] == ObjectBracket then Nest(tokens[1..], open[..|open| - 1]) else None
      case EndArray =>
        if |open| > 0 && open[|open| - 1] == ArrayBracket then Nest(tokens[1..], open[..|open| - 1]) else None
      case _ => Nest(tokens[1..], open)
  }

  /** Every bracket opened is closed, in the right order. */
  predicate Balanced(tokens: seq<Token>) {
    Nest(tokens, []) == Some([])
  }

  /** `d` nested objects. */
  function Objects(d: nat): (r: seq<Bracket>)
    ensures |r| == d && forall i | 0 <= i < d :: r[i] == ObjectBracket
  {
    seq(d, _ => ObjectBracket)
  }

  /** Reading `a + b` is reading `a`, then `b` from where `a` left off. */
  lemma {:induction false} NestConcat(a: seq<Token>, b: seq<Token>, open: seq<Bracket>)
    ensures Nest(a + b, open) == (match Nest(a, open) case None => None case Some(o) => Nest(b, o))
    decreases |a|
  {
    if |a| == 0 {
      assert a + b == b;
    } else {
      assert (a + b)[0] == a[0];
      assert (a + b)[1..] == a[1..] + b;
      var o := open;
      match a[0]
      case StartObject => NestConcat(a[1..], b, o + [ObjectBracket]);
      case StartArray => NestConcat(a[1..], b, o + [ArrayBracket]);
      case EndObject =>
        if |o| > 0 && o[|o| - 1] == ObjectBracket { NestConcat(a[1..], b, o[..|o| - 1]); }
      case EndArray =>
        if |o| > 0 && o[|o| - 1] == ArrayBracket { NestConcat(a[1..], b, o[..|o| - 1]); }
      case FieldName(_) => NestConcat(a[1..], b, o);
      case StringValue(_) => NestConcat(a[1..], b, o);
    }
  }

  /** Tokens that never close what they did not open can be read under any
      enclosing brackets. */
  lemma {:induction false} NestShift(tokens: seq<Token>, outer: seq<Bracket>, open: seq<Bracket>)
    requires Nest(tokens, open).Some?
    ensures Nest(tokens, outer + open) == Some(outer + Nest(tokens, open).value)
    decreases |tokens|
  {
    if |tokens| > 0 {
      match tokens[0]
      case StartObject =>
        NestShift(tokens[1..], outer, open + [ObjectBracket]);
        assert outer + open + [ObjectBracket] == outer + (open + [ObjectBracket]);
      case StartArray =>
        NestShift(tokens[1..], outer, open + [ArrayBracket]);
        assert outer + open + [ArrayBracket] == outer + (open + [ArrayBracket]);
      case EndObject =>
        NestShift(tokens[1..], outer, open[..|open| - 1]);
        assert (outer + open)[..|outer + open| - 1] == outer + open[..|open| - 1];
      case EndArray =>
        NestShift(tokens[1..], outer, open[..|open| - 1]);
        assert (outer + open)[..|outer + open| - 1] == outer + open[..|open| - 1];
      case FieldName(_) => NestShift(tokens[1..], outer, open);
      case StringValue(_) => NestShift(tokens[1..], outer, open);
    }
  }
}

=== FILE: levels.dfy ===
/** `Level`: one level of a navigation path, a group of parallel edges
    that all leave the same class or all reach the same class. */
module Levels {
  import opened Wrappers
  import opened JavaInt
  import opened JavaText
  import opened Edges

  /** The two final fields of a level. */
  datatype Level = Level(revert: bool, edges: seq<Edge>)

  /** Every edge leaves the class the first edge leaves. */
  predicate SameLeft(edges: seq<Edge>)
    requires |edges| > 0
  {
    forall i | 0 <= i < |edges| :: edges[i].cLeft == edges[0].cLeft
  }

  /** Every edge reaches the class the first edge reaches. */
  predicate SameRight(edges: seq<Edge>)
    requires |edges| > 0
  {
    forall i | 0 <= i < |edges| :: edges[i].cRight == edges[0].cRight
  }

  /** The constructor `Level(revert, edges...)`: a null or empty array, or
      edges that share neither their left nor their right class, are
      rejected with IllegalArgumentException; otherwise the getters
      `isRevert` and `getEdges` return the arguments. `None` stands for a
      null array. */
  method NewLevel(revert: bool, edges: Option<seq<Edge>>) returns (r: Result<Level>)
    ensures r.Ok? <==> (edges.Some? && |edges.value| > 0
                        && (SameLeft(edges.value) || SameRight(edges.value)))
    ensures r.Err? ==> r.error == IllegalArgument
    ensures r.Ok? ==> r.value.revert == revert && r.value.edges == edges.value
  {
    if edges.None? || |edges.value| == 0 {
      return Err(IllegalArgument);
    }
    var es := edges.value;
    var l := es[0].cLeft;
    var rt := es[0].cRight;
    var leftEquals, rightEquals := true, true;
    for i := 0 to |es|
      invariant leftEquals <==> forall k | 0 <= k < i :: es[k].cLeft == l
      invariant rightEquals <==> forall k | 0 <= k < i :: es[k].cRight == rt
    {
      if es[i].cLeft != l {
        leftEquals := false;
      }
      if es[i].cRight != rt {
        rightEquals := false;
      }
    }
    if !leftEquals && !rightEquals {
      return Err(IllegalArgument);
    }
    return Ok(Level(revert, es));
  }

  /** The constructor `Level(edges...)`: as above, with `revert` false. */
  method NewForwardLevel(edges: Option<seq<Edge>>) returns (r: Result<Level>)
    ensures r.Ok? <==> (edges.Some? && |edges.value| > 0
                        && (SameLeft(edges.value) || SameRight(edges.value)))
    ensures r.Err? ==> r.error == IllegalArgument
    ensures r.Ok? ==> !r.value.revert && r.value.edges == edges.value
  {
    r := NewLevel(false, edges);
  }

  /** `getHeaviestEdge`: the first edge whose count is strictly larger than
      every count before it and at least every count after it; null (None)
      when every count is `Integer.MIN_VALUE`, because the scan starts from
      that value and only a strictly larger count replaces the candidate. */
  method GetHeaviestEdge(level: Level) returns (r: Option<Edge>)
    ensures r.None? <==> forall i | 0 <= i < |level.edges| :: level.edges[i].occurrences == MIN_VALUE
    ensures r.Some? ==> exists i | 0 <= i < |level.edges| ::
              level.edges[i] == r.value
              && (forall k | 0 <= k < i :: level.edges[k].occurrences < r.value.occurrences)
              && (forall k | 0 <= k < |level.edges| :: level.edges[k].occurrences <= r.value.occurrences)
  {
    var es := level.edges;
    var max: int := MIN_VALUE;
    r := None;
    ghost var at: nat := 0;
    for i := 0 to |es|
      invariant r.None? ==> max == MIN_VALUE && forall k | 0 <= k < i :: es[k].occurrences == MIN_VALUE
      invariant r.Some? ==> at < i && es[at] == r.value && max == r.value.occurrences > MIN_VALUE
      invariant r.Some? ==> forall k | 0 <= k < at :: es[k].occurrences < max
      invariant forall k | 0 <= k < i :: es[k].occurrences <= max
    {
      if max < es[i].occurrences {
        max := es[i].occurrences;
        r := Some(es[i]);
        at := i;
      }
    }
  }

  /** `%b` of a boolean. */
  function BoolText(b: bool): string {
    if b then "true" else "false"
  }

  /** `toString`: the revert flag, a space, and the edges as `Arrays.toString`
      renders them. */
  function ToString(level: Level): string {
    BoolText(level.revert) + " " + ListToString(Texts(level.edges))
  }

  /** Reads the revert flag back from a level's text. */
  function ReadRevert(text: string): Option<bool> {
    if |text| >= 5 && text[..5] == "true " then Some(true)
    else if |text| >= 6 && text[..6] == "false " then Some(false)
    else None
  }

  /** A level's text starts with its revert flag, which reads back, and
      continues with the bracketed list of its edges' texts. */
  lemma ToStringReadBack(level: Level)
    ensures ReadRevert(ToString(level)) == Some(level.revert)
    ensures var flag := BoolText(level.revert);
            ToString(level)[|flag| + 1..] == "[" + Join(Texts(level.edges), ", ") + "]"
  {
    var t := ToString(level);
    var flag := BoolText(level.revert);
    assert t == flag + " " + ListToString(Texts(level.edges));
    if level.revert {
      assert t[..5] == "true ";
    } else {
      assert t[..6] == "false ";
      assert t[..5] != "true " by { assert t[0] == 'f'; }
    }
  }
}

=== FILE: merge_join.dfy ===
/** The forward merge join of `Benchmark` (package `eu.fbk`):
    `joinIterators` and `JoinIteratorTripleID`. Both walk the left triples
    once and seek a single right iterator forward with `goTo`. */
module MergeJoin {
  import opened Wrappers
  import opened Triples
  import opened StepBack

  /** The reference semantics of the loop of `joinIterators` on the left
      triples `l` and the right triples still to come, `rem`. For each left
      triple, seek `rem` to the first triple whose `rr` id is at least the
      left `lr` id, then consume that triple and count one when its id is
      equal. */
  function MergeCount(l: seq<Triple>, lr: Role, rem: seq<Triple>, rr: Role): (n: nat)
    ensures n <= |l|
    decreases |l|
  {
    if |l| == 0 then 0
    else
      var x := GetId(l[0], lr);
      var k := Skip(rem, rr, x);
      if k < |rem| then
        (if GetId(rem[k], rr) == x then 1 else 0) + MergeCount(l[1..], lr, rem[k + 1..], rr)
      else
        MergeCount(l[1..], lr, [], rr)
  }

  /** Each left triple `MergeCount` counts has its id among the right
      triples, so it never exceeds the true join count. */
  lemma {:induction false} MergeCountBound(l: seq<Triple>, lr: Role, rem: seq<Triple>, rr: Role)
    ensures MergeCount(l, lr, rem, rr) <= CountWithId(l, lr, rem, rr)
    decreases |l|
  {
    if |l| > 0 {
      var k := Skip(rem, rr, GetId(l[0], lr));
      if k < |rem| {
        MergeCountBound(l[1..], lr, rem[k + 1..], rr);
        BoundHit(l, lr, rem, rr, k);
      } else {
        MergeCountBound(l[1..], lr, [], rr);
        BoundMiss(l, lr, rem, rr);
      }
    }
  }

  /** The inductive step of `MergeCountBound` when the seek stops at `k`. */
  lemma BoundHit(l: seq<Triple>, lr: Role, rem: seq<Triple>, rr: Role, k: nat)
    requires |l| > 0 && k == Skip(rem, rr, GetId(l[0], lr)) && k < |rem|
    requires MergeCount(l[1..], lr, rem[k + 1..], rr) <= CountWithId(l[1..], lr, rem[k + 1..], rr)
    ensures MergeCount(l, lr, rem, rr) <= CountWithId(l, lr, rem, rr)
  {
    var x := GetId(l[0], lr);
    MergeCountHit(l, lr, rem, rr, k);
    CountWithIdSuffix(l[1..], lr, rem, rr, k + 1);
    CountWithIdFirst(l, lr, rem, rr);
    if GetId(rem[k], rr) == x {
      assert HasId(rem, rr, x);
    }
  }

  /** The round for `l[0]` when the seek stops at `k`, by the definition. */
  lemma MergeCountHit(l: seq<Triple>, lr: Role, rem: seq<Triple>, rr: Role, k: nat)
    requires |l| > 0 && k == Skip(rem, rr, GetId(l[0], lr)) && k < |rem|
    ensures MergeCount(l, lr, rem, rr)
         == (if GetId(rem[k], rr) == GetId(l[0], lr) then 1 else 0) + MergeCount(l[1..], lr, rem[k + 1..], rr)
  {
    SuffixAt(rem, k);
    ScanHit(l, lr, rem, rr, rem[k], rem[k + 1..]);
  }

  /** The suffix from `k` is its first triple followed by the suffix from
      `k + 1`. */
  lemma SuffixAt(s: seq<Triple>, k: nat)
    requires k < |s|
    ensures [s[k]] + s[k + 1..] == s[k..]
  {
  }

  /** The inductive step of `MergeCountBound` when the seek runs off the
      end. */
  lemma BoundMiss(l: seq<Triple>, lr: Role, rem: seq<Triple>, rr: Role)
    requires |l| > 0 && Skip(rem, rr, GetId(l[0], lr)) == |rem|
    requires MergeCount(l[1..], lr, [], rr) <= CountWithId(l[1..], lr, [], rr)
    ensures MergeCount(l, lr, rem, rr) <= CountWithId(l, lr, rem, rr)
  {
    assert rem[|rem|..] == [];
    ScanMiss(l, lr, rem, rr);
    CountWithIdSuffix(l[1..], lr, rem, rr, |rem|);
    CountWithIdFirst(l, lr, rem, rr);
  }

  /** The first left triple counts one when its id occurs on the right. */
  lemma CountWithIdFirst(l: seq<Triple>, lr: Role, r: seq<Triple>, rr: Role)
    requires |l| > 0
    ensures CountWithId(l, lr, r, rr)
         == (if HasId(r, rr, GetId(l[0], lr)) then 1 else 0) + CountWithId(l[1..], lr, r, rr)
  {
  }

  /** The round for `l[0]` when the seek finds the right triple `t`,
      followed by `rest`. */
  lemma ScanHit(l: seq<Triple>, lr: Role, rem: seq<Triple>, rr: Role, t: Triple, rest: seq<Triple>)
    requires |l| > 0
    requires [t] + rest == rem[Skip(rem, rr, GetId(l[0], lr))..]
    ensures MergeCount(l, lr, rem, rr) == (if GetId(t, rr) == GetId(l[0], lr) then 1 else 0) + MergeCount(l[1..], lr, rest, rr)
  {
    var k := Skip(rem, rr, GetId(l[0], lr));
    assert rem[k..][0] == t && rem[k..][1..] == rest;
    assert rem[k + 1..] == rest;
  }

  /** The round for `l[0]` when the seek runs off the end. */
  lemma ScanMiss(l: seq<Triple>, lr: Role, rem: seq<Triple>, rr: Role)
    requires |l| > 0
    requires rem[Skip(rem, rr, GetId(l[0], lr))..] == []
    ensures MergeCount(l, lr, rem, rr) == MergeCount(l[1..], lr, [], rr)
  {
  }

  /** `joinIterators(l, lr, r, rr)`: the number of left triples that meet
      an equal id on the right, as the forward scan sees it. It never counts
      more than the left triples, nor more of them than have their id among
      the right triples. */
  method JoinIterators(l: seq<Triple>, lr: Role, r: seq<Triple>, rr: Role) returns (matched: nat)
    ensures matched == MergeCount(l, lr, r, rr)
    ensures matched <= |l| && matched <= CountWithId(l, lr, r, rr)
  {
    matched := 0;
    var rest := l;
    var sr := StepBackIter(r, None);
    assert Remaining(sr) == r;
    while |rest| > 0
      invariant matched + MergeCount(rest, lr, Remaining(sr), rr) == MergeCount(l, lr, r, rr)
      decreases |rest|
    {
      var hit;
      hit, sr := ScanOne(rest, lr, sr, rr);
      if hit.Some? {
        matched := matched + 1;
      }
      rest := rest[1..];
    }
    MergeCountBound(l, lr, r, rr);
  }

  /** One round of the scan for the left triple `l[0]`: `goTo` its id on
      the right, then consume the next right triple and report it when its
      id is equal. The round accounts for the first term of `MergeCount`. */
  method ScanOne(l: seq<Triple>, lr: Role, sr: StepBackIter, rr: Role) returns (hit: Option<Triple>, sr': StepBackIter)
    requires |l| > 0
    ensures hit.Some? ==> GetId(hit.value, rr) == GetId(l[0], lr)
    ensures MergeCount(l, lr, Remaining(sr), rr) == (if hit.Some? then 1 else 0) + MergeCount(l[1..], lr, Remaining(sr'), rr)
  {
    ghost var rem := Remaining(sr);
    var x := GetId(l[0], lr);
    sr' := GoTo(sr, x, rr);
    hit := None;
    if StepBack.HasNext(sr') {
      var step := StepBack.Next(sr');
      ScanHit(l, lr, rem, rr, step.0, Remaining(step.1));
      sr' := step.1;
      if GetId(step.0, rr) == x {
        hit := Some(step.0);
      }
    } else {
      ScanMiss(l, lr, rem, rr);
    }
  }

  /** The scan consumes the right triple it compares, even when its id is
      larger: a later left triple with that id no longer finds it. Left
      subjects 1 and 2 against a right subject 2 count nothing, though the
      left triple with subject 2 has its match. */
  lemma JoinIteratorsDropsMatch()
    ensures var l := [Triple(1, 0, 0), Triple(2, 0, 0)];
            var r := [Triple(2, 0, 0)];
            MergeCount(l, Subject, r, Subject) == 0 && CountWithId(l, Subject, r, Subject) == 1
  {
    var l := [Triple(1, 0, 0), Triple(2, 0, 0)];
    var r := [Triple(2, 0, 0)];
    assert Skip(r, Subject, 1) == 0 && r[1..] == [];
    assert l[1..] == [Triple(2, 0, 0)];
    assert MergeCount(l[1..], Subject, [], Subject) == 0;
    assert HasId(r, Subject, 2) by { assert GetId(r[0], Subject) == 2; }
    assert !HasId(r, Subject, 1);
  }

  /** With both sides sorted on the join ids, a seek that stops at index
      `k` decides whether the id occurs on the right at all. */
  lemma SeekDecides(r: seq<Triple>, rr: Role, x: int, k: nat)
    requires Ascending(r, rr) && k <= |r|
    requires forall j | 0 <= j < k :: GetId(r[j], rr) < x
    requires k < |r| ==> GetId(r[k], rr) >= x
    ensures HasId(r, rr, x) <==> (k < |r| && GetId(r[k], rr) == x)
  {
    if HasId(r, rr, x) {
      var j :| 0 <= j < |r| && GetId(r[j], rr) == x;
      assert k <= j;
    }
  }

  /** `joinIterators` as evidently intended: the compared right triple is
      pushed back, so the cursor never passes a triple that a later left
      triple could still match. On inputs sorted on the join ids it counts
      exactly the left triples whose id occurs on the right. */
  method JoinIteratorsPushBack(l: seq<Triple>, lr: Role, r: seq<Triple>, rr: Role) returns (matched: nat)
    requires Ascending(l, lr) && Ascending(r, rr)
    ensures matched == CountWithId(l, lr, r, rr)
  {
    matched := 0;
    var rest := l;
    var sr := StepBackIter(r, None);
    ghost var i: nat := 0;
    ghost var k: nat := 0;
    assert Remaining(sr) == r[0..];
    while |rest| > 0
      invariant i <= |l| && rest == l[i..]
      invariant k <= |r| && Remaining(sr) == r[k..]
      invariant i == 0 ==> k == 0
      invariant i > 0 ==> Below(r, rr, k, GetId(l[i - 1], lr))
      invariant matched + CountWithId(rest, lr, r, rr) == CountWithId(l, lr, r, rr)
      decreases |rest|
    {
      var hit;
      ghost var k';
      hit, sr, k' := PushBackRound(rest[0], l, lr, r, rr, i, k, sr);
      CountWithIdFirst(rest, lr, r, rr);
      SuffixTail(l, i);
      if hit {
        matched := matched + 1;
      }
      rest := rest[1..];
      i := i + 1;
      k := k';
    }
  }

  /** The suffix from `i` without its first triple is the suffix from
      `i + 1`. */
  lemma SuffixTail(l: seq<Triple>, i: nat)
    requires i < |l|
    ensures l[i..][0] == l[i] && l[i..][1..] == l[i + 1..]
  {
  }

  /** One round of the corrected loop for the left triple `l[i]`, with the
      right side at `r[k..]`: the round counts the triple exactly when its
      id occurs on the right, and the right side moves on to `r[k'..]`,
      past only triples with smaller ids. */
  method PushBackRound(lt: Triple, ghost l: seq<Triple>, lr: Role, ghost r: seq<Triple>, rr: Role, ghost i: nat, ghost k: nat, sr: StepBackIter)
    returns (hit: bool, sr': StepBackIter, ghost k': nat)
    requires Ascending(l, lr) && Ascending(r, rr)
    requires i < |l| && lt == l[i] && k <= |r| && Remaining(sr) == r[k..]
    requires i > 0 ==> Below(r, rr, k, GetId(l[i - 1], lr))
    requires i == 0 ==> k == 0
    ensures k' <= |r| && Remaining(sr') == r[k'..] && Below(r, rr, k', GetId(l[i], lr))
    ensures hit <==> HasId(r, rr, GetId(l[i], lr))
  {
    var x := GetId(lt, lr);
    k' := PushBackStep(l, lr, r, rr, i, k);
    hit, sr' := PeekOne(sr, x, rr);
  }

  /** Every right triple before index `k` has an id below `bound`. */
  predicate Below(r: seq<Triple>, rr: Role, k: nat, bound: int)
    requires k <= |r|
  {
    forall j | 0 <= j < k :: GetId(r[j], rr) < bound
  }

  /** One round of the corrected scan: `goTo` the id `x`, read the next
      right triple, compare, and push it back. The right side ends at the
      first triple with an id of at least `x`. */
  method PeekOne(sr: StepBackIter, x: int, rr: Role) returns (hit: bool, sr': StepBackIter)
    ensures var rem := Remaining(sr);
            var k := Skip(rem, rr, x);
            Remaining(sr') == rem[k..] && (hit <==> k < |rem| && GetId(rem[k], rr) == x)
  {
    ghost var rem := Remaining(sr);
    ghost var k := Skip(rem, rr, x);
    sr' := GoTo(sr, x, rr);
    hit := false;
    if StepBack.HasNext(sr') {
      var step := StepBack.Next(sr');
      assert [step.0] + Remaining(step.1) == rem[k..];
      assert step.0 == rem[k];
      hit := GetId(step.0, rr) == x;
      sr' := SetBack(step.1, step.0);
    }
  }

  /** What the corrected loop needs from one seek on sorted inputs: the
      seek from `k` lands at `k'`, every right triple before `k'` has a
      smaller id, and the id occurs on the right exactly when the triple
      at `k'` carries it. */
  lemma PushBackStep(l: seq<Triple>, lr: Role, r: seq<Triple>, rr: Role, i: nat, k: nat) returns (k': nat)
    requires Ascending(l, lr) && Ascending(r, rr)
    requires i < |l| && k <= |r|
    requires i > 0 ==> Below(r, rr, k, GetId(l[i - 1], lr))
    requires i == 0 ==> k == 0
    ensures var x := GetId(l[i], lr);
            var rem := r[k..];
            var skip := Skip(rem, rr, x);
            k' == k + skip && k' <= |r| && rem[skip..] == r[k'..] && Below(r, rr, k', x)
            && (HasId(r, rr, x) <==> (skip < |rem| && GetId(rem[skip], rr) == x))
  {
    var x := GetId(l[i], lr);
    var skip := Skip(r[k..], rr, x);
    k' := k + skip;
    forall j | 0 <= j < k'
      ensures GetId(r[j], rr) < x
    {
      if j < k {
        assert GetId(r[j], rr) < GetId(l[i - 1], lr) <= x;
      } else {
        assert r[j] == r[k..][j - k];
      }
    }
    if k' < |r| {
      assert r[k'] == r[k..][skip];
    }
    SeekDecides(r, rr, x, k');
  }

  /** `JoinIteratorTripleID`: the left triples still to come, their role,
      the right iterator wrapped for push-back, its role, and the pending
      match (`None` for null). */
  datatype JoinIter = JoinIter(l: seq<Triple>, lr: Role, sr: StepBackIter, rr: Role, pending: Option<Triple>)

  /** The constructor: nothing consumed, no match pending. */
  function NewJoinIter(l: seq<Triple>, lr: Role, r: seq<Triple>, rr: Role): JoinIter {
    JoinIter(l, lr, StepBackIter(r, None), rr, None)
  }

  /** `hasNext`: the scan of `joinIterators`, stopping at the first match.
      True leaves that right triple pending, and its `rr` id is the `lr`
      id of the left triple consumed last; false means the left side is
      exhausted, with the pending match untouched. Each true answer stands
      for exactly one of the matches `joinIterators` counts. */
  method HasNext(j: JoinIter) returns (b: bool, j': JoinIter)
    ensures j'.lr == j.lr && j'.rr == j.rr
    ensures |j'.l| <= |j.l| && j'.l == j.l[|j.l| - |j'.l|..]
    ensures b ==> |j'.l| < |j.l| && j'.pending.Some?
                  && GetId(j'.pending.value, j.rr) == GetId(j.l[|j.l| - |j'.l| - 1], j.lr)
    ensures !b ==> |j'.l| == 0 && j'.pending == j.pending
    ensures MergeCount(j.l, j.lr, Remaining(j.sr), j.rr)
            == (if b then 1 else 0) + MergeCount(j'.l, j'.lr, Remaining(j'.sr), j'.rr)
  {
    var i := 0;
    var sr := j.sr;
    while i < |j.l|
      invariant i <= |j.l|
      invariant MergeCount(j.l, j.lr, Remaining(j.sr), j.rr) == MergeCount(j.l[i..], j.lr, Remaining(sr), j.rr)
      decreases |j.l| - i
    {
      var hit;
      hit, sr := ScanOne(j.l[i..], j.lr, sr, j.rr);
      assert j.l[i..][0] == j.l[i] && j.l[i..][1..] == j.l[i + 1..];
      i := i + 1;
      if hit.Some? {
        return true, JoinIter(j.l[i..], j.lr, sr, j.rr, hit);
      }
    }
    return false, j.(l := [], sr := sr);
  }

  /** `next`: IllegalStateException when no match is pending; otherwise the
      match, which is cleared. */
  function Next(j: JoinIter): (r: Result<(Triple, JoinIter)>)
    ensures r.Err? <==> j.pending.None?
    ensures r.Err? ==> r.error == IllegalState
    ensures r.Ok? ==> Some(r.value.0) == j.pending && r.value.1 == j.(pending := None)
  {
    if j.pending.None? then Err(IllegalState)
    else Ok((j.pending.value, j.(pending := None)))
  }

  /** A match is returned once: a second `next` without `hasNext` throws. */
  lemma NextClearsMatch(j: JoinIter)
    requires Next(j).Ok?
    ensures Next(Next(j).value.1) == Err(IllegalState)
  {
  }

  /** A client loop `while (it.hasNext()) it.next();`: it sees as many
      matches as `joinIterators` counts on the same triples. */
  method Drain(j: JoinIter) returns (n: nat)
    ensures n == MergeCount(j.l, j.lr, Remaining(j.sr), j.rr)
  {
    n := 0;
    var more, it := HasNext(j);
    while more
      invariant it.lr == j.lr && it.rr == j.rr
      invariant more ==> it.pending.Some?
      invariant !more ==> |it.l| == 0
      invariant n + (if more then 1 else 0) + MergeCount(it.l, it.lr, Remaining(it.sr), it.rr)
                == MergeCount(j.l, j.lr, Remaining(j.sr), j.rr)
      decreases |it.l| + (if more then 1 else 0)
    {
      var taken := Next(it);
      n := n + 1;
      more, it := HasNext(taken.value.1);
    }
  }

  /** A fresh iterator yields exactly the count of `joinIterators`. */
  lemma DrainFresh(l: seq<Triple>, lr: Role, r: seq<Triple>, rr: Role)
    ensures var j := NewJoinIter(l, lr, r, rr);
            MergeCount(j.l, j.lr, Remaining(j.sr), j.rr) == MergeCount(l, lr, r, rr)
  {
    assert Remaining(StepBackIter(r, None)) == r;
  }
}

=== FILE: path_analysis.dfy ===
/** `PathAnalysis`: a list of edges with queries over it. The search
    algorithms live in `BreadthFirst`, `SpanningTree` and `DepthFirst`. */
module PathAnalysis {
  import opened Wrappers
  import opened JavaInt
  import opened Edges
  import opened BreadthFirst
  import opened SpanningTree
  import DepthFirst

  /** The analysis: its edges in insertion order. */
  datatype Analysis = Analysis(edges: seq<Edge>)

  /** `add`: appends an edge built by the `Edge` constructor. Earlier
      edges stay where they are, and the new one is last. */
  function Add(a: Analysis, property: string, occurrences: Int32, classLeft: string, classRight: string): (r: Analysis)
    ensures |r.edges| == |a.edges| + 1
    ensures r.edges[..|a.edges|] == a.edges
    ensures var e := r.edges[|a.edges|];
            e.occurrences == occurrences && e.property == JavaText.Trim(property)
            && e.cLeft == JavaText.Trim(classLeft) && e.cRight == JavaText.Trim(classRight)
  {
    Analysis(a.edges + [NewEdge(property, occurrences, classLeft, classRight)])
  }

  /** `getEdges`: a copy of the edges, in insertion order. */
  function GetEdges(a: Analysis): seq<Edge> {
    a.edges
  }

  /** After an `add`, `getEdges` returns the earlier edges unchanged, then
      the new edge as the constructor builds it; and since that edge's
      names are trimmed, an analysis built by `add` alone only ever hands
      out edges with trimmed names. */
  lemma AddThenGetEdges(a: Analysis, property: string, occurrences: Int32, classLeft: string, classRight: string)
    ensures var es := GetEdges(Add(a, property, occurrences, classLeft, classRight));
      && es == GetEdges(a) + [NewEdge(property, occurrences, classLeft, classRight)]
      && ((forall i | 0 <= i < |GetEdges(a)| :: WellFormed(GetEdges(a)[i]))
          ==> forall i | 0 <= i < |es| :: WellFormed(es[i]))
  {
  }

  /** `getNodes`: the left and the right class of every edge, in order,
      repeats kept. */
  function GetNodes(a: Analysis): (r: seq<string>)
    ensures |r| == 2 * |a.edges|
    ensures forall i | 0 <= i < |a.edges| :: r[2 * i] == a.edges[i].cLeft && r[2 * i + 1] == a.edges[i].cRight
    decreases |a.edges|
  {
    if |a.edges| == 0 then []
    else
      var rest := GetNodes(Analysis(a.edges[1..]));
      NodesCons(a.edges[0], a.edges[1..], rest);
      assert [a.edges[0]] + a.edges[1..] == a.edges;
      [a.edges[0].cLeft, a.edges[0].cRight] + rest
  }

  /** The node list of one more edge in front: its two classes, then the rest. */
  lemma NodesCons(e: Edge, es: seq<Edge>, rest: seq<string>)
    requires |rest| == 2 * |es|
    requires forall i | 0 <= i < |es| :: rest[2 * i] == es[i].cLeft && rest[2 * i + 1] == es[i].cRight
    ensures var r := [e.cLeft, e.cRight] + rest;
            var all := [e] + es;
            forall i | 0 <= i < |all| :: r[2 * i] == all[i].cLeft && r[2 * i + 1] == all[i].cRight
  {
    var r := [e.cLeft, e.cRight] + rest;
    var all := [e] + es;
    forall i | 0 <= i < |all|
      ensures r[2 * i] == all[i].cLeft && r[2 * i + 1] == all[i].cRight
    {
      if i > 0 {
        assert all[i] == es[i - 1];
        assert r[2 * i] == rest[2 * (i - 1)];
        assert r[2 * i + 1] == rest[2 * (i - 1) + 1];
      }
    }
  }

  /** Adding an edge adds its two classes at the end of `getNodes`. */
  lemma AddNodes(a: Analysis, property: string, occurrences: Int32, classLeft: string, classRight: string)
    ensures GetNodes(Add(a, property, occurrences, classLeft, classRight))
            == GetNodes(a) + [JavaText.Trim(classLeft), JavaText.Trim(classRight)]
  {
    NodesSnoc(a.edges, NewEdge(property, occurrences, classLeft, classRight));
  }

  /** The classes of a list with one more edge at the end. */
  lemma {:induction false} NodesSnoc(s: seq<Edge>, e: Edge)
    ensures GetNodes(Analysis(s + [e])) == GetNodes(Analysis(s)) + [e.cLeft, e.cRight]
    decreases |s|
  {
    if |s| > 0 {
      assert (s + [e])[1..] == s[1..] + [e];
      NodesSnoc(s[1..], e);
    }
  }

  /** The edges of `es` that satisfy `keep`, in their order. */
  function Filter(es: seq<Edge>, keep: Edge -> bool): (r: seq<Edge>)
    ensures IsSubsequence(r, es)
    ensures forall i | 0 <= i < |r| :: keep(r[i])
    ensures forall e: Edge | keep(e) :: multiset(r)[e] == multiset(es)[e]
    decreases |es|
  {
    if |es| == 0 then []
    else
      var rest := Filter(es[1..], keep);
      assert es == [es[0]] + es[1..];
      if keep(es[0]) then
        assert ([es[0]] + rest)[1..] == rest;
        [es[0]] + rest
      else
        assert |rest| == 0 || IsSubsequence(rest, es);
        rest
  }

  /** `getIn(node)`: the edges that reach `node`, in order. */
  function GetIn(a: Analysis, node: string): (r: seq<Edge>)
    ensures IsSubsequence(r, a.edges)
    ensures forall i | 0 <= i < |r| :: r[i].cRight == node
    ensures forall e: Edge | e.cRight == node :: multiset(r)[e] == multiset(a.edges)[e]
  {
    Filter(a.edges, (e: Edge) => e.cRight == node)
  }

  /** `getOut(node)`: the edges that leave `node`, in order. */
  function GetOut(a: Analysis, node: string): (r: seq<Edge>)
    ensures IsSubsequence(r, a.edges)
    ensures forall i | 0 <= i < |r| :: r[i].cLeft == node
    ensures forall e: Edge | e.cLeft == node :: multiset(r)[e] == multiset(a.edges)[e]
  {
    Filter(a.edges, (e: Edge) => e.cLeft == node)
  }

  /** `getProperties(left, right)`: the edges from `left` to `right`, in
      order. */
  function GetProperties(a: Analysis, left: string, right: string): (r: seq<Edge>)
    ensures IsSubsequence(r, a.edges)
    ensures forall i | 0 <= i < |r| :: r[i].cLeft == left && r[i].cRight == right
    ensures forall e: Edge | e.cLeft == left && e.cRight == right :: multiset(r)[e] == multiset(a.edges)[e]
  {
    Filter(a.edges, (e: Edge) => e.cLeft == left && e.cRight == right)
  }

  /** The edges between two classes are the edges leaving the first that
      reach the second. */
  lemma PropertiesAreOutThenIn(a: Analysis, left: string, right: string)
    ensures GetProperties(a, left, right) == Filter(GetOut(a, left), (e: Edge) => e.cRight == right)
  {
    FilterTwice(a.edges, (e: Edge) => e.cLeft == left, (e: Edge) => e.cRight == right, (e: Edge) => e.cLeft == left && e.cRight == right);
  }

  /** Filtering twice is filtering once by both conditions. */
  lemma {:induction false} FilterTwice(es: seq<Edge>, p: Edge -> bool, q: Edge -> bool, both: Edge -> bool)
    requires forall e :: both(e) == (p(e) && q(e))
    ensures Filter(es, both) == Filter(Filter(es, p), q)
    decreases |es|
  {
    if |es| > 0 {
      FilterTwice(es[1..], p, q, both);
      if p(es[0]) {
        assert Filter(es, p)[1..] == Filter(es[1..], p);
      }
    }
  }

  /** `isConnected(edges)`: every class of this analysis (its `getNodes`)
      is reachable from the left class of `edges[0]` over `edges`. An
      empty array fails on `edges[0]`. */
  method IsConnected(a: Analysis, edges: seq<Edge>) returns (r: Result<bool>)
    ensures r.Err? <==> |edges| == 0
    ensures r.Err? ==> r.error == IndexOutOfBounds
    ensures r.Ok? ==> (r.value <==> forall n | n in GetNodes(a) :: Reachable(edges, edges[0].cLeft, n))
  {
    if |edges| == 0 {
      return Err(IndexOutOfBounds);
    }
    var visited := Search(edges[0].cLeft, edges);
    var all := set n | n in GetNodes(a);
    assert (all - visited == {}) <==> forall n | n in GetNodes(a) :: n in visited by {
      if all - visited != {} {
        var n :| n in all - visited;
        assert n in GetNodes(a) && n !in visited;
      } else {
        forall n | n in GetNodes(a)
          ensures n in visited
        {
          assert n in all;
          assert n !in all - visited;
        }
      }
    }
    return Ok(all - visited == {});
  }

  /** `toPropertyPath(edges)`: throws IllegalArgumentException when the
      edges are not connected; otherwise it builds the depth-first grouping
      from the left class of `edges[0]`, prints it, and returns null. The
      model returns the printed grouping. */
  method ToPropertyPath(a: Analysis, edges: seq<Edge>) returns (r: Result<seq<seq<Edge>>>)
    ensures r.Err? ==> r.error == (if |edges| == 0 then IndexOutOfBounds else IllegalArgument)
    ensures r.Ok? <==> (|edges| > 0 && forall n | n in GetNodes(a) :: Reachable(edges, edges[0].cLeft, n))
    ensures r.Ok? ==> r.value == DepthFirst.BuildPathDepthFirst(edges[0].cLeft, edges)
  {
    var connected := IsConnected(a, edges);
    if connected.Err? {
      return Err(connected.error);
    }
    if !connected.value {
      return Err(IllegalArgument);
    }
    return Ok(DepthFirst.BuildPathDepthFirst(edges[0].cLeft, edges));
  }
}

=== FILE: print_result_collector.dfy ===
/** `PrintResultCollector`: renders every collector call as one line of
    text; it keeps no state besides the writer. */
module PrintResultCollector {
  import opened Wrappers
  import opened JavaText
  import opened Collector

  /** The line `println` writes for one call. */
  function Line(c: Call): string {
    match c
    case Begin => "Begin"
    case StartLevel(l, queryName, _) => "Start level " + IntToString(l) + ": " + queryName
    case Collect(bindings, values) => "Collect " + ListToString(bindings) + " " + ListToString(values)
    case EndLevel(l) => "End level " + IntToString(l)
    case End => "End"
  }

  /** The lines written for a sequence of calls. */
  function Lines(calls: seq<Call>): (lines: seq<string>)
    ensures |lines| == |calls|
    ensures forall i | 0 <= i < |calls| :: lines[i] == Line(calls[i])
    decreases |calls|
  {
    if |calls| == 0 then [] else [Line(calls[0])] + Lines(calls[1..])
  }

  /** No state carries over: the lines of two runs of calls are the lines
      of each, one after the other. */
  lemma {:induction false} LinesConcat(a: seq<Call>, b: seq<Call>)
    ensures Lines(a + b) == Lines(a) + Lines(b)
    decreases |a|
  {
    if |a| == 0 {
      assert a + b == b;
    } else {
      assert (a + b)[0] == a[0];
      assert (a + b)[1..] == a[1..] + b;
      LinesConcat(a[1..], b);
    }
  }

  /** What a reader can tell from a line: which call wrote it, and for the
      level calls the level number and query name. The arguments of
      `startLevel` are not printed, and the bracketed lists of `collect`
      cannot be split back when their strings contain ", ". */
  datatype LineKind =
    | BeginLine
    | StartLine(level: int, queryName: string)
    | CollectLine
    | EndLevelLine(level: int)
    | EndLine

  /** The part of a call a line preserves. */
  function Kind(c: Call): LineKind {
    match c
    case Begin => BeginLine
    case StartLevel(l, queryName, _) => StartLine(l, queryName)
    case Collect(_, _) => CollectLine
    case EndLevel(l) => EndLevelLine(l)
    case End => EndLine
  }

  /** The first position of `c` in `s`. */
  function FindChar(s: string, c: char): (r: Option<nat>)
    ensures r.None? <==> c !in s
    ensures r.Some? ==> (r.value < |s| && s[r.value] == c && c !in s[..r.value])
    decreases |s|
  {
    if |s| == 0 then None
    else if s[0] == c then Some(0)
    else
      match FindChar(s[1..], c)
      case None => None
      case Some(i) =>
        assert s[..i + 1] == [s[0]] + s[1..][..i];
        Some(i + 1)
  }

  /** Reads a line back. */
  function Describe(line: string): Option<LineKind> {
    if line == "Begin" then Some(BeginLine)
    else if line == "End" then Some(EndLine)
    else if |line| >= 10 && line[..10] == "End level " then
      match ParseInt(line[10..])
      case None => None
      case Some(l) => Some(EndLevelLine(l))
    else if |line| >= 12 && line[..12] == "Start level " then
      var rest := line[12..];
      match FindChar(rest, ':')
      case None => None
      case Some(i) =>
        if i + 2 <= |rest| && rest[i + 1] == ' ' then
          match ParseInt(rest[..i])
          case None => None
          case Some(l) => Some(StartLine(l, rest[i + 2..]))
        else None
    else if |line| >= 8 && line[..8] == "Collect " then Some(CollectLine)
    else None
  }

  /** Every line reads back as the call that wrote it: the kind of call,
      its level and its query name are recovered exactly. */
  lemma DescribeLine(c: Call)
    ensures Describe(Line(c)) == Some(Kind(c))
  {
    var line := Line(c);
    match c
    case Begin =>
    case End =>
    case EndLevel(l) =>
      EndLevelLineParts(l);
    case StartLevel(l, queryName, _) =>
      StartLineParts(l, queryName);
    case Collect(bindings, values) =>
      CollectLineParts(ListToString(bindings), ListToString(values));
  }

  lemma EndLevelLineParts(l: int)
    ensures Describe("End level " + IntToString(l)) == Some(EndLevelLine(l))
  {
    var line := "End level " + IntToString(l);
    assert line[0] == 'E' && line[1] == 'n' && line[2] == 'd' && line[3] == ' ';
    assert line != "Begin" && line != "End";
    assert line[..10] == "End level ";
    assert line[10..] == IntToString(l);
    ParseIntToString(l);
  }

  lemma StartLineParts(l: int, queryName: string)
    ensures Describe("Start level " + IntToString(l) + ": " + queryName) == Some(StartLine(l, queryName))
  {
    var digits := IntToString(l);
    var line := "Start level " + digits + ": " + queryName;
    assert line[0] == 'S';
    assert line != "Begin" && line != "End";
    assert line[..10] != "End level ";
    assert line[..12] == "Start level ";
    var rest := line[12..];
    assert rest == digits + ": " + queryName;
    assert ':' !in digits;
    assert rest[|digits|] == ':';
    assert rest[..|digits|] == digits;
    assert FindChar(rest, ':') == Some(|digits|);
    assert rest[|digits| + 1] == ' ';
    assert rest[|digits| + 2..] == queryName;
    ParseIntToString(l);
  }

  lemma CollectLineParts(b: string, v: string)
    ensures Describe("Collect " + b + " " + v) == Some(CollectLine)
  {
    var line := "Collect " + b + " " + v;
    assert line[0] == 'C';
    assert line != "Begin" && line != "End";
    if |line| >= 10 {
      assert line[..10] != "End level ";
    }
    assert line[..8] == "Collect ";
    if |line| >= 12 {
      assert line[..12] != "Start level ";
    }
  }

  /** Reading every line of a run recovers the kind of each call, in order. */
  lemma DescribeLines(calls: seq<Call>, i: nat)
    requires i < |calls|
    ensures Describe(Lines(calls)[i]) == Some(Kind(calls[i]))
  {
    DescribeLine(calls[i]);
  }
}

=== FILE: restart_join.dfy ===
/** The nested-loop join of `Benchmark` (package `eu.fbk.benchmark`):
    `joinIterators`, `compare`, `goTo` and `JoinIteratorTripleID`. The
    right iterator is restarted for every left triple, so it is modelled
    as the whole sequence of its triples. */
module RestartJoin {
  import opened Wrappers
  import opened Triples

  /** `compare(a, b)`: equal lengths, then the characters pairwise; true
      exactly when the two texts are equal. */
  method Compare(a: string, b: string) returns (r: bool)
    ensures r <==> a == b
  {
    if |a| != |b| {
      return false;
    }
    for i := 0 to |a|
      invariant a[..i] == b[..i]
    {
      if a[i] != b[i] {
        return false;
      }
    }
    assert a == a[..|a|] && b == b[..|b|];
    return true;
  }

  /** `goTo(i, role, target)`: restarts the iterator and returns the first
      triple whose `role` id is at least `target`, or null when there is
      none. Where it stopped before the call plays no part. */
  method GoTo(r: seq<Triple>, role: Role, target: int) returns (t: Option<Triple>)
    ensures t.None? <==> forall i | 0 <= i < |r| :: GetId(r[i], role) < target
    ensures t.Some? ==> exists k | 0 <= k < |r| ::
              r[k] == t.value && GetId(r[k], role) >= target
              && forall i | 0 <= i < k :: GetId(r[i], role) < target
    ensures t.Some? <==> Skip(r, role, target) < |r|
    ensures t.Some? ==> t.value == r[Skip(r, role, target)]
  {
    for i := 0 to |r|
      invariant forall j | 0 <= j < i :: GetId(r[j], role) < target
    {
      if GetId(r[i], role) >= target {
        SkipIs(r, role, target, i);
        return Some(r[i]);
      }
    }
    SkipIs(r, role, target, |r|);
    return None;
  }

  /** The test `joinIterators` applies to one left triple `lt`: the first
      right triple at or after its id exists, is a different triple, has
      the same id, and the dictionary renders both ids as the same text.
      The dictionary is a parameter: it maps an id and its role to the
      id's text. */
  predicate Counted(lt: Triple, lr: Role, r: seq<Triple>, rr: Role, dictionary: (int, Role) -> string) {
    var x := GetId(lt, lr);
    var k := Skip(r, rr, x);
    k < |r| && lt != r[k] && GetId(r[k], rr) == x && dictionary(x, lr) == dictionary(GetId(r[k], rr), rr)
  }

  /** The number of left triples that pass `Counted`. A counted triple has
      its id among the right triples. */
  function CountCounted(l: seq<Triple>, lr: Role, r: seq<Triple>, rr: Role, dictionary: (int, Role) -> string): (n: nat)
    ensures n <= |l|
    ensures n <= CountWithId(l, lr, r, rr)
    decreases |l|
  {
    if |l| == 0 then 0
    else
      assert Counted(l[0], lr, r, rr, dictionary) ==> HasId(r, rr, GetId(l[0], lr));
      (if Counted(l[0], lr, r, rr, dictionary) then 1 else 0) + CountCounted(l[1..], lr, r, rr, dictionary)
  }

  /** `joinIterators(l, lr, r, rr)`: a left triple whose seek finds nothing
      is skipped; one is counted when the found right triple differs from
      it, has an equal id, and its dictionary text compares equal. */
  method JoinIterators(l: seq<Triple>, lr: Role, r: seq<Triple>, rr: Role, dictionary: (int, Role) -> string)
    returns (count: nat)
    ensures count == CountCounted(l, lr, r, rr, dictionary)
    ensures count <= |l| && count <= CountWithId(l, lr, r, rr)
  {
    count := 0;
    var rest := l;
    while |rest| > 0
      invariant count + CountCounted(rest, lr, r, rr, dictionary) == CountCounted(l, lr, r, rr, dictionary)
      decreases |rest|
    {
      var lCurr := rest[0];
      rest := rest[1..];
      var lTarget := GetId(lCurr, lr);
      var rCurr := GoTo(r, rr, lTarget);
      if rCurr.None? {
        continue;
      }
      var rTarget := GetId(rCurr.value, rr);
      if lCurr != rCurr.value && lTarget == rTarget {
        var same := Compare(dictionary(lTarget, lr), dictionary(rTarget, rr));
        if same {
          count := count + 1;
        }
      }
    }
  }

  /** Joining a list sorted on strictly increasing ids with itself counts
      nothing: each left triple's seek finds that very triple. */
  lemma SelfJoinCountsNothing(l: seq<Triple>, role: Role, dictionary: (int, Role) -> string)
    requires forall i, j | 0 <= i < j < |l| :: GetId(l[i], role) < GetId(l[j], role)
    ensures CountCounted(l, role, l, role, dictionary) == 0
  {
    SelfJoinSuffix(l, role, dictionary, 0);
  }

  /** The self-join count from position `m` of `l` on. */
  lemma {:induction false} SelfJoinSuffix(l: seq<Triple>, role: Role, dictionary: (int, Role) -> string, m: nat)
    requires m <= |l|
    requires forall i, j | 0 <= i < j < |l| :: GetId(l[i], role) < GetId(l[j], role)
    ensures CountCounted(l[m..], role, l, role, dictionary) == 0
    decreases |l| - m
  {
    if m < |l| {
      SkipIs(l, role, GetId(l[m], role), m);
      assert l[m..][0] == l[m] && l[m..][1..] == l[m + 1..];
      SelfJoinSuffix(l, role, dictionary, m + 1);
    }
  }

  /** The first right triple whose `rr` id is `id`: the inner loop of
      `hasNext`, after `goToStart`. */
  method FindEqual(r: seq<Triple>, rr: Role, id: int) returns (t: Option<Triple>)
    ensures t.None? <==> !HasId(r, rr, id)
    ensures t.Some? ==> exists k | 0 <= k < |r| ::
              r[k] == t.value && GetId(r[k], rr) == id
              && forall i | 0 <= i < k :: GetId(r[i], rr) != id
  {
    for i := 0 to |r|
      invariant forall j | 0 <= j < i :: GetId(r[j], rr) != id
    {
      if GetId(r[i], rr) == id {
        return Some(r[i]);
      }
    }
    return None;
  }

  /** `JoinIteratorTripleID`: the left triples still to come, the right
      triples (restarted on every use), the two roles, and the pending
      match (`None` for null). */
  datatype JoinIter = JoinIter(l: seq<Triple>, lr: Role, r: seq<Triple>, rr: Role, pending: Option<Triple>)

  /** `hasNext`: for each left triple, restart the right side and stop at
      the first triple with an equal id. True leaves it pending; its `rr`
      id is the `lr` id of the left triple consumed last, and no earlier
      right triple has that id. False only once the left side is exhausted,
      with the pending match untouched. Each true answer stands for one
      left triple whose id occurs on the right. */
  method HasNext(j: JoinIter) returns (b: bool, j': JoinIter)
    ensures j'.lr == j.lr && j'.r == j.r && j'.rr == j.rr
    ensures |j'.l| <= |j.l| && j'.l == j.l[|j.l| - |j'.l|..]
    ensures b ==> |j'.l| < |j.l| && j'.pending.Some?
                  && exists k | 0 <= k < |j.r| ::
                       j.r[k] == j'.pending.value
                       && GetId(j.r[k], j.rr) == GetId(j.l[|j.l| - |j'.l| - 1], j.lr)
                       && forall i | 0 <= i < k :: GetId(j.r[i], j.rr) != GetId(j'.pending.value, j.rr)
    ensures !b ==> |j'.l| == 0 && j'.pending == j.pending
    ensures CountWithId(j.l, j.lr, j.r, j.rr) == (if b then 1 else 0) + CountWithId(j'.l, j.lr, j.r, j.rr)
  {
    var l := j.l;
    while |l| > 0
      invariant |l| <= |j.l| && l == j.l[|j.l| - |l|..]
      invariant CountWithId(j.l, j.lr, j.r, j.rr) == CountWithId(l, j.lr, j.r, j.rr)
      decreases |l|
    {
      var lt := l[0];
      var rest := l[1..];
      var found := FindEqual(j.r, j.rr, GetId(lt, j.lr));
      assert lt == j.l[|j.l| - |rest| - 1];
      l := rest;
      if found.Some? {
        return true, j.(l := l, pending := found);
      }
    }
    return false, j.(l := l);
  }

  /** `next`: IllegalStateException when no match is pending; otherwise the
      match, which is cleared. */
  function Next(j: JoinIter): (r: Result<(Triple, JoinIter)>)
    ensures r.Err? <==> j.pending.None?
    ensures r.Err? ==> r.error == IllegalState
    ensures r.Ok? ==> Some(r.value.0) == j.pending && r.value.1 == j.(pending := None)
  {
    if j.pending.None? then Err(IllegalState)
    else Ok((j.pending.value, j.(pending := None)))
  }

  /** A client loop `while (it.hasNext()) it.next();`: it sees one match
      for every left triple whose id occurs on the right. */
  method Drain(j: JoinIter) returns (n: nat)
    ensures n == CountWithId(j.l, j.lr, j.r, j.rr)
  {
    n := 0;
    var more, it := HasNext(j);
    while more
      invariant it.lr == j.lr && it.r == j.r && it.rr == j.rr
      invariant more ==> it.pending.Some?
      invariant !more ==> |it.l| == 0
      invariant n + (if more then 1 else 0) + CountWithId(it.l, it.lr, it.r, it.rr)
                == CountWithId(j.l, j.lr, j.r, j.rr)
      decreases |it.l| + (if more then 1 else 0)
    {
      var taken := Next(it);
      n := n + 1;
      more, it := HasNext(taken.value.1);
    }
  }
}

=== FILE: spanning_tree.dfy ===
/** `PathAnalysis.getMaxSpanningTree`: sort the edges by descending count
    (`Arrays.sort` with `Edge.compareTo`, a stable sort), then keep every
    edge that reaches a class not covered by an earlier kept edge. */
module SpanningTree {
  import opened Edges
  import opened BreadthFirst

  /** Counts never increase along `s`. */
  predicate NonIncreasing(s: seq<Edge>) {
    forall i, j | 0 <= i < j < |s| :: s[i].occurrences >= s[j].occurrences
  }

  /** The edges of `s` whose count is `k`, in order. */
  function WithCount(s: seq<Edge>, k: int): (r: seq<Edge>)
    ensures forall i | 0 <= i < |r| :: r[i].occurrences == k
    decreases |s|
  {
    if |s| == 0 then []
    else if s[0].occurrences == k then [s[0]] + WithCount(s[1..], k)
    else WithCount(s[1..], k)
  }

  /** Places `x` in front of the first edge of `t` that is not heavier. */
  function Insert(x: Edge, t: seq<Edge>): (r: seq<Edge>)
    requires NonIncreasing(t)
    ensures NonIncreasing(r)
    ensures multiset(r) == multiset(t) + multiset{x}
    ensures |r| == |t| + 1 && (r[0] == x || (|t| > 0 && r[0] == t[0]))
    decreases |t|
  {
    if |t| == 0 || t[0].occurrences <= x.occurrences then
      HeavierFirst(x, t);
      [x] + t
    else
      var rest := Insert(x, t[1..]);
      assert t == [t[0]] + t[1..];
      HeavierFirst(t[0], rest);
      [t[0]] + rest
  }

  /** An edge at least as heavy as the head of a non-increasing list can
      go in front of it. */
  lemma HeavierFirst(x: Edge, t: seq<Edge>)
    requires NonIncreasing(t)
    requires |t| == 0 || t[0].occurrences <= x.occurrences
    ensures NonIncreasing([x] + t)
  {
    var r := [x] + t;
    forall i, j | 0 <= i < j < |r|
      ensures r[i].occurrences >= r[j].occurrences
    {
      if i == 0 {
        assert r[j] == t[j - 1];
      } else {
        assert r[i] == t[i - 1] && r[j] == t[j - 1];
      }
    }
  }

  /** A stable sort by descending count. */
  function SortByCount(s: seq<Edge>): (r: seq<Edge>)
    ensures NonIncreasing(r)
    ensures multiset(r) == multiset(s)
    decreases |s|
  {
    if |s| == 0 then []
    else
      assert s == [s[0]] + s[1..];
      Insert(s[0], SortByCount(s[1..]))
  }

  /** Inserting `x` adds it in front of the edges with its count: edges of
      equal count keep their order. */
  lemma {:induction false} InsertStable(x: Edge, t: seq<Edge>, k: int)
    requires NonIncreasing(t)
    ensures WithCount(Insert(x, t), k) == (if x.occurrences == k then [x] else []) + WithCount(t, k)
    decreases |t|
  {
    if |t| == 0 || t[0].occurrences <= x.occurrences {
      var r := [x] + t;
      assert r[1..] == t;
    } else {
      InsertStable(x, t[1..], k);
      var r := [t[0]] + Insert(x, t[1..]);
      assert r[1..] == Insert(x, t[1..]);
      if x.occurrences == k {
        assert t[0].occurrences != k;
      }
    }
  }

  /** `Arrays.sort` is stable: the edges with any one count come out in
      their input order. */
  lemma {:induction false} SortStable(s: seq<Edge>, k: int)
    ensures WithCount(SortByCount(s), k) == WithCount(s, k)
    decreases |s|
  {
    if |s| > 0 {
      SortStable(s[1..], k);
      InsertStable(s[0], SortByCount(s[1..]), k);
    }
  }

  /** `a` is `b` with some edges left out, the rest in order. */
  predicate IsSubsequence(a: seq<Edge>, b: seq<Edge>)
    decreases |b|
  {
    if |a| == 0 then true
    else if |b| == 0 then false
    else (a[0] == b[0] && IsSubsequence(a[1..], b[1..])) || IsSubsequence(a, b[1..])
  }

  /** A subsequence takes each edge at most as often as the original has it. */
  lemma {:induction false} SubsequenceMembers(a: seq<Edge>, b: seq<Edge>)
    requires IsSubsequence(a, b)
    ensures multiset(a) <= multiset(b)
    decreases |b|
  {
    if |a| > 0 {
      assert b == [b[0]] + b[1..];
      if a[0] == b[0] && IsSubsequence(a[1..], b[1..]) {
        SubsequenceMembers(a[1..], b[1..]);
        assert a == [a[0]] + a[1..];
      } else {
        SubsequenceMembers(a, b[1..]);
      }
    }
  }

  /** A subsequence of a non-increasing list is non-increasing. */
  lemma {:induction false} SubsequenceNonIncreasing(a: seq<Edge>, b: seq<Edge>)
    requires IsSubsequence(a, b) && NonIncreasing(b)
    ensures NonIncreasing(a)
    decreases |b|
  {
    if |a| > 0 {
      assert NonIncreasing(b[1..]);
      if a[0] == b[0] && IsSubsequence(a[1..], b[1..]) {
        SubsequenceNonIncreasing(a[1..], b[1..]);
        SubsequenceMembers(a[1..], b[1..]);
        forall j | 0 < j < |a|
          ensures a[0].occurrences >= a[j].occurrences
        {
          assert a[j] == a[1..][j - 1];
          assert a[j] in multiset(b[1..]);
          var k :| 0 <= k < |b[1..]| && b[1..][k] == a[j];
          assert b[k + 1] == a[j];
        }
        forall i, j | 0 <= i < j < |a|
          ensures a[i].occurrences >= a[j].occurrences
        {
          if i > 0 {
            assert a[i] == a[1..][i - 1] && a[j] == a[1..][j - 1];
          }
        }
      } else {
        SubsequenceNonIncreasing(a, b[1..]);
      }
    }
  }

  /** The classes of a list with one more edge in front. */
  lemma EndpointsCons(e: Edge, rest: seq<Edge>)
    ensures Endpoints([e] + rest) == {e.cLeft, e.cRight} + Endpoints(rest)
  {
    assert ([e] + rest)[1..] == rest;
  }

  /** Lists with the same edges touch the same classes. */
  lemma EndpointsOfMembers(a: seq<Edge>, b: seq<Edge>)
    requires multiset(a) <= multiset(b)
    ensures Endpoints(a) <= Endpoints(b)
  {
    forall x | x in Endpoints(a)
      ensures x in Endpoints(b)
    {
      var i :| 0 <= i < |a| && (a[i].cLeft == x || a[i].cRight == x);
      assert a[i] in multiset(a);
      var j :| 0 <= j < |b| && b[j] == a[i];
    }
  }

  /** Two disjoint sets have as many elements as their union. */
  lemma DisjointUnion(a: set<string>, b: set<string>)
    requires a * b == {}
    ensures |a + b| == |a| + |b|
  {
  }

  /** Every class of every edge of `es` is in `covered`. */
  predicate Covers(es: seq<Edge>, covered: set<string>) {
    forall i | 0 <= i < |es| :: es[i].cLeft in covered && es[i].cRight in covered
  }

  /** Keeping `e` in front of the edges kept after it: coverage carries
      over. */
  lemma KeepCovers(es: seq<Edge>, covered: set<string>, rest: seq<Edge>)
    requires |es| > 0
    requires Covers(es[1..], covered + {es[0].cLeft, es[0].cRight} + Endpoints(rest))
    ensures Covers(es, covered + Endpoints([es[0]] + rest))
  {
    EndpointsCons(es[0], rest);
    assert forall i | 1 <= i < |es| :: es[i] == es[1..][i - 1];
  }

  /** Keeping `e`, which reaches a class outside `covered`, in front of the
      edges kept after it: the count bound carries over. */
  lemma KeepCount(e: Edge, covered: set<string>, rest: seq<Edge>)
    requires e.cLeft !in covered || e.cRight !in covered
    requires |rest| <= |Endpoints(rest) - (covered + {e.cLeft, e.cRight})|
    ensures |[e] + rest| <= |Endpoints([e] + rest) - covered|
  {
    var covered' := covered + {e.cLeft, e.cRight};
    EndpointsCons(e, rest);
    var gained := {e.cLeft, e.cRight} - covered;
    assert Endpoints([e] + rest) - covered == gained + (Endpoints(rest) - covered');
    DisjointUnion(gained, Endpoints(rest) - covered');
    assert |gained| >= 1 by {
      if e.cLeft !in covered { assert e.cLeft in gained; } else { assert e.cRight in gained; }
    }
  }

  /** Skipping `e`, whose classes are both covered already. */
  lemma SkipStep(es: seq<Edge>, covered: set<string>, rest: seq<Edge>)
    requires |es| > 0 && es[0].cLeft in covered && es[0].cRight in covered
    requires Covers(es[1..], covered + Endpoints(rest))
    ensures Covers(es, covered + Endpoints(rest))
  {
    assert forall i | 1 <= i < |es| :: es[i] == es[1..][i - 1];
  }

  /** The loop of `getMaxSpanningTree` from the covered classes `covered`:
      an edge is kept when one of its classes is not covered yet, and then
      both become covered. */
  function Greedy(es: seq<Edge>, covered: set<string>): seq<Edge>
    decreases |es|
  {
    if |es| == 0 then []
    else
      var e := es[0];
      if e.cLeft !in covered || e.cRight !in covered then
        [e] + Greedy(es[1..], covered + {e.cLeft, e.cRight})
      else
        Greedy(es[1..], covered)
  }

  /** The kept edges are a subsequence of the input, every class of every
      input edge ends up covered, and there are no more kept edges than
      new classes they cover. */
  lemma {:induction false} GreedyCovers(es: seq<Edge>, covered: set<string>)
    ensures IsSubsequence(Greedy(es, covered), es)
    ensures Covers(es, covered + Endpoints(Greedy(es, covered)))
    ensures |Greedy(es, covered)| <= |Endpoints(Greedy(es, covered)) - covered|
    decreases |es|
  {
    if |es| > 0 {
      var e := es[0];
      if e.cLeft !in covered || e.cRight !in covered {
        var covered' := covered + {e.cLeft, e.cRight};
        GreedyCovers(es[1..], covered');
        var rest := Greedy(es[1..], covered');
        assert Greedy(es, covered) == [e] + rest;
        KeepCovers(es, covered, rest);
        KeepCount(e, covered, rest);
        assert ([e] + rest)[1..] == rest;
      } else {
        GreedyCovers(es[1..], covered);
        SkipStep(es, covered, Greedy(es[1..], covered));
      }
    }
  }

  /** The classes of a list with one more edge at the end. */
  lemma EndpointsSnoc(p: seq<Edge>, e: Edge)
    ensures Endpoints(p + [e]) == Endpoints(p) + {e.cLeft, e.cRight}
  {
    var q := p + [e];
    forall x | x in Endpoints(q)
      ensures x in Endpoints(p) + {e.cLeft, e.cRight}
    {
      assert Touches(q, x);
      var i :| 0 <= i < |q| && (q[i].cLeft == x || q[i].cRight == x);
      if i < |p| {
        assert q[i] == p[i];
      }
    }
    assert q[|p|] == e;
    assert forall i | 0 <= i < |p| :: q[i] == p[i];
  }

  /** `e` reaches a class outside `covered`: the test of the loop of
      `getMaxSpanningTree`. */
  predicate BringsNew(e: Edge, covered: set<string>) {
    e.cLeft !in covered || e.cRight !in covered
  }

  /** The loop of `getMaxSpanningTree` one edge at a time: after the edges
      `es`, the covered classes are `covered` and those of the edges kept
      so far, and the next edge `e` is kept exactly when it reaches a class
      outside them; a skipped edge has both classes covered already. */
  lemma {:induction false} GreedySnoc(es: seq<Edge>, covered: set<string>, e: Edge)
    ensures Greedy(es + [e], covered)
         == Greedy(es, covered) + (if BringsNew(e, covered + Endpoints(Greedy(es, covered))) then [e] else [])
    decreases |es|
  {
    if |es| == 0 {
      assert es + [e] == [e] && [e][1..] == [];
    } else {
      var h := es[0];
      assert (es + [e])[0] == h && (es + [e])[1..] == es[1..] + [e];
      if BringsNew(h, covered) {
        var covered' := covered + {h.cLeft, h.cRight};
        GreedySnoc(es[1..], covered', e);
        var rest := Greedy(es[1..], covered');
        assert Greedy(es, covered) == [h] + rest;
        EndpointsCons(h, rest);
        assert covered + Endpoints([h] + rest) == covered' + Endpoints(rest);
      } else {
        GreedySnoc(es[1..], covered, e);
      }
    }
  }

  /** Every kept edge reaches a class that neither `covered` nor the edges
      kept before it reach. */
  lemma {:induction false} GreedyBringsNew(es: seq<Edge>, covered: set<string>)
    ensures var out := Greedy(es, covered);
      forall i | 0 <= i < |out| :: BringsNew(out[i], covered + Endpoints(out[..i]))
    decreases |es|
  {
    if |es| > 0 {
      var p := es[..|es| - 1];
      var e := es[|es| - 1];
      assert es == p + [e];
      GreedyBringsNew(p, covered);
      GreedySnoc(p, covered, e);
      var before := Greedy(p, covered);
      var out := Greedy(es, covered);
      forall i | 0 <= i < |out|
        ensures BringsNew(out[i], covered + Endpoints(out[..i]))
      {
        if i < |before| {
          assert out[i] == before[i] && out[..i] == before[..i];
        } else {
          assert out[i] == e && out[..i] == before;
        }
      }
    }
  }

  /** A list covered by the classes of `out` touches no class outside them. */
  lemma CoveredEndpoints(es: seq<Edge>, out: seq<Edge>)
    requires Covers(es, {} + Endpoints(out))
    ensures Endpoints(es) <= Endpoints(out)
  {
    forall x | x in Endpoints(es)
      ensures x in Endpoints(out)
    {
      assert Touches(es, x);
      var i :| 0 <= i < |es| && (es[i].cLeft == x || es[i].cRight == x);
    }
  }

  /** `getMaxSpanningTree`: the heaviest edges first, each kept only when
      it reaches a new class. The result is a subsequence of the sorted
      edges, so its counts never increase; it touches exactly the classes
      the edges touch; and it has no more edges than there are classes. */
  function GetMaxSpanningTree(edges: seq<Edge>): (out: seq<Edge>)
    ensures IsSubsequence(out, SortByCount(edges))
    ensures NonIncreasing(out)
    ensures multiset(out) <= multiset(edges)
    ensures Endpoints(out) == Endpoints(edges)
    ensures |out| <= |Endpoints(edges)|
  {
    var sorted := SortByCount(edges);
    var out := Greedy(sorted, {});
    GreedyCovers(sorted, {});
    GreedyFromNothing(edges, sorted, out);
    out
  }

  /** The facts `getMaxSpanningTree` promises, from those of the sort and
      of the greedy loop. */
  lemma GreedyFromNothing(edges: seq<Edge>, sorted: seq<Edge>, out: seq<Edge>)
    requires NonIncreasing(sorted) && multiset(sorted) == multiset(edges)
    requires IsSubsequence(out, sorted)
    requires Covers(sorted, {} + Endpoints(out))
    requires |out| <= |Endpoints(out) - {}|
    ensures NonIncreasing(out)
    ensures multiset(out) <= multiset(edges)
    ensures Endpoints(out) == Endpoints(edges)
    ensures |out| <= |Endpoints(edges)|
  {
    assert NonIncreasing(out) by {
      SubsequenceNonIncreasing(out, sorted);
    }
    SubsequenceMembers(out, sorted);
    GreedyEndpoints(edges, sorted, out);
    assert Endpoints(out) - {} == Endpoints(out);
  }

  /** The kept edges of the sorted list touch exactly the classes of all
      the edges. */
  lemma GreedyEndpoints(edges: seq<Edge>, sorted: seq<Edge>, out: seq<Edge>)
    requires multiset(sorted) == multiset(edges)
    requires multiset(out) <= multiset(sorted)
    requires Covers(sorted, {} + Endpoints(out))
    ensures Endpoints(out) == Endpoints(edges)
  {
    EndpointsOfMembers(out, edges);
    EndpointsOfMembers(edges, sorted);
    CoveredEndpoints(sorted, out);
  }

  /** A prefix one longer is the prefix with the next edge appended. */
  lemma PrefixSnoc(s: seq<Edge>, i: nat)
    requires i < |s|
    ensures s[..i + 1] == s[..i] + [s[i]]
  {
  }

  /** One turn of the loop of `getMaxSpanningTree` over the sorted edges
      `s`, at edge `i`, with `coveredNodes` the classes of the edges kept so
      far: the edge is appended exactly when it reaches a class outside
      them, and then its two classes join them. */
  lemma LoopStep(s: seq<Edge>, i: nat)
    requires i < |s|
    ensures var out := Greedy(s[..i], {});
      var out' := Greedy(s[..i + 1], {});
      && out' == (if BringsNew(s[i], Endpoints(out)) then out + [s[i]] else out)
      && Endpoints(out') == (if BringsNew(s[i], Endpoints(out)) then Endpoints(out) + {s[i].cLeft, s[i].cRight} else Endpoints(out))
  {
    PrefixSnoc(s, i);
    var out := Greedy(s[..i], {});
    GreedySnoc(s[..i], {}, s[i]);
    assert {} + Endpoints(out) == Endpoints(out);
    EndpointsSnoc(out, s[i]);
  }

  /** The loop of `getMaxSpanningTree` as written: walk the sorted edges,
      keep an edge when `coveredNodes` misses one of its classes, and add
      both of them. It returns what `GetMaxSpanningTree` defines, and
      `coveredNodes` ends as exactly the classes of the kept edges. */
  method MaxSpanningTreeLoop(edges: seq<Edge>) returns (out: seq<Edge>, coveredNodes: set<string>)
    ensures out == GetMaxSpanningTree(edges)
    ensures coveredNodes == Endpoints(out)
  {
    var sorted := SortByCount(edges);
    out := [];
    coveredNodes := {};
    for i := 0 to |sorted|
      invariant out == Greedy(sorted[..i], {})
      invariant coveredNodes == Endpoints(out)
    {
      var edge := sorted[i];
      LoopStep(sorted, i);
      if edge.cLeft !in coveredNodes || edge.cRight !in coveredNodes {
        out := out + [edge];
        coveredNodes := coveredNodes + {edge.cLeft, edge.cRight};
      }
    }
    assert sorted[..|sorted|] == sorted;
  }
}

=== FILE: step_back.dfy ===
/** `Benchmark.StepBackIteratorTripleID` (package `eu.fbk`): a triple
    iterator that can push back one triple, and the `goTo` helper that
    uses it to seek forward. */
module StepBack {
  import opened Wrappers
  import opened Triples

  /** The decorated iterator, as the triples it has still to yield, and the
      pushed-back triple (`back`, null as `None`). */
  datatype StepBackIter = StepBackIter(decorated: seq<Triple>, back: Option<Triple>)

  /** The triples the iterator will yield, the pushed-back one first. */
  function Remaining(it: StepBackIter): seq<Triple> {
    (if it.back.Some? then [it.back.value] else []) + it.decorated
  }

  /** `hasNext`: a pending pushed-back triple or more in the decorated
      iterator; that is, something is left to yield. */
  function HasNext(it: StepBackIter): (b: bool)
    ensures b <==> |Remaining(it)| > 0
  {
    it.back.Some? || |it.decorated| > 0
  }

  /** `next`: the pending triple, which is cleared, when there is one;
      otherwise the decorated iterator's next. Either way the first of the
      remaining triples, and no triple is pending afterwards. */
  function Next(it: StepBackIter): (r: (Triple, StepBackIter))
    requires HasNext(it)
    ensures [r.0] + Remaining(r.1) == Remaining(it)
    ensures r.1.back.None?
    ensures it.back.Some? ==> r.0 == it.back.value && r.1.decorated == it.decorated
  {
    if it.back.Some? then (it.back.value, it.(back := None))
    else (it.decorated[0], StepBackIter(it.decorated[1..], None))
  }

  /** `setBack(t)`: makes `t` the pending triple, overwriting any pending
      one. With none pending, `t` goes in front of the remaining triples,
      and the next `next` returns it and restores the iterator. */
  function SetBack(it: StepBackIter, t: Triple): (r: StepBackIter)
    ensures r.back == Some(t) && r.decorated == it.decorated
    ensures it.back.None? ==> Remaining(r) == [t] + Remaining(it)
    ensures HasNext(r) && Next(r) == (t, it.(back := None))
  {
    it.(back := Some(t))
  }

  /** `goTo(i, target, role)`: reads triples until one has a `role` id of
      at least `target` and pushes it back, so that it is the next one
      returned; when there is none the iterator ends exhausted. The
      triples before it are dropped, and the iterator only moves
      forward. */
  method GoTo(it: StepBackIter, target: int, role: Role) returns (it': StepBackIter)
    ensures Remaining(it') == Remaining(it)[Skip(Remaining(it), role, target)..]
  {
    ghost var all := Remaining(it);
    ghost var n: nat := 0;
    it' := it;
    while HasNext(it')
      invariant n <= |all| && Remaining(it') == all[n..]
      invariant forall i | 0 <= i < n :: GetId(all[i], role) < target
      decreases |all| - n
    {
      var step := Next(it');
      var curr := step.0;
      assert curr == all[n] && Remaining(step.1) == all[n + 1..];
      if GetId(curr, role) >= target {
        it' := SetBack(step.1, curr);
        SkipIs(all, role, target, n);
        return;
      }
      it' := step.1;
      n := n + 1;
    }
    SkipIs(all, role, target, n);
  }
}

=== FILE: template.dfy ===
/** `Template`: compiles a JSON object tree into a flat list of operations.
    Every field whose value is an object is bracketed by an open and a close
    operation named after its key; every null-valued field becomes an
    expand operation naming the innermost enclosing key. */
module Template {
  import opened Wrappers
  import opened JsonTokens
  import opened JavaText

  /** A Jackson `JsonNode`: JSON null, an object with its fields in
      document order, an array, or any other scalar (kept as its text). */
  datatype Node =
    | NullNode
    | ObjectNode(fields: seq<Field>)
    | ArrayNode(items: seq<Node>)
    | ScalarNode(text: string)

  datatype Field = Field(key: string, value: Node)

  /** The operation classes; each keeps the context it was created with. */
  datatype Op =
    | OpenObject(context: string)
    | CloseObject(context: string)
    | OpenArray(context: string)
    | CloseArray(context: string)
    | ExpandElement(context: string, element: string)

  /** `getRootEntity()`. */
  const RootEntity: string := "xx"

  /** `context.peek()`. */
  function Peek(stack: seq<string>): string
    requires |stack| > 0
  {
    stack[|stack| - 1]
  }

  /** The recursive `getOperations(r, context, operations)` on a node: only
      an object has fields (`getFields` of anything else iterates nothing).
      The result is the operations added and the context stack left behind. */
  function NodeOps(node: Node, stack: seq<string>): (r: Result<(seq<Op>, seq<string>)>)
    requires |stack| > 0
    ensures r.Ok? ==> r.value.1 == stack
    decreases node
  {
    match node
    case ObjectNode(fields) => FieldOps(fields, stack)
    case _ => Ok(([], stack))
  }

  /** The field loop of `getOperations`: a null value adds an expand
      operation in the context on top of the stack; any other value pushes
      its key, then an object adds open, the operations of its fields and
      close before the key is popped, an array throws
      UnsupportedOperationException and a scalar IllegalStateException. */
  function FieldOps(fields: seq<Field>, stack: seq<string>): (r: Result<(seq<Op>, seq<string>)>)
    requires |stack| > 0
    ensures r.Ok? ==> r.value.1 == stack
    decreases fields
  {
    if |fields| == 0 then Ok(([], stack))
    else
      var f := fields[0];
      assert f in fields;
      match f.value
      case NullNode =>
        (match FieldOps(fields[1..], stack)
         case Err(e) => Err(e)
         case Ok((rest, s)) => Ok(([ExpandElement(Peek(stack), f.key)] + rest, s)))
      case ArrayNode(_) => Err(UnsupportedOperation)
      case ScalarNode(_) => Err(IllegalState)
      case ObjectNode(_) =>
        var pushed := stack + [f.key];
        match NodeOps(f.value, pushed)
        case Err(e) => Err(e)
        case Ok((inner, s1)) =>
          var popped := s1[..|s1| - 1];
          assert popped == stack;
          match FieldOps(fields[1..], popped)
          case Err(e) => Err(e)
          case Ok((rest, s)) => Ok(([OpenObject(Peek(pushed))] + inner + [CloseObject(Peek(s1))] + rest, s))
  }

  /** `getOperations()`: the operations of the root, starting from a context
      stack holding only the root entity. */
  function GetOperations(root: Node): (r: Result<seq<Op>>)
    ensures !root.ObjectNode? ==> r == Ok([])
  {
    match NodeOps(root, [RootEntity])
    case Err(e) => Err(e)
    case Ok((ops, _)) => Ok(ops)
  }

  // ---------------------------------------------------------------------
  // Operations applied and printed

  /** `apply(generator)`: the object and array operations write the matching
      token; an expand operation writes nothing. */
  function Apply(op: Op): seq<Token> {
    match op
    case OpenObject(_) => [StartObject]
    case CloseObject(_) => [EndObject]
    case OpenArray(_) => [StartArray]
    case CloseArray(_) => [EndArray]
    case ExpandElement(_, _) => []
  }

  /** The tokens of applying every operation in turn. */
  function ApplyAll(ops: seq<Op>): seq<Token>
    decreases |ops|
  {
    if |ops| == 0 then [] else Apply(ops[0]) + ApplyAll(ops[1..])
  }

  /** `toString()`. */
  function ToString(op: Op): string {
    match op
    case OpenObject(c) => "Open Object [" + c + "]"
    case CloseObject(c) => "Close Object [" + c + "]"
    case OpenArray(c) => "Open Array [" + c + "]"
    case CloseArray(c) => "Close Array [" + c + "]"
    case ExpandElement(c, e) => "Expand element " + e + " [" + c + "]"
  }

  /** Two operations of the same kind. */
  predicate SameKind(a: Op, b: Op) {
    || (a.OpenObject? && b.OpenObject?)
    || (a.CloseObject? && b.CloseObject?)
    || (a.OpenArray? && b.OpenArray?)
    || (a.CloseArray? && b.CloseArray?)
    || (a.ExpandElement? && b.ExpandElement?)
  }

  /** The characters that tell the kinds apart: the first one, and the one
      after "Open " or "Close ". */
  lemma ToStringMarks(op: Op)
    ensures var t := ToString(op);
      && |t| > 6
      && t[0] == (if op.OpenObject? || op.OpenArray? then 'O' else if op.ExpandElement? then 'E' else 'C')
      && (op.OpenObject? || op.OpenArray? ==> t[5] == (if op.OpenObject? then 'O' else 'A'))
      && (op.CloseObject? || op.CloseArray? ==> t[6] == (if op.CloseObject? then 'O' else 'A'))
  {
  }

  /** Equal texts behind a common prefix, up to the closing bracket, are equal. */
  lemma Unbracket(p: string, x: string, y: string)
    requires p + x + "]" == p + y + "]"
    ensures x == y
  {
    assert |x| == |y|;
    assert x == (p + x + "]")[|p|..|p| + |x|];
    assert y == (p + y + "]")[|p|..|p| + |y|];
  }

  /** A text tells which kind of operation printed it, and an object or
      array operation's text tells its context too. An expand operation's
      text can be ambiguous (see `ExpandTextAmbiguous`). */
  lemma ToStringDistinguishes(a: Op, b: Op)
    ensures ToString(a) == ToString(b) ==> SameKind(a, b)
    ensures ToString(a) == ToString(b) && !a.ExpandElement? ==> a == b
  {
    if ToString(a) == ToString(b) {
      ToStringMarks(a);
      ToStringMarks(b);
      match a
      case OpenObject(c) => Unbracket("Open Object [", c, b.context);
      case CloseObject(c) => Unbracket("Close Object [", c, b.context);
      case OpenArray(c) => Unbracket("Open Array [", c, b.context);
      case CloseArray(c) => Unbracket("Close Array [", c, b.context);
      case ExpandElement(_, _) =>
    }
  }

  /** Element `a [b` in context `c` and element `a` in context `b [c`
      print alike. */
  lemma ExpandTextAmbiguous()
    ensures ExpandElement("c", "a [b") != ExpandElement("b [c", "a")
    ensures ToString(ExpandElement("c", "a [b")) == ToString(ExpandElement("b [c", "a"))
  {
  }

  /** Two operation lists that print alike have the same length, the same
      kind at every position, and the same object and array operations. */
  lemma RenderDistinguishes(ops: seq<Op>, others: seq<Op>)
    ensures Render(ops) == Render(others) ==>
      && |ops| == |others|
      && forall i | 0 <= i < |ops| :: SameKind(ops[i], others[i])
                                     && (!ops[i].ExpandElement? ==> ops[i] == others[i])
  {
    if Render(ops) == Render(others) {
      forall i | 0 <= i < |ops|
        ensures SameKind(ops[i], others[i]) && (!ops[i].ExpandElement? ==> ops[i] == others[i])
      {
        assert Render(ops)[i] == Render(others)[i];
        ToStringDistinguishes(ops[i], others[i]);
      }
    }
  }

  // ---------------------------------------------------------------------
  // The shape of an operation list

  /** Reads one operation with the open contexts `stack` (the root entity
      at the bottom): opens push their context, a close must name the
      innermost open context and may not close the root, an expand must be
      made in the innermost context, and array operations never occur. */
  function OpStep(op: Op, stack: seq<string>): Option<seq<string>> {
    if |stack| == 0 then None
    else
      match op
      case OpenObject(c) => Some(stack + [c])
      case CloseObject(c) => if |stack| > 1 && Peek(stack) == c then Some(stack[..|stack| - 1]) else None
      case ExpandElement(c, _) => if Peek(stack) == c then Some(stack) else None
      case _ => None
  }

  /** The open contexts after `ops`, or None at the first operation that
      breaks the rules. */
  function OpScan(ops: seq<Op>, stack: seq<string>): Option<seq<string>>
    decreases |ops|
  {
    if |ops| == 0 then Some(stack)
    else
      match OpStep(ops[0], stack)
      case None => None
      case Some(s) => OpScan(ops[1..], s)
  }

  lemma {:induction false} OpScanConcat(a: seq<Op>, b: seq<Op>, stack: seq<string>)
    ensures OpScan(a + b, stack) == (match OpScan(a, stack) case None => None case Some(s) => OpScan(b, s))
    decreases |a|
  {
    if |a| == 0 {
      assert a + b == b;
    } else {
      assert (a + b)[0] == a[0];
      assert (a + b)[1..] == a[1..] + b;
      match OpStep(a[0], stack)
      case None =>
      case Some(s) => OpScanConcat(a[1..], b, s);
    }
  }

  lemma OpScanCons(op: Op, rest: seq<Op>, stack: seq<string>)
    ensures OpScan([op] + rest, stack) == (match OpStep(op, stack) case None => None case Some(s) => OpScan(rest, s))
  {
    assert ([op] + rest)[0] == op;
    assert ([op] + rest)[1..] == rest;
  }

  /** The operations of any node are well formed where they are produced:
      opens and closes nest with matching contexts, each expand names the
      innermost enclosing key, and the stack comes back as it was. */
  lemma {:induction false} NodeOpsWellFormed(node: Node, stack: seq<string>)
    requires |stack| > 0 && NodeOps(node, stack).Ok?
    ensures OpScan(NodeOps(node, stack).value.0, stack) == Some(stack)
    decreases node
  {
    match node
    case ObjectNode(fields) => FieldOpsWellFormed(fields, stack);
    case _ =>
  }

  lemma {:induction false} FieldOpsWellFormed(fields: seq<Field>, stack: seq<string>)
    requires |stack| > 0 && FieldOps(fields, stack).Ok?
    ensures OpScan(FieldOps(fields, stack).value.0, stack) == Some(stack)
    decreases fields
  {
    if |fields| > 0 {
      var f := fields[0];
      assert f in fields;
      var rest := FieldOps(fields[1..], stack).value.0;
      FieldOpsWellFormed(fields[1..], stack);
      match f.value
      case NullNode =>
        OpScanCons(ExpandElement(Peek(stack), f.key), rest, stack);
      case ObjectNode(_) =>
        var pushed := stack + [f.key];
        var inner := NodeOps(f.value, pushed).value.0;
        NodeOpsWellFormed(f.value, pushed);
        var open := [OpenObject(f.key)];
        var close := [CloseObject(f.key)];
        OpScanCons(OpenObject(f.key), inner, stack);
        OpScanConcat(open + inner, close, stack);
        OpScanCons(CloseObject(f.key), [], pushed);
        assert pushed[..|pushed| - 1] == stack;
        OpScanConcat(open + inner + close, rest, stack);
    }
  }

  /** `getOperations()` yields a well-formed list: it starts and ends in the
      root context, so every open has its close. */
  lemma GetOperationsWellFormed(root: Node)
    requires GetOperations(root).Ok?
    ensures OpScan(GetOperations(root).value, [RootEntity]) == Some([RootEntity])
  {
    NodeOpsWellFormed(root, [RootEntity]);
  }

  /** Applying a well-formed list writes balanced object tokens. */
  lemma {:induction false} ApplyNesting(ops: seq<Op>, stack: seq<string>)
    requires OpScan(ops, stack).Some?
    ensures Nest(ApplyAll(ops), Objects(|stack|)) == Some(Objects(|OpScan(ops, stack).value|))
    decreases |ops|
  {
    if |ops| > 0 {
      var s := OpStep(ops[0], stack).value;
      ApplyNesting(ops[1..], s);
      NestConcat(Apply(ops[0]), ApplyAll(ops[1..]), Objects(|stack|));
      var o := Objects(|stack|);
      match ops[0]
      case OpenObject(_) =>
        assert Apply(ops[0])[1..] == [];
        assert o + [ObjectBracket] == Objects(|s|);
      case CloseObject(_) =>
        assert Apply(ops[0])[1..] == [];
        assert o[..|o| - 1] == Objects(|s|);
      case ExpandElement(_, _) =>
    }
  }

  /** A template without array or scalar fields always compiles. */
  predicate Plain(node: Node)
    decreases node
  {
    match node
    case ObjectNode(fields) => PlainFields(fields)
    case _ => true
  }

  predicate PlainFields(fields: seq<Field>)
    decreases fields
  {
    if |fields| == 0 then true
    else
      assert fields[0] in fields;
      (fields[0].value.NullNode? || (fields[0].value.ObjectNode? && Plain(fields[0].value)))
      && PlainFields(fields[1..])
  }

  /** Compilation fails exactly on array- or scalar-valued fields. */
  lemma {:induction false} NodeOpsSucceeds(node: Node, stack: seq<string>)
    requires |stack| > 0
    ensures NodeOps(node, stack).Ok? <==> Plain(node)
    decreases node
  {
    match node
    case ObjectNode(fields) => FieldOpsSucceeds(fields, stack);
    case _ =>
  }

  lemma {:induction false} FieldOpsSucceeds(fields: seq<Field>, stack: seq<string>)
    requires |stack| > 0
    ensures FieldOps(fields, stack).Ok? <==> PlainFields(fields)
    decreases fields
  {
    if |fields| > 0 {
      var f := fields[0];
      assert f in fields;
      FieldOpsSucceeds(fields[1..], stack);
      if f.value.ObjectNode? {
        NodeOpsSucceeds(f.value, stack + [f.key]);
      }
    }
  }

  // ---------------------------------------------------------------------
  // The repository's example

  /** The example template, with its key names as parameters:
      `{news: {kvs: null, nc: {kvs: null, cep: {kvs: null}, cip: {kvs: null}}}}`. */
  function Example(news: string, kvs: string, nc: string, cep: string, cip: string): Node {
    var leaf := Field(kvs, NullNode);
    ObjectNode([Field(news, ObjectNode([
      leaf,
      Field(nc, ObjectNode([
        leaf,
        Field(cep, ObjectNode([leaf])),
        Field(cip, ObjectNode([leaf]))]))]))])
  }

  /** The twelve operations the example compiles to. */
  lemma ExampleOps(news: string, kvs: string, nc: string, cep: string, cip: string)
    ensures GetOperations(Example(news, kvs, nc, cep, cip)) == Ok([
      OpenObject(news),
      ExpandElement(news, kvs),
      OpenObject(nc),
      ExpandElement(nc, kvs),
      OpenObject(cep),
      ExpandElement(cep, kvs),
      CloseObject(cep),
      OpenObject(cip),
      ExpandElement(cip, kvs),
      CloseObject(cip),
      CloseObject(nc),
      CloseObject(news)])
  {
    var leaf := Field(kvs, NullNode);
    var s0 := [RootEntity];
    var s1 := s0 + [news];
    var s2 := s1 + [nc];
    NoFieldOps(s2);
    // cip: {kvs: null}
    LeafOps(kvs, s2 + [cip]);
    ObjectFieldOps(cip, ObjectNode([leaf]), [], s2);
    var cipF := [Field(cip, ObjectNode([leaf]))];
    assert cipF == [Field(cip, ObjectNode([leaf]))] + [];
    var cipOps := [OpenObject(cip), ExpandElement(cip, kvs), CloseObject(cip)];
    assert Peek(s2 + [cip]) == cip;
    assert [OpenObject(cip)] + [ExpandElement(cip, kvs)] + [CloseObject(cip)] + [] == cipOps;
    assert FieldOps(cipF, s2) == Ok((cipOps, s2));
    // cep: {kvs: null}, then cip
    LeafOps(kvs, s2 + [cep]);
    ObjectFieldOps(cep, ObjectNode([leaf]), cipF, s2);
    var cepF := [Field(cep, ObjectNode([leaf]))] + cipF;
    var cepOps := [OpenObject(cep), ExpandElement(cep, kvs), CloseObject(cep)] + cipOps;
    assert Peek(s2 + [cep]) == cep;
    assert [OpenObject(cep)] + [ExpandElement(cep, kvs)] + [CloseObject(cep)] + cipOps == cepOps;
    assert FieldOps(cepF, s2) == Ok((cepOps, s2));
    // nc: {kvs: null, cep, cip}
    NullFieldOps(kvs, cepF, s2);
    var ncFields := [leaf] + cepF;
    assert Peek(s2) == nc;
    assert NodeOps(ObjectNode(ncFields), s2) == Ok(([ExpandElement(nc, kvs)] + cepOps, s2));
    NoFieldOps(s1);
    ObjectFieldOps(nc, ObjectNode(ncFields), [], s1);
    var ncF := [Field(nc, ObjectNode(ncFields))];
    assert ncF == [Field(nc, ObjectNode(ncFields))] + [];
    var ncOps := [OpenObject(nc)] + ([ExpandElement(nc, kvs)] + cepOps) + [CloseObject(nc)];
    assert ncOps + [] == ncOps;
    assert FieldOps(ncF, s1) == Ok((ncOps, s1));
    // news: {kvs: null, nc}
    NullFieldOps(kvs, ncF, s1);
    var newsFields := [leaf] + ncF;
    assert Peek(s1) == news;
    assert NodeOps(ObjectNode(newsFields), s1) == Ok(([ExpandElement(news, kvs)] + ncOps, s1));
    NoFieldOps(s0);
    ObjectFieldOps(news, ObjectNode(newsFields), [], s0);
    var root := [Field(news, ObjectNode(newsFields))];
    assert root == [Field(news, ObjectNode(newsFields))] + [];
    assert Example(news, kvs, nc, cep, cip) == ObjectNode(root) by {
      assert ncFields == [leaf, Field(cep, ObjectNode([leaf])), Field(cip, ObjectNode([leaf]))];
      assert newsFields == [leaf, Field(nc, ObjectNode(ncFields))];
    }
    var newsOps := [OpenObject(news)] + ([ExpandElement(news, kvs)] + ncOps) + [CloseObject(news)];
    assert FieldOps(root, s0) == Ok((newsOps + [], s0));
    assert newsOps + [] == newsOps;
    assert NodeOps(ObjectNode(root), s0) == Ok((newsOps, s0));
    assert newsOps == [OpenObject(news), ExpandElement(news, kvs), OpenObject(nc), ExpandElement(nc, kvs),
      OpenObject(cep), ExpandElement(cep, kvs), CloseObject(cep), OpenObject(cip), ExpandElement(cip, kvs),
      CloseObject(cip), CloseObject(nc), CloseObject(news)];
  }

  /** An object holding only a null field compiles to one expand operation. */
  lemma LeafOps(kvs: string, stack: seq<string>)
    requires |stack| > 0
    ensures NodeOps(ObjectNode([Field(kvs, NullNode)]), stack) == Ok(([ExpandElement(Peek(stack), kvs)], stack))
  {
    var fs := [Field(kvs, NullNode)];
    NoFieldOps(stack);
    NullFieldOps(kvs, [], stack);
    assert fs == [Field(kvs, NullNode)] + [];
    assert FieldOps(fs, stack) == Ok(([ExpandElement(Peek(stack), kvs)] + [], stack));
    assert [ExpandElement(Peek(stack), kvs)] + [] == [ExpandElement(Peek(stack), kvs)];
    assert NodeOps(ObjectNode(fs), stack) == FieldOps(fs, stack);
  }

  lemma NoFieldOps(stack: seq<string>)
    requires |stack| > 0
    ensures FieldOps([], stack) == Ok(([], stack))
  {
  }

  /** A null field in front adds its expand operation in front. */
  lemma NullFieldOps(k: string, rest: seq<Field>, stack: seq<string>)
    requires |stack| > 0 && FieldOps(rest, stack).Ok?
    ensures FieldOps([Field(k, NullNode)] + rest, stack)
         == Ok(([ExpandElement(Peek(stack), k)] + FieldOps(rest, stack).value.0, stack))
  {
    assert ([Field(k, NullNode)] + rest)[1..] == rest;
  }

  /** An object field in front adds its bracketed operations in front. */
  lemma ObjectFieldOps(k: string, node: Node, rest: seq<Field>, stack: seq<string>)
    requires node.ObjectNode? && |stack| > 0
    requires NodeOps(node, stack + [k]).Ok? && FieldOps(rest, stack).Ok?
    ensures FieldOps([Field(k, node)] + rest, stack)
         == Ok(([OpenObject(k)] + NodeOps(node, stack + [k]).value.0 + [CloseObject(k)]
                + FieldOps(rest, stack).value.0, stack))
  {
    var fs := [Field(k, node)] + rest;
    assert fs[0] == Field(k, node);
    assert fs[1..] == rest;
    assert (stack + [k])[..|stack + [k]| - 1] == stack;
  }

  /** The `toString()` of each operation, in order. */
  function Render(ops: seq<Op>): (texts: seq<string>)
    ensures |texts| == |ops| && forall i | 0 <= i < |ops| :: texts[i] == ToString(ops[i])
  {
    seq(|ops|, i requires 0 <= i < |ops| => ToString(ops[i]))
  }

  /** The texts the example's operations print as, which the repository's
      test joins with ", " between brackets (`List.toString`). */
  lemma ExampleText(news: string, kvs: string, nc: string, cep: string, cip: string)
    ensures GetOperations(Example(news, kvs, nc, cep, cip)).Ok?
    ensures Render(GetOperations(Example(news, kvs, nc, cep, cip)).value) == [
      "Open Object [" + news + "]",
      "Expand element " + kvs + " [" + news + "]",
      "Open Object [" + nc + "]",
      "Expand element " + kvs + " [" + nc + "]",
      "Open Object [" + cep + "]",
      "Expand element " + kvs + " [" + cep + "]",
      "Close Object [" + cep + "]",
      "Open Object [" + cip + "]",
      "Expand element " + kvs + " [" + cip + "]",
      "Close Object [" + cip + "]",
      "Close Object [" + nc + "]",
      "Close Object [" + news + "]"]
  {
    ExampleOps(news, kvs, nc, cep, cip);
  }
}

=== FILE: template_processor.dfy ===
/** `TemplateProcessor`: writes the root entity's field, then replays a
    template's operations until the first expand operation, which must
    name a known entity or relationship. */
module TemplateProcessor {
  import opened Wrappers
  import opened JsonTokens
  import opened Template

  /** The tokens written and the exception that escaped, if any. */
  datatype Outcome = Outcome(tokens: seq<Token>, failure: Option<Exception>)

  /** The position of the first expand operation, or the length of the
      list when there is none. */
  function FirstExpand(ops: seq<Op>): (k: nat)
    ensures k <= |ops|
    ensures forall i | 0 <= i < k :: !ops[i].ExpandElement?
    ensures k < |ops| ==> ops[k].ExpandElement?
    decreases |ops|
  {
    if |ops| == 0 || ops[0].ExpandElement? then 0 else 1 + FirstExpand(ops[1..])
  }

  /** `iterateTemplateEntities`: applies the operations in order; at the
      first expand operation it returns if the element is a key of the
      entities or of the relationships map, and otherwise throws
      IllegalArgumentException. Maps are modelled by the keys whose value
      is not null. */
  function Iterate(ops: seq<Op>, entities: set<string>, relationships: set<string>): (o: Outcome)
    ensures o.tokens == ApplyAll(ops[..FirstExpand(ops)])
    ensures o.failure.Some? <==> (FirstExpand(ops) < |ops|
      && ops[FirstExpand(ops)].element !in entities && ops[FirstExpand(ops)].element !in relationships)
    ensures o.failure.Some? ==> o.failure.value == IllegalArgument
    decreases |ops|
  {
    if |ops| == 0 then Outcome([], None)
    else
      match ops[0]
      case ExpandElement(_, element) =>
        if element in entities then Outcome([], None)
        else if element in relationships then Outcome([], None)
        else Outcome([], Some(IllegalArgument))
      case _ =>
        var rest := Iterate(ops[1..], entities, relationships);
        assert ops[..FirstExpand(ops)][1..] == ops[1..][..FirstExpand(ops[1..])];
        Outcome(Apply(ops[0]) + rest.tokens, rest.failure)
  }

  /** `process`: starts an object, names the root entity's field, iterates,
      and ends the object only when iteration returns normally. A template
      that does not compile throws after the first two tokens. */
  function Process(root: Node, entities: set<string>, relationships: set<string>): (o: Outcome)
    ensures |o.tokens| >= 2 && o.tokens[..2] == [StartObject, FieldName(RootEntity)]
    ensures o.failure.None? <==> (GetOperations(root).Ok?
      && Iterate(GetOperations(root).value, entities, relationships).failure.None?)
    ensures o.failure.None? ==> o.tokens[|o.tokens| - 1] == EndObject
  {
    var header := [StartObject, FieldName(RootEntity)];
    match GetOperations(root)
    case Err(e) => Outcome(header, Some(e))
    case Ok(ops) =>
      var it := Iterate(ops, entities, relationships);
      if it.failure.Some? then Outcome(header + it.tokens, it.failure)
      else Outcome(header + it.tokens + [EndObject], None)
  }

  /** A template without null fields has no expand operation, so all its
      operations are applied and the document comes out balanced. "Written
      out in full" is a statement about the list of tokens handed to the
      generator: Jackson itself rejects an object opened where a field name
      is expected, so the written list need not be a document Jackson
      would accept. */
  lemma ProcessWithoutExpand(root: Node, entities: set<string>, relationships: set<string>)
    requires GetOperations(root).Ok?
    requires forall i | 0 <= i < |GetOperations(root).value| :: !GetOperations(root).value[i].ExpandElement?
    ensures var o := Process(root, entities, relationships);
      o.failure.None? && Balanced(o.tokens)
  {
    var ops := GetOperations(root).value;
    var header := [StartObject, FieldName(RootEntity)];
    assert ops[..FirstExpand(ops)] == ops;
    GetOperationsWellFormed(root);
    ApplyNesting(ops, [RootEntity]);
    var o1 := Objects(1);
    assert Nest(header, []) == Some(o1) by {
      assert header[1..] == [FieldName(RootEntity)];
      assert Nest(header[1..], [ObjectBracket]) == Nest([], [ObjectBracket]);
      assert [] + [ObjectBracket] == [ObjectBracket] == o1;
    }
    NestConcat(header, ApplyAll(ops), []);
    NestConcat(header + ApplyAll(ops), [EndObject], []);
    assert [EndObject][1..] == [];
    assert o1[..0] == [];
  }

  /** Operations after the first expand operation are never applied, and
      an unknown element leaves the root object unclosed. */
  lemma ProcessStopsAtExpand(root: Node, entities: set<string>, relationships: set<string>)
    requires GetOperations(root).Ok?
    ensures var ops := GetOperations(root).value;
      var o := Process(root, entities, relationships);
      var k := FirstExpand(ops);
      o.tokens == [StartObject, FieldName(RootEntity)] + ApplyAll(ops[..k])
                  + (if o.failure.None? then [EndObject] else [])
  {
  }
}

=== FILE: triples.dfy ===
/** HDT triple ids as the two benchmark joins see them: three integer ids
    and a role that selects one of them. */
module Triples {

  /** `TripleComponentRole`. */
  datatype Role = Subject | Predicate | Object

  /** `TripleID`: the subject, predicate and object ids. Its `equals`
      compares the three ids, which is datatype equality here. */
  datatype Triple = Triple(subjectId: int, predicateId: int, objectId: int)

  /** `getId(t, role)`: the id the role names. */
  function GetId(t: Triple, role: Role): int {
    match role
    case Subject => t.subjectId
    case Predicate => t.predicateId
    case Object => t.objectId
  }

  /** The triple with the id of `role` replaced by `v`. `GetId` reads back
      exactly that id and is blind to the change under the two other
      roles. */
  function WithId(t: Triple, role: Role, v: int): (r: Triple)
    ensures GetId(r, role) == v
    ensures forall other: Role | other != role :: GetId(r, other) == GetId(t, other)
    ensures GetId(t, role) == v ==> r == t
  {
    match role
    case Subject => t.(subjectId := v)
    case Predicate => t.(predicateId := v)
    case Object => t.(objectId := v)
  }

  /** The index of the first triple of `s` whose `role` id is at least
      `target`; `|s|` when there is none. */
  function Skip(s: seq<Triple>, role: Role, target: int): (k: nat)
    ensures k <= |s|
    ensures forall i {:trigger GetId(s[i], role)} | 0 <= i < k :: GetId(s[i], role) < target
    ensures k < |s| ==> GetId(s[k], role) >= target
    decreases |s|
  {
    if |s| == 0 then 0
    else if GetId(s[0], role) >= target then 0
    else
      var k := Skip(s[1..], role, target);
      assert forall i | 1 <= i < k + 1 :: s[i] == s[1..][i - 1];
      1 + k
  }

  /** `Skip` is the only index with its two properties. */
  lemma SkipIs(s: seq<Triple>, role: Role, target: int, n: nat)
    requires n <= |s|
    requires forall i {:trigger GetId(s[i], role)} | 0 <= i < n :: GetId(s[i], role) < target
    requires n < |s| ==> GetId(s[n], role) >= target
    ensures Skip(s, role, target) == n
  {
  }

  /** The `role` ids never decrease along `s` (the order an HDT iterator
      sorted on that role yields). */
  predicate Ascending(s: seq<Triple>, role: Role) {
    forall i, j | 0 <= i < j < |s| :: GetId(s[i], role) <= GetId(s[j], role)
  }

  /** Some triple of `s` has `id` as its `role` id. */
  predicate HasId(s: seq<Triple>, role: Role, id: int) {
    exists j {:trigger GetId(s[j], role)} | 0 <= j < |s| :: GetId(s[j], role) == id
  }

  /** The number of triples of `l` whose `lr` id is the `rr` id of some
      triple of `r`: the count an equi-join on those ids reports when it
      counts left triples. */
  function CountWithId(l: seq<Triple>, lr: Role, r: seq<Triple>, rr: Role): (n: nat)
    ensures n <= |l|
    decreases |l|
  {
    if |l| == 0 then 0
    else (if HasId(r, rr, GetId(l[0], lr)) then 1 else 0) + CountWithId(l[1..], lr, r, rr)
  }

  /** Fewer right triples match no more left triples. */
  lemma {:induction false} CountWithIdSuffix(l: seq<Triple>, lr: Role, r: seq<Triple>, rr: Role, k: nat)
    requires k <= |r|
    ensures CountWithId(l, lr, r[k..], rr) <= CountWithId(l, lr, r, rr)
    decreases |l|
  {
    if |l| > 0 {
      CountWithIdSuffix(l[1..], lr, r, rr, k);
      var id := GetId(l[0], lr);
      if HasId(r[k..], rr, id) {
        var j :| 0 <= j < |r[k..]| && GetId(r[k..][j], rr) == id;
        assert r[k + j] == r[k..][j];
      }
    }
  }
}

=== FILE: wrappers.dfy ===
/** Failure-carrying results shared by every module of the model. */
module Wrappers {

  /** The value or the absence of one (a Java `null`). */
  datatype Option<+T> = None | Some(value: T)

  /** The Java exceptions that the modelled code raises. */
  datatype Exception =
    | IllegalArgument       // java.lang.IllegalArgumentException
    | IllegalState          // java.lang.IllegalStateException
    | UnsupportedOperation  // java.lang.UnsupportedOperationException
    | NullPointer           // java.lang.NullPointerException
    | IndexOutOfBounds      // java.lang.ArrayIndexOutOfBoundsException

  /** Either a returned value or a thrown exception. */
  datatype Result<+T> = Ok(value: T) | Err(error: Exception)
}
